=== FILE: README.md ===
# Property-analysis backend: a Dafny model of its request logic

This project models the decision logic of a FastAPI backend. The backend:

- registers and logs in users;
- keeps a rotating refresh-token session in a cookie;
- guards routes with a JWT bearer middleware;
- stores images in S3;
- regenerates property photos through Gemini or OpenAI;
- extracts photos and their captions from uploaded PDFs.

Every endpoint and service becomes a pure function over immutable data. I/O is never performed. The outcome of each I/O call is a parameter:

- the database becomes a `Store` value that each endpoint threads;
- bcrypt and SHA-256 are the function values of a `Crypto`;
- JWT signing and decoding are the function values of a `Codec`;
- S3 transfers, PDF rendering, base64 decoding and the LLM replies are oracle functions in each module's `Env`;
- the wall clock is a `now: int` in seconds;
- generated ids, UUIDs and opaque tokens are arguments.

Modules, one per source file:

| module | file | source |
|---|---|---|
| `Session` | auth_controller.dfy | app/controller/auth_controller.py |
| `Token` | token.dfy | app/services/token.py |
| `JwtAuth` | jwt_auth.dfy | app/middleware/jwt_auth.py |
| `Config` | config.dfy | app/config.py |
| `S3` | s3_service.dfy | app/services/s3_service.py |
| `LlmCommon`, `Gemini` | llm_common.dfy, gemini_client.dfy | app/llm/gemini_client.py |
| `OpenAI` | openai_client.dfy | app/llm/openai_client.py |
| `PdfExtractor` | pdf_extractor.dfy | app/services/pdf_extractor.py |
| `ChatController` | chat_controller.dfy | app/controller/chat_controller.py |
| `DocController` | doc_controller.dfy | app/controller/doc_controller.py |
| `Routes` | routes.dfy | app/route/__init__.py |
| `AuthModel` | auth_model.dfy | app/model/auth_model.py |

The shared modules are:

- `Wrappers`: `Option`, `Result`, and Python truthiness of optional strings;
- `Strings`: `split`, `strip`, `lower`, `endswith` and `in` on `str`;
- `Paths`: `PurePosixPath.name` and `.stem`;
- `Responses`: the `{"result": …}` / `{"error": …}` envelope of app/utils/response.py;
- `Seqs`: the loop shapes the services share, over a loop body given as a function of the element and its index: mapping, keeping the present results, concatenating per-element lists, and collecting until the first failure. Each has its append lemma.

The session model keeps the users as a sequence, because `find_one` returns the first match. Refresh records live in a map keyed by token hash. Each endpoint returns an `Outcome`: the JSON response, what happens to the `refresh_token` cookie, and the new store. `Session.Run` applies a sequence of calls. The invariants over runs are:

- no refresh record is lost;
- `revoked` only moves from false to true;
- every record stays filed under its own hash.

The three handlers that read the users collection call `get_users_collection()`, an async method, without `await` (app/controller/auth_controller.py:26, 68, 164). As written, each of them fails on the following `find_one`. `Session.Register`, `Session.Login` and `Session.Refresh`, and every property stated over them, describe the handlers with that call awaited. `RegisterWith`, `LoginWith` and `RefreshWith` hold each handler's body over the handle it gets back, so the intended and the as-written members differ only in that handle. The as-written members are listed under "## Findings".

The code never checks that a newly generated token's hash is new. The model therefore states that assumption, `FreshFor`, as a premise of the lemmas that need it.

## Model

| member | source | states |
|---|---|---|
| `Session.Register` | app/controller/auth_controller.py:21-62 | Offline gives 503. A registered email gives 400 "Email already registered" with the store unchanged. A hashing failure gives 500 "Registration failed". Otherwise the result is 201 with the profile body of that email, full name, creation time and `is_active` true. Exactly one user is appended: that email, the password's hash and `is_active` true. The token store is never touched |
| `Session.Login` | app/controller/auth_controller.py:64-117 | Succeeds iff the email is found, the password verifies against its hash and the account is active. A 403 "Account is inactive" implies the password verified. Every failure leaves the store and cookie alone. On success one record is stored under the new token's hash, with expiry now + days·86400, and the controller sets the refresh cookie on the injected response. The response carries `expires_in` = minutes·60 |
| `Session.Refresh` | app/controller/auth_controller.py:119-204 | Checks run in order: missing cookie, unknown hash, revoked, `expires_at < now`. Each failure is 401 with the store unchanged; only the missing case leaves the cookie alone. A missing owner leaves the presented record revoked and inserts nothing. Success revokes the presented record and inserts one unrevoked record for the same user |
| `Session.RegisterAsWritten` | app/controller/auth_controller.py:21-62 | With the users collection not awaited, every request gets 500 "Registration failed", with the store and cookie unchanged; the 503 branch is never reached |
| `Session.LoginAsWritten` | app/controller/auth_controller.py:64-116 | With the users collection not awaited, every request gets 500 "Login failed", with the store and cookie unchanged |
| `Session.RefreshAsWritten` | app/controller/auth_controller.py:118-204 | With the users collection not awaited, no request succeeds. A request failing a token check is answered as by the intended handler. A token passing every check is revoked, then the request gets 500 "Token refresh failed" with no new record and no cookie |
| `Session.RegisterAsWrittenRefusesValidRequest` | app/controller/auth_controller.py:26-57 | A registration the awaited handler accepts with 201 gets 500 as written |
| `Session.LoginAsWrittenRefusesValidCredentials` | app/controller/auth_controller.py:68-112 | Valid credentials of an active user get 200 from the awaited handler and 500 without a cookie as written |
| `Session.RefreshAsWrittenBurnsLiveToken` | app/controller/auth_controller.py:155-204 | A live token whose owner exists is rotated with 200 by the awaited handler. As written it is revoked, the answer is 500 with no cookie, and presenting the same cookie again gets 401 "Token has been revoked" |
| `Session.Logout` | app/controller/auth_controller.py:206-220 | Always 200 "Logged out successfully", and the controller deletes the cookie on the injected response. When the token is present and the database is reachable, its record becomes that record with `revoked` set and every other field kept. Every other record is unchanged |
| `Session.FindUser` | app/controller/auth_controller.py:33 | `find_one`: the first matching user, or None exactly when no user matches |
| `Session.LoginFailuresIndistinguishable` | app/controller/auth_controller.py:69-72 | An unknown email and a wrong password give the identical outcome, 401 "Invalid email or password", with the store unchanged |
| `Session.LoginAddsOneRecord` | app/controller/auth_controller.py:83-96 | With a fresh token, login adds exactly one key. The new record is unrevoked and expires after the configured days. Every existing record is unchanged |
| `Session.CookieSecureInProduction` | app/controller/auth_controller.py:99-107 | The refresh cookie the controller sets is secure iff the environment lower-cases to "production". It is HttpOnly and restricted to "/auth/refresh" |
| `Session.ExpiryIsStrict` | app/controller/auth_controller.py:151-153 | A record whose `expires_at` equals now is still accepted; one second later it is refused as "Token expired" |
| `Session.RotatedTokenRejected` | app/controller/auth_controller.py:157-187 | After a successful refresh the new token is on file, unrevoked, for the same user. Presenting the old token again gives "Token has been revoked" |
| `Session.MissingUserStillRevokes` | app/controller/auth_controller.py:157-169 | If the owner no longer exists, refresh answers 401 "User not found", keeps the key set and leaves the presented record revoked |
| `Session.LogoutIdempotent` | app/controller/auth_controller.py:206-220 | Logging out twice yields the same response, cookie and store as logging out once |
| `Session.LogoutThenRefreshRefused` | app/controller/auth_controller.py:209-215 | A token that was logged out is refused as revoked by refresh |
| `Session.RegisterThenLogin` | app/controller/auth_controller.py:46-55 | With sound crypto, a user just registered can log in with the same password, and the session record names the new user's id |
| `Session.RegisterKeepsEmailsUnique` | app/controller/auth_controller.py:33-35 | The duplicate check keeps emails unique across registrations |
| `Session.RegisteredUserIsDefaultRecord` | app/controller/auth_controller.py:46-52 | The registered document agrees with `UserInDB`'s defaults: active, no full name, created now, and it stores the hash, not the password |
| `Session.StepEvolves` | app/controller/auth_controller.py:145-161 | Each endpoint, given a fresh token, keeps every record and changes a record at most by revoking it |
| `Session.RunEvolves` | app/controller/auth_controller.py:158-161 | Over any sequence of calls with fresh tokens, no record is lost and `revoked` never goes from true to false |
| `Session.StepKeepsKeys` | app/controller/auth_controller.py:86-96 | Every endpoint keeps each record filed under its own `token_hash` |
| `Session.RevokedStaysRevoked` | app/controller/auth_controller.py:158-161 | Under the evolution relation a revoked record stays revoked |
| `Token.CreateClaims` | app/services/token.py:15-25 | The claims are the caller's keys plus `exp`, with the caller's values kept. `exp` is now + delta for a non-zero delta, otherwise now + minutes·60 |
| `Token.CreateClaimsKeepsData` | app/services/token.py:19 | Removing `exp` gives back the caller's map, which is therefore unchanged |
| `Token.ZeroDeltaIsDefault` | app/services/token.py:20-23 | A zero delta is falsy and behaves as no delta |
| `Token.DecryptToken` | app/services/token.py:29-42 | Success iff the codec yields a payload. A `JWTError` becomes 403 "Invalid token or expired token"; any other failure escapes |
| `Token.VerifyToken` | app/services/token.py:44-88 | An absent or empty header gives 401 "Not authenticated". Not exactly two whitespace-separated words gives 401 "Invalid authorization header format". A scheme not lower-casing to "bearer" gives 401 "Invalid authentication scheme". Success iff the token decodes, returning its claims. Every failure is 401 or 403 |
| `Token.BearerHeader` | app/services/token.py:66-88 | For "scheme token" with a bearer scheme, the decode outcome passes through: 403 for a `JWTError`, 401 "Invalid token" for another failure, otherwise the claims |
| `Token.SchemeIgnoresCase` | app/services/token.py:72 | "BEARER t" and "bearer t" are verified alike |
| `Token.BareTokenIsFormatError` | app/services/token.py:66-70 | A single word without a scheme is a format error |
| `JwtAuth.ExcludePaths` | app/middleware/jwt_auth.py:19-21 | The exclusion list is never empty: an omitted or empty list means `PUBLIC_PATHS`, any other list is used as given |
| `JwtAuth.IsPublic` | app/middleware/jwt_auth.py:30 | A path is public iff some excluded entry is a prefix of it |
| `JwtAuth.Dispatch` | app/middleware/jwt_auth.py:23-54 | Public paths are forwarded without a payload. A protected request without a header gets 401 "Authentication required". Otherwise a verified payload is forwarded and a verification error maps to its own status and detail |
| `JwtAuth.NoneAndEmptyAgree` | app/middleware/jwt_auth.py:21 | A middleware built with `None` and one built with `[]` decide every request alike |
| `JwtAuth.BelowPublicPrefixIsPublic` | app/middleware/jwt_auth.py:8-16 | "/auth/refresh" followed by anything, and "/docs" followed by anything ("/docsX" included), are public |
| `JwtAuth.PublicIgnoresHeader` | app/middleware/jwt_auth.py:30-32 | A public request is forwarded whatever its header and codec |
| `JwtAuth.NeverNotAuthenticated` | app/middleware/jwt_auth.py:37-44 | The middleware never answers "Not authenticated": an empty header is caught first |
| `JwtAuth.RefusalsAreAuthErrors` | app/middleware/jwt_auth.py:40-51 | Every refusal is 401 or 403 |
| `Config.GetSettings` | app/config.py:53-93 | In production: `DEBUG` false, `LOG_LEVEL` "INFO", the five production CORS headers, origins parsed from the setting. Otherwise: `DEBUG` true, `LOG_LEVEL` "DEBUG", the four localhost origins. Other fields are unchanged |
| `Config.ProductionOrigins` | app/config.py:65-73 | An empty setting, or one that is "*" after unquoting, gives no origins. Otherwise every origin is non-empty and unpadded |
| `Config.CleanOrigins` | app/config.py:71 | Stripped pieces with empties dropped: no more pieces than given, each non-empty and unpadded |
| `Config.ProductionOriginsRoundTrip` | app/config.py:67-71 | A comma-joined list of clean origins parses back to exactly that list, order kept |
| `Config.CleanOriginsOfClean` | app/config.py:71 | Pieces already clean pass the filter unchanged |
| `Config.CleanOriginsAppend` | app/config.py:71 | The filter distributes over concatenation: pieces keep their order |
| `Config.CleanOriginsOne` | app/config.py:71 | One piece gives its stripped text, or nothing when that text is empty |
| `Config.CleanOriginsStripped` | app/config.py:71 | Pieces that strip to the non-empty origins give exactly those origins |
| `Config.PaddedOriginsTrimmed` | app/config.py:65-73 | Plain origins, each padded on both sides with the same whitespace and joined with ",", parse back to exactly the origins |
| `Config.QuotedWildcardRefused` | app/config.py:67-69 | "*", "\"*\"", "'*'" and "\"'*'\"" all give an empty origin list |
| `Config.WildcardAmongOthersKept` | app/config.py:67-71 | The wildcard is refused only as the whole setting: "*,o" gives ["*", o] |
| `Config.UnquoteNested` | app/config.py:67 | Every leading and trailing double quote is stripped, then every leading and trailing single quote: "\"'*'\"" unquotes to "*" |
| `Config.UnquoteDouble` | app/config.py:67 | "\"*\"" unquotes to "*" |
| `Config.UnquoteSingle` | app/config.py:67 | "'*'" unquotes to "*" |
| `Config.UnquoteBare` | app/config.py:67 | Unquoting leaves a bare "*" alone |
| `Config.StripUnpadded` | app/config.py:71 | `strip` leaves text with no leading or trailing whitespace unchanged |
| `Strings.SplitJoin` | app/config.py:71 | `split(",")` inverts joining with "," when no piece holds a comma |
| `Strings.JoinSplit` | app/config.py:71 | Joining the pieces of `split(",")` with "," gives back the text, and no piece holds the separator |
| `Strings.SplitWsTwoWords` | app/services/token.py:66 | `split()` of "a b", for two words without whitespace, is [a, b] |
| `Strings.SplitHead` | app/llm/gemini_client.py:47 | The first piece of `split(sep)` is a prefix without the separator, followed by the separator when shorter than the text |
| `Config.ProductionIgnoresCase` | app/config.py:61 | "PRODUCTION" selects production |
| `Config.ProductionNeedsWholeWord` | app/config.py:61 | "prod" and " production" do not select production |
| `Config.SettingsDependOnLoweredEnvironment` | app/config.py:61 | Two environment spellings that lower-case alike give the same settings |
| `Config.DevelopmentIgnoresOriginText` | app/config.py:81-91 | Outside production the origin text has no effect |
| `Config.DefaultsAreDevelopment` | app/config.py:4-28 | The declared defaults give a development configuration |
| `S3.NewClient` | app/services/s3_service.py:19-39 | The client is initialised iff both credentials and the bucket name are set, and then carries the bucket and region |
| `S3.GenerateKey` | app/services/s3_service.py:43-47 | The key is the slash-stripped folder, "/", eight characters of the UUID, "_", the file name, ".", the extension |
| `S3.PublicUrl` | app/services/s3_service.py:146-156 | The URL is the bucket/region prefix, ".amazonaws.com/", then exactly the key |
| `S3.ExtensionFor` | app/services/s3_service.py:178-184 | jpeg→jpg, gif→gif, webp→webp; everything else, png included, →png |
| `S3.UploadFile` | app/services/s3_service.py:49-93 | The input key when the client is initialised and the transfer succeeds, otherwise None |
| `S3.UploadImage` | app/services/s3_service.py:158-199 | A record iff the upload succeeds: the generated key, its public URL and the bucket |
| `LlmCommon.ExtractS3Key` | app/llm/gemini_client.py:39-51 | None iff ".amazonaws.com/" does not occur. Otherwise the key is the text after the first marker, cut at its first "?" when it has one |
| `LlmCommon.ExtractKeyOfPublicUrl` | app/llm/gemini_client.py:39-51 | Round trip: the key extracted from the public URL of a key without "?" or the marker is that key |
| `LlmCommon.QueryCut` | app/llm/gemini_client.py:45-48 | A public URL followed by "?" and a query string yields the bare key |
| `LlmCommon.MarkerAfterPrefix` | app/services/s3_service.py:156 | In a public URL the first marker sits right after the bucket/region prefix |
| `LlmCommon.NoMarkerNoKey` | app/llm/openai_client.py:31-41 | A URL without the marker yields no key |
| `LlmCommon.DataPayload` | app/llm/gemini_client.py:32-37 | The decoded segment holds no comma, and data without a comma is decoded whole |
| `LlmCommon.CommaGivesTwoPieces` | app/llm/gemini_client.py:34-35 | Data that holds a comma splits into at least two pieces, so `split(",")[1]` exists |
| `LlmCommon.DataPayloadOfDataUrl` | app/llm/openai_client.py:54-59 | "header,payload" decodes the payload |
| `LlmCommon.DataPayloadDropsLaterSegments` | app/llm/gemini_client.py:34-35 | Only the segment between the first and second commas is decoded |
| `Gemini.PickSource` | app/llm/gemini_client.py:108-123 | Priority url, then s3_key, then data, with empty strings absent; the chosen field's text is carried unchanged. Data starting with "http://" or "https://" is treated as a URL to that data |
| `Gemini.LoadKey` | app/llm/gemini_client.py:62-67 | Skipped iff the download fails or is empty. Raises iff non-empty bytes do not open. Otherwise the downloaded bytes, which open |
| `Gemini.LoadUrl` | app/llm/gemini_client.py:53-60 | A URL without a usable key skips; otherwise it loads as that key |
| `Gemini.LoadBase64` | app/llm/gemini_client.py:124-128 | Base64 never raises. It loads iff the decoded payload segment opens |
| `Gemini.LoadAll` | app/llm/gemini_client.py:108-133 | Fails with the open error iff some image raises. Otherwise keeps the opened images, and yields nothing iff every image was skipped |
| `Gemini.LoadAllAppend` | app/llm/gemini_client.py:108-133 | Loading a + b fails iff either half fails; otherwise it is a's images followed by b's |
| `Gemini.LoadAllOne` | app/llm/gemini_client.py:108-133 | One image: its bytes when it loads, nothing when skipped, the open error when it raises |
| `Gemini.ShapeImage` | app/llm/gemini_client.py:158-185 | A generated image is a URL iff the upload was asked for and succeeded, with the public URL of a "regenerated/…_regen" key; otherwise it is its base64. The MIME type is kept |
| `Gemini.ShapeImages` | app/llm/gemini_client.py:155-185 | One image per inline part, in order. All inline when uploads are off |
| `Gemini.ShapeImagesAppend` | app/llm/gemini_client.py:155-185 | Shaping a + b is a's images followed by b's, b's inline parts numbered after a's |
| `Gemini.ShapeImagesOne` | app/llm/gemini_client.py:155-185 | An inline part becomes its one shaped image with its MIME type or "image/png"; any other part contributes nothing |
| `Gemini.MimeOrPng` | app/llm/gemini_client.py:161 | The part's MIME type when given, otherwise "image/png" |
| `Gemini.Regenerate` | app/llm/gemini_client.py:83-201 | Nothing loaded gives "No valid images could be loaded". An image that cannot be opened, or a model call that raises, gives that exception's text with "Failed to generate images". An error gives no images. Success iff images loaded and the model answered; then `input_count` is the number supplied, the images are the reply's parts shaped in order, one per inline part, and the text parts form the description |
| `Gemini.UrlDecides` | app/llm/gemini_client.py:113-114 | With a non-empty url, the s3_key and data fields do not matter |
| `Gemini.NoFallThroughFromUrl` | app/llm/gemini_client.py:113-117 | A url that yields no key skips the image; s3_key is not tried |
| `Gemini.EmptyUrlIsAbsent` | app/llm/gemini_client.py:113-117 | An empty url counts as absent, so the s3_key is used |
| `Gemini.DataUrlLoadsLikeUrl` | app/llm/gemini_client.py:122-123 | An http(s) string in data loads exactly as in url |
| `Gemini.ModelNotConsultedWithoutImages` | app/llm/gemini_client.py:135-140 | When nothing loads, the model's reply does not affect the result |
| `Gemini.InputCountCountsSkipped` | app/llm/gemini_client.py:189-193 | `input_count` counts a skipped image too |
| `OpenAI.ImageBytes` | app/llm/openai_client.py:43-63 | A url with a usable key returns that download directly. Otherwise s3_key, then the data's payload segment decoded, then None |
| `OpenAI.Files` | app/llm/openai_client.py:78-87 | The non-empty byte strings, at most one per input; empty iff no input resolves. When every input resolves, the j-th file is the j-th input's bytes |
| `OpenAI.FilesAppend` | app/llm/openai_client.py:78-87 | The files of a + b are a's followed by b's |
| `OpenAI.FilesOne` | app/llm/openai_client.py:78-87 | One input gives its bytes when they are non-empty, otherwise nothing |
| `OpenAI.ShapeItem` | app/llm/openai_client.py:114-146 | A b64 item is a URL iff the upload was asked for and succeeded, namely the public URL of a "regenerated/…_openai_regen.png" key; else its base64; an undecodable one fails the call. A url-only item passes through. All are "image/png" |
| `OpenAI.ShapeItems` | app/llm/openai_client.py:113-147 | The first decode failure aborts; otherwise at most one image per item, all "image/png" |
| `OpenAI.ShapeItemsAppend` | app/llm/openai_client.py:113-147 | Shaping a + b fails iff either half fails; otherwise a's images followed by b's, b's items numbered after a's |
| `OpenAI.ShapeItemsOne` | app/llm/openai_client.py:113-147 | One item gives its shaped image, nothing for an item with neither field, or its failure |
| `OpenAI.Regenerate` | app/llm/openai_client.py:65-162 | No files gives "No valid images could be loaded". An edit call that raises gives its exception's text, and an undecodable item the decode error's text, with "Failed to generate images". Success iff files exist, the call succeeds and the items decode; then `input_count` is the number supplied, the images are the reply's items shaped in order, with the fixed description |
| `OpenAI.UrlKeyIsFinal` | app/llm/openai_client.py:46-49 | A url with a usable key returns that download even when it is None; the other fields do not matter |
| `OpenAI.UrlWithoutMarkerFallsThrough` | app/llm/openai_client.py:46-54 | A url without the marker behaves as no url |
| `OpenAI.DataSegmentDecoded` | app/llm/openai_client.py:54-59 | "header,payload" data decodes the payload |
| `OpenAI.NoCallWithoutFiles` | app/llm/openai_client.py:89-94 | Without files, the endpoint's reply does not affect the result |
| `OpenAI.ClientsDisagreeOnFallThrough` | app/llm/openai_client.py:46-54 | A non-empty url without ".amazonaws.com/" is skipped by Gemini, but OpenAI falls through to s3_key |
| `PdfExtractor.AreaTestImplied` | app/services/pdf_extractor.py:159-175 | An image is kept iff width ≥ 150 and height ≥ 100; the area test adds nothing |
| `PdfExtractor.SortImages` | app/services/pdf_extractor.py:55 | The images are ordered by (top, x0) and form a permutation of the input |
| `PdfExtractor.Insert` | app/services/pdf_extractor.py:55 | Inserting into an ordered list keeps it ordered and adds exactly that box |
| `PdfExtractor.CaptionBox` | app/services/pdf_extractor.py:183-188 | The caption box starts at the image bottom. Its left edge is the larger of 0 and the image's; its right edge the smaller of the page width and the image's; its bottom the smaller of the page height and the image bottom + offset |
| `PdfExtractor.CaptionBoxWithinPage` | app/services/pdf_extractor.py:183-188 | For an image well inside the page the caption box is the strip of `offset` below it |
| `PdfExtractor.ExtractImage` | app/services/pdf_extractor.py:146-228 | A record iff no crash, kept by size, rendered, and uploaded. It is named "page{p+1}_img{k+1}.png", on page p+1, "image/png" |
| `PdfExtractor.ExtractedRecord` | app/services/pdf_extractor.py:190-225 | A record carries the stripped caption text and the public URL of its generated key |
| `PdfExtractor.PageLoop` | app/services/pdf_extractor.py:57-73 | At most one record per image, each on the page and "image/png" |
| `PdfExtractor.PagesLoop` | app/services/pdf_extractor.py:114-137 | Every record's page lies within the pages processed |
| `PdfExtractor.PagesLoopAppend` | app/services/pdf_extractor.py:114-137 | The records of pages a + b are a's followed by b's, b's pages numbered after a's |
| `PdfExtractor.PagesLoopOne` | app/services/pdf_extractor.py:114-137 | A single page contributes exactly the records extracted from that page |
| `PdfExtractor.ExtractPageOn` | app/services/pdf_extractor.py:119-136 | Every record extracted from page index q carries page number q + 1 |
| `PdfExtractor.ExtractFromBytes` | app/services/pdf_extractor.py:82-144 | A result iff the document opens. `total_pages` is its page count, and the images are the pages loop over the document from page 1, so every image's page is between 1 and it |
| `PdfExtractor.ExtractWithUrls` | app/services/pdf_extractor.py:23-80 | The same loops, reported under the path's last component |
| `PdfExtractor.FailureDropsOnlyItself` | app/services/pdf_extractor.py:68-73 | A dropped image removes only itself; the images after it keep their ranks |
| `PdfExtractor.RanksName` | app/services/pdf_extractor.py:119-121 | When every image goes through, the j-th record is named after rank k + j |
| `PdfExtractor.PagesCountedWithoutImages` | app/services/pdf_extractor.py:112-117 | Pages without images are counted and contribute no records |
| `PdfExtractor.ExtractedOnPage` | app/services/pdf_extractor.py:211-225 | Every extracted record is a PNG on page index + 1 |
| `PdfExtractor.NoImagesNoRecords` | app/services/pdf_extractor.py:114-137 | Pages without any images yield no records |
| `PdfExtractor.FirstImageName` | app/services/pdf_extractor.py:208 | The first image of the first page is "page1_img1.png" |
| `Paths.Name` | app/services/pdf_extractor.py:41 | `Path(p).name` contains no "/" |
| `Paths.Stem` | app/controller/doc_controller.py:89 | The stem is a prefix of the name. When it differs, the name continues with the last "." |
| `Paths.NameOfPlainFile` | app/services/pdf_extractor.py:41 | A name without "/" is its own `.name` |
| `Paths.NameOfPath` | app/services/pdf_extractor.py:41 | The name of "dir/file", for a non-empty file without "/", is file |
| `Paths.StemDropsPdf` | app/controller/doc_controller.py:89 | The stem of "x.pdf" is x |
| `ChatController.RegenerateImages` | app/controller/chat_controller.py:17-87 | Checks run in order: no images 400, blank feedback 400, no usable image 400. A client that cannot be built gives 500 "Error regenerating images: …". Otherwise the answer is `Respond` applied to Gemini's result over the usable images: a truthy error is 500, success keeps only entries with a URL and counts them in the message |
| `ChatController.Respond` | app/controller/chat_controller.py:63-83 | A truthy error gives 500 "Image regeneration failed: …". Otherwise 200 with only the URL entries, and the count of them in the message |
| `ChatController.ValidImages` | app/controller/chat_controller.py:44 | Exactly the inputs with a non-empty url, s3_key or data |
| `ChatController.UrlEntries` | app/controller/chat_controller.py:67-74 | Only entries with a non-empty url are kept. When every image is such a URL, each becomes its entry with the same url and MIME type, in order |
| `ChatController.UrlEntriesAppend` | app/controller/chat_controller.py:67-74 | The entries of a + b are a's followed by b's |
| `ChatController.UrlEntriesOne` | app/controller/chat_controller.py:67-74 | One image gives its entry iff it is a URL image with a non-empty url |
| `ChatController.EmptyImagesCheckedFirst` | app/controller/chat_controller.py:37-41 | An empty image list is refused whatever the feedback |
| `ChatController.AllUsableKept` | app/controller/chat_controller.py:44 | All-usable inputs pass the filter unchanged |
| `ChatController.ValidImagesAppend` | app/controller/chat_controller.py:44 | The filter keeps input order: it distributes over concatenation |
| `ChatController.InputCountIsUsableCount` | app/controller/chat_controller.py:79 | The reported count is the number of usable images |
| `ChatController.EmptyErrorTextPassesThrough` | app/controller/chat_controller.py:63 | A client error with empty text is falsy, so the call succeeds with no images |
| `ChatController.ModelFailureIs500` | app/controller/chat_controller.py:49-64 | A model call that raises with a non-empty text gives 500 "Image regeneration failed: " and that text |
| `DocController.FirstNonPdf` | app/controller/doc_controller.py:46-48 | None iff every name ends in ".pdf". Otherwise the first name that does not |
| `DocController.UploadPdfs` | app/controller/doc_controller.py:21-124 | Any non-".pdf" name gives 400 naming the first one. A failure to obtain the services gives 500 "Error processing PDFs: …". Success reports all files, the summed pages, the concatenated images, and their count in the message |
| `DocController.ProcessFile` | app/controller/doc_controller.py:57-106 | A file is processed iff it reads, stores under "pdfs/name", downloads non-empty and opens. It contributes its page count and its images under "extracted/stem" |
| `DocController.Prefixed` | app/controller/doc_controller.py:95-102 | Each image filename is "{pdf}_{image}", with page, caption, URL and MIME type kept |
| `DocController.GateBeforeAnyWork` | app/controller/doc_controller.py:46-48 | A bad name refuses the request whatever the services would do |
| `DocController.UpperCaseSuffixRefused` | app/controller/doc_controller.py:47 | "X.PDF" is refused: the suffix test is case-sensitive |
| `DocController.TotalsAppend` | app/controller/doc_controller.py:92-102 | Totals distribute over a split of the files |
| `DocController.SkippedFileContributesNothing` | app/controller/doc_controller.py:72-83 | A skipped file adds nothing to pages or images; the others count as they would alone |
| `DocController.OutcomesIndependent` | app/controller/doc_controller.py:57-106 | One file's outcome does not depend on the other files |
| `DocController.FolderOfPlainPdf` | app/controller/doc_controller.py:86-90 | "x.pdf" stores its images under "extracted/x" |
| `Routes.ValidationMessage` | app/route/__init__.py:21-31 | Only the first error is used. Its message is field + " " + msg lower-cased character by character, so it has no capitals and the same length. With no errors the message is "Validation error" |
| `Routes.ValidationFailed` | app/route/__init__.py:31 | Always 422 |
| `Routes.FieldOf` | app/route/__init__.py:26 | The last `loc` element, or "unknown field" for an empty `loc` |
| `Routes.NotFound` | app/route/__init__.py:13-15 | 404 "The requested resource was not found" |
| `Routes.MethodNotAllowed` | app/route/__init__.py:17-19 | 405 "Method {m} not allowed for this endpoint" |
| `Routes.MethodRecoverable` | app/route/__init__.py:19 | The method can be read back from the 405 message |
| `Routes.OnlyFirstErrorCounts` | app/route/__init__.py:24-25 | Errors after the first do not change the message |
| `Routes.LowerCaseErrorVerbatim` | app/route/__init__.py:27 | A field and message already in lower case are reported verbatim |
| `Routes.EmptyLocIsUnknownField` | app/route/__init__.py:26-27 | An error without a location reads "unknown field …" |
| `Routes.CapitalsLowered` | app/route/__init__.py:27 | "Email" is reported as "email" |
| `AuthModel.MatchesWordPattern` | app/model/auth_model.py:27 | `^[a-zA-Z0-9_]+$` holds iff the text is non-empty and every character is a letter, digit or "_" |
| `AuthModel.ParseUserLogin` | app/model/auth_model.py:9-12 | A login body is accepted iff the password has at least 6 characters |
| `AuthModel.ParseTokenRequest` | app/model/auth_model.py:24-27 | `user_id` is accepted iff it has 3 to 50 characters, all in the class |
| `AuthModel.NewUserInDB` | app/model/auth_model.py:15-21 | Defaults: active, no full name, created now |
| `AuthModel.NewTokenResponse` | app/model/auth_model.py:29-32 | `token_type` defaults to "bearer" |
| `AuthModel.PasswordBoundary` | app/model/auth_model.py:12 | Five characters are refused, six accepted |
| `AuthModel.UserIdBounds` | app/model/auth_model.py:27 | Both length bounds are inclusive |
| `AuthModel.OneBadCharRefuses` | app/model/auth_model.py:27 | One character outside the class refuses the id, wherever it is |
| `AuthModel.HyphenRefused` | app/model/auth_model.py:27 | "ab-cd" does not match the `user_id` pattern |

## Left out

- I/O outcomes. Database, S3, pdfplumber, PIL, base64 and the Gemini and OpenAI replies are parameters. Connection setup, retries, logging and file closing are not modelled.
- Cryptography. bcrypt and SHA-256 are uninterpreted: `Sound` assumes only that a password verifies against its own hash. `verify_password` raising on a malformed stored hash is not modelled.
- Token freshness. The code never checks that a generated token's hash is new (app/controller/auth_controller.py:83-96, 175-187). The model's map would overwrite an existing record, so the run lemmas assume freshness through `FreshFor`.
- Concurrency. Calls are sequential; two simultaneous refreshes of one token are not modelled.
- Session.Login, Session.Refresh, Session.Logout, Session.CookieSecureInProduction: the cookie field models the `set_cookie` and `delete_cookie` calls the controller makes on the injected `response` (app/controller/auth_controller.py:99-107, 141, 147, 152, 190-198, 219). The endpoints then return a fresh `JSONResponse` from app/utils/response.py:7-18, and FastAPI does not copy headers from the injected response onto a returned response object, so those cookie headers never reach the client. The model states what the controller asks for, not what the client receives.
- Session.Login, Session.Refresh: the response carries `refresh_token` and `expires_in`, as the controller passes them. The declared `TokenResponse` has neither field and would drop them.
- Session.Register: neither `UserRegister` nor `UserResponse` is defined in app/model/auth_model.py, so the import at app/controller/auth_controller.py:11 fails and the module does not load. The request's fields (email, password, optional full name) and the `Profile` body are therefore the model's own reading of lines 33-57. Any exception after the existence check becomes 500 "Registration failed"; the model raises only from hashing.
- Session.Register, Session.Login, Session.Refresh: state the handlers with `get_users_collection()` awaited. As written, register and login always answer 500, and refresh answers 500 after revoking a live token; `Session.RegisterAsWritten`, `Session.LoginAsWritten` and `Session.RefreshAsWritten` model that (see "## Findings").
- Session.LoginFailuresIndistinguishable: holds for the awaited login; as written every login is the same 500.
- Session.LoginAddsOneRecord: holds for the awaited login; as written login adds no record.
- Session.ExpiryIsStrict: holds for the awaited refresh; as written the accepted token ends in 500 "Token refresh failed".
- Session.RotatedTokenRejected: holds for the awaited refresh; as written no refresh succeeds, so there is no rotation.
- Session.MissingUserStillRevokes: holds for the awaited refresh; as written the owner lookup raises before finding out, and the answer is 500 with the record revoked.
- Session.RegisterThenLogin: holds for the awaited handlers; as written neither registration nor login succeeds.
- Database reachability. A single `online` flag stands for the users and refresh-token collections being reachable. With the users collection awaited, register answers 503 and login answers 500 when offline. As written, register and login answer 500 whether or not the database is reachable. Refresh answers 500 when offline in both versions, and logout swallows the failure.
- The `user_id` claim. The controller writes `str(user["_id"])`; the model uses the user's `id` text.
- JwtAuth.Dispatch: the 500 "Internal server error" branch is not reachable in the model. `verify_token` only raises `HTTPException` there, and the downstream handler that `call_next` runs inside the same `try` (app/middleware/jwt_auth.py:48, 52-54) is not modelled, so its exceptions are not either.
- Strings.Lower: lower-cases ASCII letters only. Python's `str.lower` also maps non-ASCII letters. All comparisons in the model are against ASCII words.
- Paths.Name: models `.name` on "/"-separated text. "." and ".." components are not special-cased.
- PdfExtractor.SortImages: it is proved ordered and a permutation. Python's `sorted` is also stable among equal keys; stability is not stated.
- Coordinates are exact reals. The `int` caption offset of the source is taken as a real.
- Prompt text. `image_regeneration_prompt` is not defined in app/llm/prompts.py, so the prompt is folded into the model's reply oracle.
- AuthModel.ParseUserLogin: `EmailStr` validation of `UserLogin.email` is not modelled; any text is accepted as the email.
- ChatController.RegenerateImages: `ChatRequest` has no `images` field (app/model/chat_model.py:17), so as written every request fails at app/controller/chat_controller.py:37 when `request.images` is read. The controller is modelled over a list of images, as the handler evidently means. The singleton getters are not modelled either.
- OpenAI.Regenerate: `hasattr(response, 'data')` being false is modelled as a reply with no item list.

## Findings

| source | as written | input that shows it | evidently intended | confidence | as-written member | corrected member |
|---|---|---|---|---|---|---|
| app/controller/auth_controller.py:26-33 | `mongo.get_users_collection()` is called without `await`; the coroutine is not None, and `.find_one` on it raises AttributeError, caught as 500 | any registration, e.g. a new email with a hashable password | `await mongo.get_users_collection()`: 201 for a new email, 400 for a known one, 503 when the database is down | high, not executed | `Session.RegisterAsWritten` | `Session.Register` |
| app/controller/auth_controller.py:68-69 | the same un-awaited call; `.find_one` raises, caught as 500 "Login failed" | any login, e.g. the credentials of an active user | the awaited call: 200 with a session for valid credentials, 401 or 403 otherwise | high, not executed | `Session.LoginAsWritten` | `Session.Login` |
| app/controller/auth_controller.py:164-166 | the same un-awaited call after the presented record was revoked at lines 157-160; `.find_one` raises, caught as 500 with no new token | a refresh cookie whose record is unrevoked, unexpired and whose owner exists | the awaited call: the record is rotated and 200 returns a new token | high, not executed | `Session.RefreshAsWritten` | `Session.Refresh` |

=== FILE: auth_controller.dfy ===
/**
 * The authentication endpoints (app/controller/auth_controller.py) as
 * transitions over the two collections they use: the users, and the
 * refresh tokens keyed by the hash of the opaque token the client holds in
 * its cookie. Each endpoint takes the store, the request and the current
 * instant, and yields the response, the cookie instruction and the new store.
 *
 * Password hashing, password checking and token hashing are the function
 * values of a `Crypto`; the freshly generated opaque token is a parameter.
 */
module Session {
  import opened Wrappers
  import opened Responses
  import Config
  import Token
  import AuthModel

  /** A document of the users collection. */
  datatype User = User(
    id: string,
    email: string,
    hashedPassword: string,
    fullName: Option<string>,
    createdAt: int,
    isActive: bool)

  /** A document of the refresh-token collection. */
  datatype TokenRecord = TokenRecord(
    userId: string,
    tokenHash: string,
    createdAt: int,
    expiresAt: int,
    revoked: bool,
    userAgent: Option<string>)

  /**
   * The database: `online` is false when the service has no connection, in
   * which case every collection access raises.
   */
  datatype Store = Store(online: bool, users: seq<User>, tokens: map<string, TokenRecord>)

  /** bcrypt hashing (which may raise), bcrypt checking, and the SHA-256 of a token. */
  datatype Crypto = Crypto(
    hashPassword: string -> Option<string>,
    verifyPassword: (string, string) -> bool,
    tokenHash: string -> string)

  /** A password checks against its own hash. */
  ghost predicate Sound(crypto: Crypto)
  {
    forall p :: crypto.hashPassword(p).Some? ==> crypto.verifyPassword(p, crypto.hashPassword(p).value)
  }

  /** What the response does to the `refresh_token` cookie. */
  datatype Cookie =
    | SetCookie(value: string, httpOnly: bool, secure: bool, sameSite: string, path: string, maxAge: int)
    | DeleteCookie(path: string)
    | NoCookie

  /** The `result` of a successful answer. */
  datatype Body =
    | Profile(email: string, fullName: Option<string>, createdAt: int, isActive: bool)
    | Tokens(accessToken: string, refreshToken: Option<string>, expiresIn: Option<int>, tokenType: string)
    | Message(text: string)

  datatype Outcome = Outcome(response: JsonResponse<Body>, cookie: Cookie, store: Store)

  const CookiePath := "/auth/refresh"
  const SecondsPerDay := 86400

  /** The position of the first user satisfying `p`, as `find_one` returns the first match. */
  function FindUser(users: seq<User>, p: User -> bool): (r: Option<nat>)
    ensures r.Some? ==> r.value < |users| && p(users[r.value])
    ensures r.Some? ==> forall j :: 0 <= j < r.value ==> !p(users[j])
    ensures r.None? <==> forall j :: 0 <= j < |users| ==> !p(users[j])
  {
    if |users| == 0 then None
    else if p(users[0]) then Some(0)
    else
      assert forall j :: 1 <= j < |users| ==> users[j] == users[1..][j - 1];
      match FindUser(users[1..], p)
      case None => None
      case Some(i) => Some(i + 1)
  }

  function ByEmail(email: string): User -> bool
  {
    (u: User) => u.email == email
  }

  function ById(id: string): User -> bool
  {
    (u: User) => u.id == id
  }

  /**
   * What an endpoint holds after calling the users-collection getter, an
   * async method (app/services/mongo_service.py:130). Awaited, it is the
   * collection, or None when the database is down; called without `await`,
   * it is a coroutine object, which is not None and has no `find_one`.
   */
  datatype UsersHandle = Collection(users: seq<User>) | NoCollection | Coroutine

  /** The handle `await mongo.get_users_collection()` yields. */
  function Awaited(st: Store): UsersHandle
  {
    if st.online then Collection(st.users) else NoCollection
  }

  /**
   * `find_one` on a handle. A failure stands for the AttributeError that
   * looking the method up on anything but a collection raises.
   */
  function FindOneIn(handle: UsersHandle, p: User -> bool): (r: Result<Option<nat>, string>)
    ensures r.Success? <==> handle.Collection?
    ensures r.Success? ==> r.value == FindUser(handle.users, p)
  {
    match handle
    case Collection(users) => Success(FindUser(users, p))
    case NoCollection => Failure("'NoneType' object has no attribute 'find_one'")
    case Coroutine => Failure("'coroutine' object has no attribute 'find_one'")
  }

  /** The cookie that carries a refresh token. */
  function RefreshCookie(settings: Config.Settings, token: string): Cookie
  {
    SetCookie(token, true, Config.IsProduction(settings.environment), "lax", CookiePath,
              settings.refreshTokenExpireDays * SecondsPerDay)
  }

  /** A new, unrevoked refresh record. */
  function NewRecord(settings: Config.Settings, userId: string, hash: string, now: int, userAgent: Option<string>)
    : TokenRecord
  {
    TokenRecord(userId, hash, now, now + settings.refreshTokenExpireDays * SecondsPerDay, false, userAgent)
  }

  /** The access token for a user: a JWT over its id and email with the default lifetime. */
  function AccessToken(settings: Config.Settings, codec: Token.Codec, user: User, now: int): string
  {
    Token.CreateToken(codec, map["user_id" := Token.Text(user.id), "email" := Token.Text(user.email)],
                      now, None, settings.accessTokenExpireMinutes)
  }

  /** `register`: `newId` is the id the database assigns to the inserted document. */
  function Register(crypto: Crypto, st: Store, email: string, password: string, fullName: Option<string>,
                    now: int, newId: string): (o: Outcome)
    ensures o.cookie == NoCookie && o.store.online == st.online && o.store.tokens == st.tokens
    ensures !st.online ==> o.response == Error("Database service unavailable", 503) && o.store == st
    ensures st.online && FindUser(st.users, ByEmail(email)).Some? ==>
      o.response == Error("Email already registered", 400) && o.store == st
    ensures o.response.Result? <==>
      st.online && FindUser(st.users, ByEmail(email)).None? && crypto.hashPassword(password).Some?
    ensures o.response.Result? ==>
      && o.response.status == 201
      && o.response.body == Profile(email, fullName, now, true)
      && o.store.users == st.users + [User(newId, email, crypto.hashPassword(password).value, fullName, now, true)]
    ensures st.online && FindUser(st.users, ByEmail(email)).None? && crypto.hashPassword(password).None? ==>
      o.response == Error("Registration failed", 500)
    ensures o.response.Error? ==> o.store == st
  {
    RegisterWith(Awaited(st), crypto, st, email, password, fullName, now, newId)
  }

  /** The body of `register` once it holds `users` as the users collection. */
  function RegisterWith(users: UsersHandle, crypto: Crypto, st: Store, email: string, password: string,
                        fullName: Option<string>, now: int, newId: string): Outcome
  {
    if users.NoCollection? then Outcome(Error("Database service unavailable", 503), NoCookie, st)
    else match FindOneIn(users, ByEmail(email))
      case Failure(_) => Outcome(Error("Registration failed", 500), NoCookie, st)
      case Success(Some(_)) => Outcome(Error("Email already registered", 400), NoCookie, st)
      case Success(None) =>
        match crypto.hashPassword(password)
        case None => Outcome(Error("Registration failed", 500), NoCookie, st)
        case Some(h) =>
          var user := User(newId, email, h, fullName, now, true);
          Outcome(Result(Profile(email, fullName, now, true), 201), NoCookie, st.(users := st.users + [user]))
  }

  /** `login`: `issued` is the opaque token `generate_opaque_token` returns. */
  function Login(settings: Config.Settings, codec: Token.Codec, crypto: Crypto, st: Store,
                 email: string, password: string, userAgent: Option<string>, now: int, issued: string): (o: Outcome)
    ensures o.store.users == st.users && o.store.online == st.online
    ensures !st.online ==> o == Outcome(Error("Login failed", 500), NoCookie, st)
    ensures o.response == Error("Account is inactive", 403) ==>
      var i := FindUser(st.users, ByEmail(email));
      i.Some? && crypto.verifyPassword(password, st.users[i.value].hashedPassword) && !st.users[i.value].isActive
    ensures o.response.Error? ==> o.store == st && o.cookie == NoCookie
    ensures o.response.Result? <==>
      var i := FindUser(st.users, ByEmail(email));
      st.online && i.Some? && crypto.verifyPassword(password, st.users[i.value].hashedPassword)
      && st.users[i.value].isActive
    ensures o.response.Result? ==>
      var user := st.users[FindUser(st.users, ByEmail(email)).value];
      var h := crypto.tokenHash(issued);
      && o.response.status == 200
      && o.response.body == Tokens(AccessToken(settings, codec, user, now), Some(issued),
                                   Some(settings.accessTokenExpireMinutes * 60), "bearer")
      && o.store.tokens == st.tokens[h := NewRecord(settings, user.id, h, now, userAgent)]
      && o.cookie == RefreshCookie(settings, issued)
  {
    LoginWith(Awaited(st), settings, codec, crypto, st, email, password, userAgent, now, issued)
  }

  /** The body of `login` once it holds `users` as the users collection. */
  function LoginWith(users: UsersHandle, settings: Config.Settings, codec: Token.Codec, crypto: Crypto, st: Store,
                     email: string, password: string, userAgent: Option<string>, now: int, issued: string): Outcome
  {
    match FindOneIn(users, ByEmail(email))
    case Failure(_) => Outcome(Error("Login failed", 500), NoCookie, st)
    case Success(None) => Outcome(Error("Invalid email or password", 401), NoCookie, st)
    case Success(Some(i)) =>
      var user := users.users[i];
      if !crypto.verifyPassword(password, user.hashedPassword) then
        Outcome(Error("Invalid email or password", 401), NoCookie, st)
      else if !user.isActive then Outcome(Error("Account is inactive", 403), NoCookie, st)
      else
        var h := crypto.tokenHash(issued);
        var body := Tokens(AccessToken(settings, codec, user, now), Some(issued),
                           Some(settings.accessTokenExpireMinutes * 60), "bearer");
        Outcome(Result(body, 200), RefreshCookie(settings, issued),
                st.(tokens := st.tokens[h := NewRecord(settings, user.id, h, now, userAgent)]))
  }

  /** `refresh_token`: `cookie` is the presented token, `issued` the replacement `generate_opaque_token` returns. */
  function Refresh(settings: Config.Settings, codec: Token.Codec, crypto: Crypto, st: Store,
                   cookie: Option<string>, userAgent: Option<string>, now: int, issued: string): (o: Outcome)
    ensures o.store.users == st.users && o.store.online == st.online
    ensures !Given(cookie) ==> o == Outcome(Error("Refresh token missing", 401), NoCookie, st)
    ensures Given(cookie) && !st.online ==> o == Outcome(Error("Token refresh failed", 500), NoCookie, st)
    ensures Given(cookie) && st.online ==>
      var h := crypto.tokenHash(cookie.value);
      && (h !in st.tokens ==>
            o == Outcome(Error("Invalid refresh token", 401), DeleteCookie(CookiePath), st))
      && (h in st.tokens && st.tokens[h].revoked ==>
            o == Outcome(Error("Token has been revoked", 401), DeleteCookie(CookiePath), st))
      && (h in st.tokens && !st.tokens[h].revoked && st.tokens[h].expiresAt < now ==>
            o == Outcome(Error("Token expired", 401), DeleteCookie(CookiePath), st))
    ensures o.response.Error? && o.store != st ==>
      && o.response == Error("User not found", 401) && o.cookie == NoCookie
      && var h := crypto.tokenHash(cookie.value);
         o.store.tokens == st.tokens[h := st.tokens[h].(revoked := true)]
    ensures o.response.Result? <==>
      && Given(cookie) && st.online
      && var h := crypto.tokenHash(cookie.value);
         && h in st.tokens && !st.tokens[h].revoked && now <= st.tokens[h].expiresAt
         && FindUser(st.users, ById(st.tokens[h].userId)).Some?
    ensures o.response.Result? ==>
      var presented := crypto.tokenHash(cookie.value);
      var user := st.users[FindUser(st.users, ById(st.tokens[presented].userId)).value];
      var h := crypto.tokenHash(issued);
      && o.response == Result(Tokens(AccessToken(settings, codec, user, now), None, None, "bearer"), 200)
      && o.store.tokens == st.tokens[presented := st.tokens[presented].(revoked := true)]
                                    [h := NewRecord(settings, st.tokens[presented].userId, h, now, userAgent)]
      && o.cookie == RefreshCookie(settings, issued)
  {
    RefreshWith(Awaited(st), settings, codec, crypto, st, cookie, userAgent, now, issued)
  }

  /**
   * The body of `refresh` once it holds `users` as the users collection,
   * which it fetches only after revoking the presented record.
   */
  function RefreshWith(users: UsersHandle, settings: Config.Settings, codec: Token.Codec, crypto: Crypto, st: Store,
                       cookie: Option<string>, userAgent: Option<string>, now: int, issued: string): Outcome
  {
    if !Given(cookie) then Outcome(Error("Refresh token missing", 401), NoCookie, st)
    else if !st.online then Outcome(Error("Token refresh failed", 500), NoCookie, st)
    else
      var h := crypto.tokenHash(cookie.value);
      if h !in st.tokens then Outcome(Error("Invalid refresh token", 401), DeleteCookie(CookiePath), st)
      else
        var record := st.tokens[h];
        if record.revoked then Outcome(Error("Token has been revoked", 401), DeleteCookie(CookiePath), st)
        else if record.expiresAt < now then Outcome(Error("Token expired", 401), DeleteCookie(CookiePath), st)
        else
          var revoked := st.(tokens := st.tokens[h := record.(revoked := true)]);
          match FindOneIn(users, ById(record.userId))
          case Failure(_) => Outcome(Error("Token refresh failed", 500), NoCookie, revoked)
          case Success(None) => Outcome(Error("User not found", 401), NoCookie, revoked)
          case Success(Some(i)) =>
            var user := users.users[i];
            var nh := crypto.tokenHash(issued);
            Outcome(Result(Tokens(AccessToken(settings, codec, user, now), None, None, "bearer"), 200),
                    RefreshCookie(settings, issued),
                    revoked.(tokens := revoked.tokens[nh := NewRecord(settings, record.userId, nh, now, userAgent)]))
  }

  /** `logout`: revoke the presented token if it is known; a database failure is swallowed. */
  function Logout(crypto: Crypto, st: Store, cookie: Option<string>): (o: Outcome)
    ensures o.response == Result(Message("Logged out successfully"), 200)
    ensures o.cookie == DeleteCookie(CookiePath)
    ensures o.store.users == st.users && o.store.online == st.online
    ensures o.store.tokens.Keys == st.tokens.Keys
    ensures forall h :: h in st.tokens ==>
      o.store.tokens[h] == st.tokens[h] || o.store.tokens[h] == st.tokens[h].(revoked := true)
    ensures Given(cookie) && st.online && crypto.tokenHash(cookie.value) in st.tokens ==>
      o.store.tokens[crypto.tokenHash(cookie.value)] == st.tokens[crypto.tokenHash(cookie.value)].(revoked := true)
    ensures forall h :: h in st.tokens && !(Given(cookie) && st.online && h == crypto.tokenHash(cookie.value)) ==>
      o.store.tokens[h] == st.tokens[h]
  {
    var store :=
      if Given(cookie) && st.online && crypto.tokenHash(cookie.value) in st.tokens then
        var h := crypto.tokenHash(cookie.value);
        st.(tokens := st.tokens[h := st.tokens[h].(revoked := true)])
      else st;
    Outcome(Result(Message("Logged out successfully"), 200), DeleteCookie(CookiePath), store)
  }

  // ---------------------------------------------------------------------------
  // Invariants of the store

  /** Every record is filed under its own hash. */
  ghost predicate KeyConsistent(tokens: map<string, TokenRecord>)
  {
    forall h :: h in tokens ==> tokens[h].tokenHash == h
  }

  /** No two users share an email. */
  ghost predicate EmailsUnique(users: seq<User>)
  {
    forall i, j :: 0 <= i < j < |users| ==> users[i].email != users[j].email
  }

  /**
   * `st2` can follow `st1`: users are only appended, no record disappears,
   * and a record changes at most by being revoked.
   */
  ghost predicate Evolves(st1: Store, st2: Store)
  {
    && st1.online == st2.online
    && st1.users <= st2.users
    && st1.tokens.Keys <= st2.tokens.Keys
    && forall h :: h in st1.tokens ==>
         st2.tokens[h] == st1.tokens[h] || st2.tokens[h] == st1.tokens[h].(revoked := true)
  }

  lemma EvolvesTransitive(a: Store, b: Store, c: Store)
    requires Evolves(a, b) && Evolves(b, c)
    ensures Evolves(a, c)
  {
    forall h | h in a.tokens
      ensures c.tokens[h] == a.tokens[h] || c.tokens[h] == a.tokens[h].(revoked := true)
    {
      assert h in b.tokens;
    }
  }

  /** Under `Evolves`, a revoked record stays revoked. */
  lemma RevokedStaysRevoked(st1: Store, st2: Store, h: string)
    requires Evolves(st1, st2) && h in st1.tokens && st1.tokens[h].revoked
    ensures h in st2.tokens && st2.tokens[h].revoked
  {
  }

  // ---------------------------------------------------------------------------
  // Sequences of calls

  /** One call of an endpoint with its request, instant and generated values. */
  datatype Call =
    | RegisterCall(email: string, password: string, fullName: Option<string>, now: int, newId: string)
    | LoginCall(email: string, password: string, userAgent: Option<string>, now: int, issued: string)
    | RefreshCall(cookie: Option<string>, userAgent: Option<string>, now: int, issued: string)
    | LogoutCall(cookie: Option<string>)

  /** Everything outside the store a call depends on. */
  datatype Services = Services(settings: Config.Settings, codec: Token.Codec, crypto: Crypto)

  function Step(sv: Services, st: Store, call: Call): Outcome
  {
    match call
    case RegisterCall(email, password, fullName, now, newId) =>
      Register(sv.crypto, st, email, password, fullName, now, newId)
    case LoginCall(email, password, userAgent, now, issued) =>
      Login(sv.settings, sv.codec, sv.crypto, st, email, password, userAgent, now, issued)
    case RefreshCall(cookie, userAgent, now, issued) =>
      Refresh(sv.settings, sv.codec, sv.crypto, st, cookie, userAgent, now, issued)
    case LogoutCall(cookie) => Logout(sv.crypto, st, cookie)
  }

  /** A generated refresh token whose hash is not yet on file, as the code assumes without checking. */
  ghost predicate FreshFor(sv: Services, st: Store, call: Call)
  {
    match call
    case LoginCall(_, _, _, _, issued) => sv.crypto.tokenHash(issued) !in st.tokens
    case RefreshCall(_, _, _, issued) => sv.crypto.tokenHash(issued) !in st.tokens
    case _ => true
  }

  /** The store after the calls in order. */
  function Run(sv: Services, st: Store, calls: seq<Call>): Store
    decreases |calls|
  {
    if calls == [] then st else Run(sv, Step(sv, st, calls[0]).store, calls[1..])
  }

  /** Every call of the run issues a token whose hash is not yet on file. */
  ghost predicate RunFresh(sv: Services, st: Store, calls: seq<Call>)
    decreases |calls|
  {
    calls == [] || (FreshFor(sv, st, calls[0]) && RunFresh(sv, Step(sv, st, calls[0]).store, calls[1..]))
  }

  /** Each endpoint, given a token whose hash is new, lets the store evolve: no record is un-revoked or lost. */
  lemma StepEvolves(sv: Services, st: Store, call: Call)
    requires FreshFor(sv, st, call)
    ensures Evolves(st, Step(sv, st, call).store)
  {
    var st2 := Step(sv, st, call).store;
    match call
    case RegisterCall(_, _, _, _, _) =>
    case LoginCall(_, _, _, _, _) =>
    case RefreshCall(cookie, _, _, issued) =>
      forall h | h in st.tokens
        ensures st2.tokens[h] == st.tokens[h] || st2.tokens[h] == st.tokens[h].(revoked := true)
      {
      }
    case LogoutCall(_) =>
  }

  /** Over any run of issued calls, no record is lost and `revoked` only moves from false to true. */
  lemma {:induction false} RunEvolves(sv: Services, st: Store, calls: seq<Call>)
    requires RunFresh(sv, st, calls)
    ensures Evolves(st, Run(sv, st, calls))
    decreases |calls|
  {
    if calls != [] {
      var next := Step(sv, st, calls[0]).store;
      StepEvolves(sv, st, calls[0]);
      RunEvolves(sv, next, calls[1..]);
      EvolvesTransitive(st, next, Run(sv, next, calls[1..]));
    }
  }

  /** Each endpoint keeps every record filed under its own hash. */
  lemma StepKeepsKeys(sv: Services, st: Store, call: Call)
    requires KeyConsistent(st.tokens)
    ensures KeyConsistent(Step(sv, st, call).store.tokens)
  {
  }

  /** Registration keeps emails unique: the duplicate check guards the append. */
  lemma RegisterKeepsEmailsUnique(crypto: Crypto, st: Store, email: string, password: string,
                                  fullName: Option<string>, now: int, newId: string)
    requires EmailsUnique(st.users)
    ensures EmailsUnique(Register(crypto, st, email, password, fullName, now, newId).store.users)
  {
    var users := Register(crypto, st, email, password, fullName, now, newId).store.users;
    if users != st.users {
      forall i, j | 0 <= i < j < |users|
        ensures users[i].email != users[j].email
      {
        if j == |st.users| {
          assert users[i] == st.users[i];
          assert !ByEmail(email)(st.users[i]);
        } else {
          assert users[i] == st.users[i] && users[j] == st.users[j];
        }
      }
    }
  }

  // ---------------------------------------------------------------------------
  // Properties of single endpoints

  /** An unknown email and a wrong password get the same answer, and neither touches the store. */
  lemma LoginFailuresIndistinguishable(settings: Config.Settings, codec: Token.Codec, crypto: Crypto, st: Store,
                                       unknown: string, known: string, password: string,
                                       ua: Option<string>, now: int, issued: string)
    requires st.online
    requires FindUser(st.users, ByEmail(unknown)).None?
    requires FindUser(st.users, ByEmail(known)).Some?
    requires !crypto.verifyPassword(password, st.users[FindUser(st.users, ByEmail(known)).value].hashedPassword)
    ensures Login(settings, codec, crypto, st, unknown, password, ua, now, issued)
         == Login(settings, codec, crypto, st, known, password, ua, now, issued)
         == Outcome(Error("Invalid email or password", 401), NoCookie, st)
  {
  }

  /** A successful login with a token whose hash is new adds exactly one record, unrevoked, under the new hash. */
  lemma LoginAddsOneRecord(settings: Config.Settings, codec: Token.Codec, crypto: Crypto, st: Store,
                           email: string, password: string, ua: Option<string>, now: int, issued: string)
    requires crypto.tokenHash(issued) !in st.tokens
    requires Login(settings, codec, crypto, st, email, password, ua, now, issued).response.Result?
    ensures var tokens := Login(settings, codec, crypto, st, email, password, ua, now, issued).store.tokens;
      && tokens.Keys == st.tokens.Keys + {crypto.tokenHash(issued)}
      && |tokens| == |st.tokens| + 1
      && !tokens[crypto.tokenHash(issued)].revoked
      && tokens[crypto.tokenHash(issued)].expiresAt == now + settings.refreshTokenExpireDays * 86400
      && forall h :: h in st.tokens ==> tokens[h] == st.tokens[h]
  {
    var tokens := Login(settings, codec, crypto, st, email, password, ua, now, issued).store.tokens;
    assert tokens.Keys == st.tokens.Keys + {crypto.tokenHash(issued)};
    assert |tokens.Keys| == |st.tokens.Keys| + 1;
  }

  /** The refresh cookie is marked secure exactly in production, whatever the case of the setting. */
  lemma CookieSecureInProduction(settings: Config.Settings, token: string)
    ensures RefreshCookie(settings, token).secure <==> Config.IsProduction(settings.environment)
    ensures RefreshCookie(settings, token).path == "/auth/refresh" && RefreshCookie(settings, token).httpOnly
  {
  }

  /** A record expiring exactly now is still accepted: the expiry test is strict. */
  lemma ExpiryIsStrict(settings: Config.Settings, codec: Token.Codec, crypto: Crypto, st: Store,
                       cookie: string, ua: Option<string>, issued: string)
    requires st.online && cookie != ""
    requires crypto.tokenHash(cookie) in st.tokens
    requires !st.tokens[crypto.tokenHash(cookie)].revoked
    requires FindUser(st.users, ById(st.tokens[crypto.tokenHash(cookie)].userId)).Some?
    ensures Refresh(settings, codec, crypto, st, Some(cookie), ua, st.tokens[crypto.tokenHash(cookie)].expiresAt, issued)
              .response.Result?
    ensures Refresh(settings, codec, crypto, st, Some(cookie), ua, st.tokens[crypto.tokenHash(cookie)].expiresAt + 1, issued)
              .response == Error("Token expired", 401)
  {
  }

  /**
   * Rotation: after a successful refresh the presented token is refused as
   * revoked, and the new one is on file, unrevoked, for the same user.
   */
  lemma RotatedTokenRejected(settings: Config.Settings, codec: Token.Codec, crypto: Crypto, st: Store,
                             cookie: string, ua: Option<string>, now: int, issued: string,
                             ua2: Option<string>, later: int, issued2: string)
    requires crypto.tokenHash(issued) !in st.tokens
    requires Refresh(settings, codec, crypto, st, Some(cookie), ua, now, issued).response.Result?
    ensures var st2 := Refresh(settings, codec, crypto, st, Some(cookie), ua, now, issued).store;
      && crypto.tokenHash(issued) in st2.tokens
      && !st2.tokens[crypto.tokenHash(issued)].revoked
      && st2.tokens[crypto.tokenHash(issued)].userId == st.tokens[crypto.tokenHash(cookie)].userId
      && Refresh(settings, codec, crypto, st2, Some(cookie), ua2, later, issued2)
         == Outcome(Error("Token has been revoked", 401), DeleteCookie(CookiePath), st2)
  {
    var presented := crypto.tokenHash(cookie);
    assert presented in st.tokens;
    assert crypto.tokenHash(issued) != presented;
  }

  /** When the owner is gone the presented record is still revoked, and nothing is inserted. */
  lemma MissingUserStillRevokes(settings: Config.Settings, codec: Token.Codec, crypto: Crypto, st: Store,
                                cookie: string, ua: Option<string>, now: int, issued: string)
    requires st.online && cookie != ""
    requires crypto.tokenHash(cookie) in st.tokens
    requires !st.tokens[crypto.tokenHash(cookie)].revoked && now <= st.tokens[crypto.tokenHash(cookie)].expiresAt
    requires FindUser(st.users, ById(st.tokens[crypto.tokenHash(cookie)].userId)).None?
    ensures var o := Refresh(settings, codec, crypto, st, Some(cookie), ua, now, issued);
      && o.response == Error("User not found", 401)
      && o.store.tokens.Keys == st.tokens.Keys
      && o.store.tokens[crypto.tokenHash(cookie)].revoked
  {
  }

  /** Logging out twice is logging out once. */
  lemma LogoutIdempotent(crypto: Crypto, st: Store, cookie: Option<string>)
    ensures Logout(crypto, Logout(crypto, st, cookie).store, cookie) == Logout(crypto, st, cookie)
  {
  }

  /** A logged-out token can no longer be refreshed. */
  lemma LogoutThenRefreshRefused(settings: Config.Settings, codec: Token.Codec, crypto: Crypto, st: Store,
                                 cookie: string, ua: Option<string>, now: int, issued: string)
    requires st.online && cookie != "" && crypto.tokenHash(cookie) in st.tokens
    ensures var st2 := Logout(crypto, st, Some(cookie)).store;
      Refresh(settings, codec, crypto, st2, Some(cookie), ua, now, issued)
      == Outcome(Error("Token has been revoked", 401), DeleteCookie(CookiePath), st2)
  {
  }

  /** Without a full name the registered document is the `UserInDB` of its required fields, defaults included. */
  lemma RegisteredUserIsDefaultRecord(crypto: Crypto, st: Store, email: string, password: string,
                                      now: int, newId: string)
    requires Register(crypto, st, email, password, None, now, newId).response.Result?
    ensures var users := Register(crypto, st, email, password, None, now, newId).store.users;
      var u := users[|users| - 1];
      && u.email == email && u.hashedPassword == crypto.hashPassword(password).value
      && AuthModel.NewUserInDB(email, u.hashedPassword, now)
         == AuthModel.UserInDB(u.email, u.hashedPassword, u.fullName, u.createdAt, u.isActive)
  {
  }

  /** A user just registered can log in with the same password and gets a session. */
  lemma RegisterThenLogin(settings: Config.Settings, codec: Token.Codec, crypto: Crypto, st: Store,
                          email: string, password: string, fullName: Option<string>, now: int, newId: string,
                          ua: Option<string>, later: int, issued: string)
    requires Sound(crypto)
    requires Register(crypto, st, email, password, fullName, now, newId).response.Result?
    ensures var st2 := Register(crypto, st, email, password, fullName, now, newId).store;
      var o := Login(settings, codec, crypto, st2, email, password, ua, later, issued);
      && o.response.Result?
      && o.store.tokens[crypto.tokenHash(issued)].userId == newId
  {
    var st2 := Register(crypto, st, email, password, fullName, now, newId).store;
    var n := |st.users|;
    assert st2.users[n].email == email;
    var i := FindUser(st2.users, ByEmail(email));
    assert i == Some(n) by {
      assert ByEmail(email)(st2.users[n]);
      forall j | 0 <= j < n
        ensures !ByEmail(email)(st2.users[j])
      {
        assert st2.users[j] == st.users[j];
      }
    }
  }

  // ---------------------------------------------------------------------------
  // The handlers as written: the users collection fetched without `await`

  /** The presented token passes every check `refresh` makes before it looks up the owner. */
  predicate Presentable(crypto: Crypto, st: Store, cookie: Option<string>, now: int)
  {
    && Given(cookie) && st.online
    && var h := crypto.tokenHash(cookie.value);
       h in st.tokens && !st.tokens[h].revoked && now <= st.tokens[h].expiresAt
  }

  /**
   * `register` as written: the coroutine is not None, so the 503 branch is
   * never taken, and its `find_one` raises, so every request ends in the
   * handler's fallback.
   */
  function RegisterAsWritten(crypto: Crypto, st: Store, email: string, password: string, fullName: Option<string>,
                             now: int, newId: string): (o: Outcome)
    ensures o == Outcome(Error("Registration failed", 500), NoCookie, st)
  {
    RegisterWith(Coroutine, crypto, st, email, password, fullName, now, newId)
  }

  /** `login` as written: the `find_one` on the coroutine raises, so every request ends in the fallback. */
  function LoginAsWritten(settings: Config.Settings, codec: Token.Codec, crypto: Crypto, st: Store,
                          email: string, password: string, userAgent: Option<string>, now: int, issued: string)
    : (o: Outcome)
    ensures o == Outcome(Error("Login failed", 500), NoCookie, st)
  {
    LoginWith(Coroutine, settings, codec, crypto, st, email, password, userAgent, now, issued)
  }

  /**
   * `refresh` as written: a token that passes the checks is revoked, then
   * the owner lookup raises and the request ends in the fallback, with no
   * new token and no cookie. Every other request is answered as intended.
   */
  function RefreshAsWritten(settings: Config.Settings, codec: Token.Codec, crypto: Crypto, st: Store,
                            cookie: Option<string>, userAgent: Option<string>, now: int, issued: string): (o: Outcome)
    ensures o.response.Error?
    ensures !Presentable(crypto, st, cookie, now) ==>
      o == Refresh(settings, codec, crypto, st, cookie, userAgent, now, issued)
    ensures Presentable(crypto, st, cookie, now) ==>
      var h := crypto.tokenHash(cookie.value);
      o == Outcome(Error("Token refresh failed", 500), NoCookie, st.(tokens := st.tokens[h := st.tokens[h].(revoked := true)]))
  {
    RefreshWith(Coroutine, settings, codec, crypto, st, cookie, userAgent, now, issued)
  }

  /** A registration the intended handler accepts with 201 is refused with 500 as written. */
  lemma RegisterAsWrittenRefusesValidRequest(crypto: Crypto, st: Store, email: string, password: string,
                                             fullName: Option<string>, now: int, newId: string)
    requires st.online && FindUser(st.users, ByEmail(email)).None? && crypto.hashPassword(password).Some?
    ensures Register(crypto, st, email, password, fullName, now, newId).response.status == 201
    ensures RegisterAsWritten(crypto, st, email, password, fullName, now, newId).response.status == 500
  {
  }

  /** Valid credentials the intended handler answers with a session are refused with 500 as written. */
  lemma LoginAsWrittenRefusesValidCredentials(settings: Config.Settings, codec: Token.Codec, crypto: Crypto,
                                              st: Store, email: string, password: string,
                                              ua: Option<string>, now: int, issued: string)
    requires st.online && FindUser(st.users, ByEmail(email)).Some?
    requires var u := st.users[FindUser(st.users, ByEmail(email)).value];
      crypto.verifyPassword(password, u.hashedPassword) && u.isActive
    ensures Login(settings, codec, crypto, st, email, password, ua, now, issued).response.status == 200
    ensures LoginAsWritten(settings, codec, crypto, st, email, password, ua, now, issued).response.status == 500
    ensures LoginAsWritten(settings, codec, crypto, st, email, password, ua, now, issued).cookie == NoCookie
  {
  }

  /**
   * A live token whose owner exists is rotated by the intended handler, but
   * as written it is revoked and nothing replaces it: the answer is 500, and
   * the same cookie is then refused as revoked, so the session is lost.
   */
  lemma RefreshAsWrittenBurnsLiveToken(settings: Config.Settings, codec: Token.Codec, crypto: Crypto, st: Store,
                                       cookie: string, ua: Option<string>, now: int, issued: string,
                                       ua2: Option<string>, later: int, issued2: string)
    requires Presentable(crypto, st, Some(cookie), now)
    requires FindUser(st.users, ById(st.tokens[crypto.tokenHash(cookie)].userId)).Some?
    ensures Refresh(settings, codec, crypto, st, Some(cookie), ua, now, issued).response.status == 200
    ensures var o := RefreshAsWritten(settings, codec, crypto, st, Some(cookie), ua, now, issued);
      && o.response == Error("Token refresh failed", 500)
      && o.cookie == NoCookie
      && o.store.tokens.Keys == st.tokens.Keys
      && RefreshAsWritten(settings, codec, crypto, o.store, Some(cookie), ua2, later, issued2)
         == Outcome(Error("Token has been revoked", 401), DeleteCookie(CookiePath), o.store)
  {
  }
}

=== FILE: auth_model.dfy ===
/**
 * The authentication request and record models (app/model/auth_model.py):
 * the field constraints pydantic enforces when a body is parsed, and the
 * defaults it fills in. A refused body yields the name of the offending field.
 */
module AuthModel {
  import opened Wrappers

  /** `UserLogin`: the login body. */
  datatype UserLogin = UserLogin(email: string, password: string)

  /** `UserInDB`: a user as stored. */
  datatype UserInDB = UserInDB(
    email: string,
    hashedPassword: string,
    fullName: Option<string>,
    createdAt: int,
    isActive: bool)

  /** `TokenRequest`: the legacy token request. */
  datatype TokenRequest = TokenRequest(userId: string)

  /** `TokenResponse`: the token answer. */
  datatype TokenResponse = TokenResponse(accessToken: string, tokenType: string)

  const MinPasswordLength: nat := 6
  const MinUserIdLength: nat := 3
  const MaxUserIdLength: nat := 50

  /** A character of the class `[a-zA-Z0-9_]`. */
  predicate WordChar(c: char)
  {
    'a' <= c <= 'z' || 'A' <= c <= 'Z' || '0' <= c <= '9' || c == '_'
  }

  /** The pattern `^[a-zA-Z0-9_]+$`, matched one character at a time. */
  function MatchesWordPattern(s: string): (r: bool)
    ensures r <==> s != [] && forall i :: 0 <= i < |s| ==> WordChar(s[i])
  {
    if |s| == 0 then false
    else if !WordChar(s[0]) then false
    else if |s| == 1 then true
    else
      assert forall i :: 1 <= i < |s| ==> s[i] == s[1..][i - 1];
      MatchesWordPattern(s[1..])
  }

  /** Parsing a `UserLogin` body: the password must have at least six characters. */
  function ParseUserLogin(email: string, password: string): (r: Result<UserLogin, string>)
    ensures r.Success? <==> |password| >= MinPasswordLength
    ensures r.Success? ==> r.value.email == email && r.value.password == password
    ensures r.Failure? ==> r.error == "password"
  {
    if |password| < MinPasswordLength then Failure("password") else Success(UserLogin(email, password))
  }

  /** Parsing a `TokenRequest` body: `user_id` has 3 to 50 characters, all letters, digits or '_'. */
  function ParseTokenRequest(userId: string): (r: Result<TokenRequest, string>)
    ensures r.Success? <==>
      && MinUserIdLength <= |userId| <= MaxUserIdLength
      && forall i :: 0 <= i < |userId| ==> WordChar(userId[i])
    ensures r.Success? ==> r.value.userId == userId
    ensures r.Failure? ==> r.error == "user_id"
  {
    if MinUserIdLength <= |userId| <= MaxUserIdLength && MatchesWordPattern(userId)
    then Success(TokenRequest(userId))
    else Failure("user_id")
  }

  /** A `UserInDB` built from the required fields only: active, without a full name, created `now`. */
  function NewUserInDB(email: string, hashedPassword: string, now: int): (u: UserInDB)
    ensures u.email == email && u.hashedPassword == hashedPassword
    ensures u.isActive && u.fullName.None? && u.createdAt == now
  {
    UserInDB(email, hashedPassword, None, now, true)
  }

  /** A `TokenResponse` whose `token_type` may be left out, in which case it is "bearer". */
  function NewTokenResponse(accessToken: string, tokenType: Option<string>): (r: TokenResponse)
    ensures r.accessToken == accessToken
    ensures tokenType.None? ==> r.tokenType == "bearer"
    ensures tokenType.Some? ==> r.tokenType == tokenType.value
  {
    TokenResponse(accessToken, tokenType.GetOr("bearer"))
  }

  /** Six characters are enough and five are not, whatever they are. */
  lemma PasswordBoundary(email: string, five: string, six: string)
    requires |five| == 5 && |six| == 6
    ensures ParseUserLogin(email, five) == Failure("password")
    ensures ParseUserLogin(email, six) == Success(UserLogin(email, six))
  {
  }

  /** The bounds are inclusive: "abc" and a 50-character id pass, two or fifty-one characters do not. */
  lemma UserIdBounds(id: string)
    requires forall i :: 0 <= i < |id| ==> WordChar(id[i])
    ensures ParseTokenRequest(id).Success? <==> 3 <= |id| <= 50
  {
  }

  /** A single character outside the class refuses the id, wherever it is. */
  lemma OneBadCharRefuses(a: string, c: char, b: string)
    requires !WordChar(c)
    ensures ParseTokenRequest(a + [c] + b) == Failure("user_id")
  {
    assert (a + [c] + b)[|a|] == c;
  }

  /** A hyphen is not in the class: "ab-cd" is refused. */
  lemma HyphenRefused()
    ensures !MatchesWordPattern("ab-cd")
  {
    assert !WordChar("ab-cd"[2]);
  }
}

=== FILE: chat_controller.dfy ===
/**
 * The `/chat` endpoint (app/controller/chat_controller.py): request
 * validation in its fixed order, the filter of usable images, and the
 * shaping of the Gemini client's result into the response.
 */
module ChatController {
  import opened Wrappers
  import opened Strings
  import opened Responses
  import opened LlmCommon
  import Gemini

  /** One entry of `regenerated_images` in the response. */
  datatype RegeneratedImage = RegeneratedImage(url: string, mimeType: string)

  datatype ChatResponse = ChatResponse(
    regeneratedImages: seq<RegeneratedImage>,
    description: string,
    inputCount: nat,
    message: string)

  /** An image with at least one of url, s3_key and data non-empty. */
  predicate Usable(img: ImageInput)
  {
    Given(img.url) || Given(img.s3Key) || Given(img.data)
  }

  /** `valid_images`: the usable inputs, in input order. */
  function ValidImages(images: seq<ImageInput>): (r: seq<ImageInput>)
    ensures |r| <= |images|
    ensures forall j :: 0 <= j < |r| ==> Usable(r[j]) && r[j] in images
    ensures forall i :: 0 <= i < |images| && Usable(images[i]) ==> images[i] in r
  {
    if |images| == 0 then []
    else
      assert forall i :: 1 <= i < |images| ==> images[i] == images[1..][i - 1];
      (if Usable(images[0]) then [images[0]] else []) + ValidImages(images[1..])
  }

  /** The uploaded images of a result: entries with a non-empty url, with their MIME types. */
  function UrlEntries(images: seq<GenImage>): (r: seq<RegeneratedImage>)
    ensures |r| <= |images|
    ensures forall j :: 0 <= j < |r| ==> r[j].url != ""
    ensures (forall i :: 0 <= i < |images| ==> images[i].DataImage?) ==> r == []
    ensures (forall i :: 0 <= i < |images| ==> images[i].UrlImage? && images[i].url != "") ==>
      |r| == |images| && forall j :: 0 <= j < |r| ==> r[j] == RegeneratedImage(images[j].url, images[j].mimeType)
  {
    if |images| == 0 then []
    else
      assert forall i :: 1 <= i < |images| ==> images[i] == images[1..][i - 1];
      var here := images[0];
      (if here.UrlImage? && here.url != "" then [RegeneratedImage(here.url, here.mimeType)] else [])
        + UrlEntries(images[1..])
  }

  function SuccessMessage(n: nat): string
  {
    "Successfully regenerated " + NatToString(n) + " image(s)"
  }

  /**
   * The answer built from the client's result once the request has passed
   * validation; `usable` is the number of images sent.
   */
  function Respond(result: RegenResult, usable: nat): (r: JsonResponse<ChatResponse>)
    ensures Given(result.error) ==> r == Error("Image regeneration failed: " + result.error.value, 500)
    ensures !Given(result.error) ==>
      && r.Result? && r.status == 200
      && r.body.regeneratedImages == UrlEntries(result.images)
      && r.body.description == result.description
      && r.body.inputCount == result.inputCount.GetOr(usable)
      && r.body.message == SuccessMessage(|r.body.regeneratedImages|)
  {
    if Given(result.error) then Error("Image regeneration failed: " + result.error.value, 500)
    else
      var regenerated := UrlEntries(result.images);
      Ok(ChatResponse(regenerated, result.description, result.inputCount.GetOr(usable),
                      SuccessMessage(|regenerated|)))
  }

  /**
   * `regenerate_images`: `client` is the Gemini client, or the text of the
   * exception raised while constructing it.
   */
  function RegenerateImages(client: Result<Gemini.Env, string>, images: seq<ImageInput>, feedback: string)
    : (r: JsonResponse<ChatResponse>)
    ensures images == [] ==> r == Error("At least one image is required", 400)
    ensures images != [] && Strip(feedback) == "" ==> r == Error("User feedback is required", 400)
    ensures images != [] && Strip(feedback) != "" && ValidImages(images) == [] ==>
      r == Error("At least one image must have a URL or base64 data", 400)
    ensures r.Result? <==>
      && images != [] && Strip(feedback) != "" && ValidImages(images) != [] && client.Success?
      && !Given(Gemini.Regenerate(client.value, ValidImages(images), feedback, true).error)
    ensures r.Result? ==>
      && r.status == 200
      && r.body.message == SuccessMessage(|r.body.regeneratedImages|)
      && forall j :: 0 <= j < |r.body.regeneratedImages| ==> r.body.regeneratedImages[j].url != ""
    ensures r.Error? && client.Success? && ValidImages(images) != [] && images != [] && Strip(feedback) != "" ==>
      r == Error("Image regeneration failed: "
                 + Gemini.Regenerate(client.value, ValidImages(images), feedback, true).error.value, 500)
    ensures images != [] && Strip(feedback) != "" && ValidImages(images) != [] && client.Failure? ==>
      r == Error("Error regenerating images: " + client.error, 500)
    ensures images != [] && Strip(feedback) != "" && ValidImages(images) != [] && client.Success? ==>
      r == Respond(Gemini.Regenerate(client.value, ValidImages(images), feedback, true), |ValidImages(images)|)
  {
    if images == [] then Error("At least one image is required", 400)
    else if Strip(feedback) == "" then Error("User feedback is required", 400)
    else
      var valid := ValidImages(images);
      if valid == [] then Error("At least one image must have a URL or base64 data", 400)
      else match client
        case Failure(e) => Error("Error regenerating images: " + e, 500)
        case Success(env) =>
          Respond(Gemini.Regenerate(env, valid, feedback, true), |valid|)
  }

  /** An empty image list is refused before the feedback is looked at. */
  lemma EmptyImagesCheckedFirst(client: Result<Gemini.Env, string>, feedback: string)
    ensures RegenerateImages(client, [], feedback) == Error("At least one image is required", 400)
  {
  }

  /** Inputs that are all usable pass the filter unchanged. */
  lemma {:induction false} AllUsableKept(images: seq<ImageInput>)
    requires forall i :: 0 <= i < |images| ==> Usable(images[i])
    ensures ValidImages(images) == images
    decreases |images|
  {
    if |images| > 0 {
      AllUsableKept(images[1..]);
      assert [images[0]] + images[1..] == images;
    }
  }

  /** The filter keeps the order: filtering a concatenation filters each part. */
  lemma {:induction false} ValidImagesAppend(a: seq<ImageInput>, b: seq<ImageInput>)
    ensures ValidImages(a + b) == ValidImages(a) + ValidImages(b)
    decreases |a|
  {
    if |a| > 0 {
      assert (a + b)[1..] == a[1..] + b;
      ValidImagesAppend(a[1..], b);
    } else {
      assert a + b == b;
    }
  }

  /**
   * When the client succeeds the reported count is the number of usable
   * images, since Gemini counts the images it was handed.
   */
  lemma InputCountIsUsableCount(env: Gemini.Env, images: seq<ImageInput>, feedback: string)
    requires RegenerateImages(Success(env), images, feedback).Result?
    ensures RegenerateImages(Success(env), images, feedback).body.inputCount == |ValidImages(images)|
  {
  }

  /**
   * A failure the client reports with an empty text is falsy, so it is not
   * caught: the call succeeds with no images.
   */
  lemma EmptyErrorTextPassesThrough(usable: nat)
    ensures Respond(Failed(""), usable)
         == Ok(ChatResponse([], "Failed to generate images", usable, SuccessMessage(0)))
  {
  }

  /** A model call that raises with a non-empty text reaches the caller as a 500 carrying that text. */
  lemma ModelFailureIs500(env: Gemini.Env, images: seq<ImageInput>, feedback: string)
    requires images != [] && Strip(feedback) != "" && ValidImages(images) != []
    requires Gemini.LoadAll(env, ValidImages(images)).Success? && Gemini.LoadAll(env, ValidImages(images)).value != []
    requires env.generate(feedback, Gemini.LoadAll(env, ValidImages(images)).value).Failure?
    requires env.generate(feedback, Gemini.LoadAll(env, ValidImages(images)).value).error != ""
    ensures RegenerateImages(Success(env), images, feedback)
         == Error("Image regeneration failed: "
                  + env.generate(feedback, Gemini.LoadAll(env, ValidImages(images)).value).error, 500)
  {
    var loaded := Gemini.LoadAll(env, ValidImages(images)).value;
    assert Gemini.Regenerate(env, ValidImages(images), feedback, true) == Failed(env.generate(feedback, loaded).error);
  }

  /** The url entries of a concatenation are those of each part, in order. */
  lemma {:induction false} UrlEntriesAppend(a: seq<GenImage>, b: seq<GenImage>)
    ensures UrlEntries(a + b) == UrlEntries(a) + UrlEntries(b)
    decreases |a|
  {
    if |a| == 0 {
      assert a + b == b;
    } else {
      assert (a + b)[0] == a[0];
      assert (a + b)[1..] == a[1..] + b;
      UrlEntriesAppend(a[1..], b);
    }
  }

  /** One image is kept, with its MIME type, iff it is a URL image with a non-empty url. */
  lemma UrlEntriesOne(g: GenImage)
    ensures UrlEntries([g]) == if g.UrlImage? && g.url != "" then [RegeneratedImage(g.url, g.mimeType)] else []
  {
    assert [g][1..] == [];
  }
}

=== FILE: config.dfy ===
/**
 * Application settings (app/config.py): the values loaded from the
 * environment and the environment-dependent adjustment `get_settings`
 * applies to them, including the parsing of the CORS origin list.
 */
module Config {
  import opened Strings

  /** The settings as loaded from the environment, before adjustment. */
  datatype RawSettings = RawSettings(
    appName: string,
    debug: bool,
    jwtSecretKey: string,
    jwtAlgorithm: string,
    accessTokenExpireMinutes: int,
    refreshTokenExpireDays: int,
    logLevel: string,
    corsOrigins: string,
    corsMethods: seq<string>,
    corsHeaders: seq<string>,
    environment: string,
    awsAccessKeyId: string,
    awsSecretAccessKey: string,
    awsRegion: string,
    awsBucketName: string)

  /** The settings after `get_settings`: the origin string has become a list. */
  datatype Settings = Settings(
    appName: string,
    debug: bool,
    jwtSecretKey: string,
    jwtAlgorithm: string,
    accessTokenExpireMinutes: int,
    refreshTokenExpireDays: int,
    logLevel: string,
    corsOrigins: seq<string>,
    corsMethods: seq<string>,
    corsHeaders: seq<string>,
    environment: string,
    awsAccessKeyId: string,
    awsSecretAccessKey: string,
    awsRegion: string,
    awsBucketName: string)

  /** The declared defaults of the settings class, used when a variable is unset. */
  const Defaults := RawSettings(
    "Property Analysis API", false, "your-secret-key-here", "HS256", 1440, 30, "INFO",
    "", ["*"], ["*"], "development", "", "", "", "")

  const ProductionCorsHeaders: seq<string> :=
    ["Authorization", "Content-Type", "Accept", "Origin", "X-Requested-With"]

  const DevelopmentCorsOrigins: seq<string> :=
    ["http://localhost:5000", "http://127.0.0.1:5000", "http://localhost:3000", "http://localhost:5173"]

  /** `ENVIRONMENT.lower() == "production"`. */
  predicate IsProduction(environment: string)
  {
    Lower(environment) == "production"
  }

  predicate IsDoubleQuote(c: char) { c == '"' }

  predicate IsSingleQuote(c: char) { c == '\'' }

  /** `s.strip('"').strip("'")`. */
  function Unquote(s: string): string
  {
    StripBy(StripBy(s, IsDoubleQuote), IsSingleQuote)
  }

  /** `[o.strip() for o in pieces if o.strip()]`. */
  function CleanOrigins(pieces: seq<string>): (r: seq<string>)
    ensures |r| <= |pieces|
    ensures forall i :: 0 <= i < |r| ==> r[i] != "" && Unpadded(r[i])
  {
    if |pieces| == 0 then []
    else
      var o := Strip(pieces[0]);
      (if o == "" then [] else [o]) + CleanOrigins(pieces[1..])
  }

  /** The production origin list parsed from the `CORS_ORIGINS` text. */
  function ProductionOrigins(text: string): (r: seq<string>)
    ensures text == "" || Unquote(text) == "*" ==> r == []
    ensures forall i :: 0 <= i < |r| ==> r[i] != "" && Unpadded(r[i])
  {
    if text == "" then []
    else
      var unquoted := Unquote(text);
      if unquoted == "*" then [] else CleanOrigins(Split(unquoted, ','))
  }

  /** `get_settings`: production and every other environment adjust different fields. */
  function GetSettings(raw: RawSettings): (s: Settings)
    ensures IsProduction(raw.environment) ==>
      && !s.debug && s.logLevel == "INFO"
      && s.corsHeaders == ProductionCorsHeaders
      && s.corsOrigins == ProductionOrigins(raw.corsOrigins)
    ensures !IsProduction(raw.environment) ==>
      && s.debug && s.logLevel == "DEBUG"
      && s.corsOrigins == DevelopmentCorsOrigins
      && s.corsHeaders == raw.corsHeaders
    ensures && s.appName == raw.appName && s.jwtSecretKey == raw.jwtSecretKey
            && s.jwtAlgorithm == raw.jwtAlgorithm
            && s.accessTokenExpireMinutes == raw.accessTokenExpireMinutes
            && s.refreshTokenExpireDays == raw.refreshTokenExpireDays
            && s.corsMethods == raw.corsMethods && s.environment == raw.environment
            && s.awsAccessKeyId == raw.awsAccessKeyId
            && s.awsSecretAccessKey == raw.awsSecretAccessKey
            && s.awsRegion == raw.awsRegion && s.awsBucketName == raw.awsBucketName
  {
    var production := IsProduction(raw.environment);
    Settings(
      raw.appName,
      !production,
      raw.jwtSecretKey,
      raw.jwtAlgorithm,
      raw.accessTokenExpireMinutes,
      raw.refreshTokenExpireDays,
      if production then "INFO" else "DEBUG",
      if production then ProductionOrigins(raw.corsOrigins) else DevelopmentCorsOrigins,
      raw.corsMethods,
      if production then ProductionCorsHeaders else raw.corsHeaders,
      raw.environment,
      raw.awsAccessKeyId,
      raw.awsSecretAccessKey,
      raw.awsRegion,
      raw.awsBucketName)
  }

  /** Capitals do not matter: "PRODUCTION" selects the production branch. */
  lemma ProductionIgnoresCase()
    ensures IsProduction("PRODUCTION")
  {
    LowerPointwise("PRODUCTION");
  }

  /** The comparison is exact apart from case: no trimming and no abbreviation. */
  lemma ProductionNeedsWholeWord()
    ensures !IsProduction("prod") && !IsProduction(" production")
  {
    assert !IsProduction("prod");
  }

  /** Two spellings that lower-case alike yield the same settings apart from the spelling itself. */
  lemma SettingsDependOnLoweredEnvironment(raw: RawSettings, other: string)
    requires Lower(other) == Lower(raw.environment)
    ensures GetSettings(raw.(environment := other)) == GetSettings(raw).(environment := other)
  {
  }

  /** Outside production the origin list is fixed, whatever `CORS_ORIGINS` holds. */
  lemma DevelopmentIgnoresOriginText(raw: RawSettings, text: string)
    requires !IsProduction(raw.environment)
    ensures GetSettings(raw.(corsOrigins := text)) == GetSettings(raw)
  {
  }

  /** The declared defaults describe a development deployment. */
  lemma DefaultsAreDevelopment()
    ensures GetSettings(Defaults).debug && GetSettings(Defaults).logLevel == "DEBUG"
    ensures GetSettings(Defaults).corsOrigins == DevelopmentCorsOrigins
  {
  }

  lemma UnquoteBare()
    ensures Unquote("*") == "*"
  {
    StripByNothing("*", IsDoubleQuote);
    StripByNothing("*", IsSingleQuote);
  }

  lemma UnquoteDouble()
    ensures Unquote("\"*\"") == "*"
  {
    StripEnds('"', "*", '"', IsDoubleQuote);
    assert ['"'] + "*" + ['"'] == "\"*\"";
    StripByNothing("*", IsSingleQuote);
  }

  lemma UnquoteSingle()
    ensures Unquote("'*'") == "*"
  {
    StripByNothing("'*'", IsDoubleQuote);
    StripEnds('\'', "*", '\'', IsSingleQuote);
    assert ['\''] + "*" + ['\''] == "'*'";
  }

  lemma UnquoteNested()
    ensures Unquote("\"'*'\"") == "*"
  {
    StripEnds('"', "'*'", '"', IsDoubleQuote);
    assert ['"'] + "'*'" + ['"'] == "\"'*'\"";
    StripEnds('\'', "*", '\'', IsSingleQuote);
    assert ['\''] + "*" + ['\''] == "'*'";
  }

  /** A bare or quoted wildcard is refused in production. */
  lemma QuotedWildcardRefused()
    ensures ProductionOrigins("*") == []
    ensures ProductionOrigins("\"*\"") == []
    ensures ProductionOrigins("'*'") == []
    ensures ProductionOrigins("\"'*'\"") == []
  {
    UnquoteBare();
    UnquoteDouble();
    UnquoteSingle();
    UnquoteNested();
  }

  /** A comma-separated list of clean origins parses back to exactly that list. */
  lemma {:induction false} ProductionOriginsRoundTrip(origins: seq<string>)
    requires origins != ["*"]
    requires forall i :: 0 <= i < |origins| ==>
      origins[i] != "" && Unpadded(origins[i]) && ',' !in origins[i] && '"' !in origins[i] && '\'' !in origins[i]
    ensures ProductionOrigins(Join(origins, ',')) == origins
  {
    var text := Join(origins, ',');
    if origins != [] {
      JoinAvoids(origins, ',', '"');
      JoinAvoids(origins, ',', '\'');
      StripByNothing(text, IsDoubleQuote);
      StripByNothing(text, IsSingleQuote);
      assert Unquote(text) == text;
      SplitJoin(origins, ',');
      if text == "*" {
        SplitNoSeparator("*", ',');
        assert false;
      }
      CleanOriginsOfClean(origins);
    }
  }

  /**
   * The wildcard is refused only when it is the whole setting: listed beside
   * another origin it is kept.
   */
  lemma WildcardAmongOthersKept(other: string)
    requires other != "" && Unpadded(other) && ',' !in other && '"' !in other && '\'' !in other
    ensures ProductionOrigins("*," + other) == ["*", other]
  {
    var origins := ["*", other];
    assert origins[1..] == [other];
    assert Join(origins, ',') == "*," + other;
    ProductionOriginsRoundTrip(origins);
  }

  /** Cleaning works piece by piece: the origins of a concatenation are the origins of each part, in order. */
  lemma {:induction false} CleanOriginsAppend(a: seq<string>, b: seq<string>)
    ensures CleanOrigins(a + b) == CleanOrigins(a) + CleanOrigins(b)
    decreases |a|
  {
    if |a| == 0 {
      assert a + b == b;
    } else {
      assert (a + b)[0] == a[0];
      assert (a + b)[1..] == a[1..] + b;
      CleanOriginsAppend(a[1..], b);
    }
  }

  /** A single piece contributes its stripped text, or nothing when that is empty. */
  lemma CleanOriginsOne(piece: string)
    ensures CleanOrigins([piece]) == if Strip(piece) == "" then [] else [Strip(piece)]
  {
    assert [piece][1..] == [];
  }

  /** Pieces that strip to the given non-empty origins clean to exactly those origins. */
  lemma {:induction false} CleanOriginsStripped(pieces: seq<string>, origins: seq<string>)
    requires |pieces| == |origins|
    requires forall i :: 0 <= i < |pieces| ==> origins[i] != "" && Strip(pieces[i]) == origins[i]
    ensures CleanOrigins(pieces) == origins
    decreases |pieces|
  {
    if |pieces| > 0 {
      CleanOriginsStripped(pieces[1..], origins[1..]);
      assert [origins[0]] + origins[1..] == origins;
    }
  }

  /** Each origin with `pad` on both sides. */
  function Padded(origins: seq<string>, pad: string): (r: seq<string>)
    ensures |r| == |origins|
    ensures forall i :: 0 <= i < |r| ==> r[i] == pad + origins[i] + pad
  {
    seq(|origins|, i requires 0 <= i < |origins| => pad + origins[i] + pad)
  }

  /** The origins a padded list is built from, as the lemmas below require them. */
  predicate PlainOrigins(origins: seq<string>)
  {
    forall i :: 0 <= i < |origins| ==>
      origins[i] != "" && Unpadded(origins[i]) && ',' !in origins[i] && '"' !in origins[i] && '\'' !in origins[i]
  }

  /**
   * Whitespace around the listed origins is trimmed: a comma-separated list
   * whose entries carry the same padding on both sides parses to the bare origins.
   */
  lemma PaddedOriginsTrimmed(origins: seq<string>, pad: string)
    requires origins != ["*"]
    requires forall k :: 0 <= k < |pad| ==> IsSpace(pad[k])
    requires PlainOrigins(origins)
    ensures ProductionOrigins(Join(Padded(origins, pad), ',')) == origins
  {
    var padded := Padded(origins, pad);
    var text := Join(padded, ',');
    if origins != [] {
      PaddedPieces(origins, pad);
      JoinAvoids(padded, ',', '"');
      JoinAvoids(padded, ',', '\'');
      StripByNothing(text, IsDoubleQuote);
      StripByNothing(text, IsSingleQuote);
      SplitJoin(padded, ',');
      PaddedNotWildcard(origins, pad);
      CleanOriginsStripped(padded, origins);
    }
  }

  lemma PaddedPieces(origins: seq<string>, pad: string)
    requires forall k :: 0 <= k < |pad| ==> IsSpace(pad[k])
    requires PlainOrigins(origins)
    ensures forall i :: 0 <= i < |origins| ==>
      && ',' !in Padded(origins, pad)[i] && '"' !in Padded(origins, pad)[i] && '\'' !in Padded(origins, pad)[i]
      && Strip(Padded(origins, pad)[i]) == origins[i]
  {
    forall i | 0 <= i < |origins|
      ensures ',' !in pad + origins[i] + pad && '"' !in pad + origins[i] + pad && '\'' !in pad + origins[i] + pad
      ensures Strip(pad + origins[i] + pad) == origins[i]
    {
      StripPadded(pad, origins[i], pad, IsSpace);
    }
  }

  lemma PaddedNotWildcard(origins: seq<string>, pad: string)
    requires origins != ["*"]
    requires PlainOrigins(origins)
    requires forall k :: 0 <= k < |pad| ==> IsSpace(pad[k])
    requires Split(Join(Padded(origins, pad), ','), ',') == Padded(origins, pad)
    ensures Join(Padded(origins, pad), ',') != "*"
  {
    var p := Padded(origins, pad);
    SplitNoSeparator("*", ',');
    if |origins| == 1 {
      assert Join(p, ',') == p[0];
      if pad == [] {
        assert p[0] == origins[0];
        assert origins == [origins[0]];
      } else {
        assert p[0][0] == pad[0];
        assert !IsSpace("*"[0]);
      }
    }
  }

  lemma StripUnpadded(s: string)
    requires Unpadded(s)
    ensures Strip(s) == s
  {
    var k := SkipWhile(s, IsSpace);
    assert k == 0;
    var t := StripBy(s, IsSpace);
    assert |t| == |s|;
  }

  lemma {:induction false} CleanOriginsOfClean(pieces: seq<string>)
    requires forall i :: 0 <= i < |pieces| ==> pieces[i] != "" && Unpadded(pieces[i])
    ensures CleanOrigins(pieces) == pieces
    decreases |pieces|
  {
    if |pieces| > 0 {
      StripUnpadded(pieces[0]);
      assert Strip(pieces[0]) != "";
      CleanOriginsOfClean(pieces[1..]);
      calc {
        CleanOrigins(pieces);
        [pieces[0]] + CleanOrigins(pieces[1..]);
        [pieces[0]] + pieces[1..];
        pieces;
      }
    }
  }
}

=== FILE: doc_controller.dfy ===
/**
 * The `/upload` endpoint (app/controller/doc_controller.py): the file-name
 * gate checked before any work, the per-file pipeline (store the PDF, read it
 * back, extract its images) that skips a file on any failure, and the totals
 * of the response.
 */
module DocController {
  import opened Wrappers
  import opened Strings
  import opened Seqs
  import opened Responses
  import S3
  import Paths
  import PdfExtractor

  type Bytes = seq<bv8>

  datatype UploadFile = UploadFile(filename: string, content: Bytes)

  /** One entry of `images` in the response. */
  datatype ExtractedImage = ExtractedImage(filename: string, page: nat, caption: string, url: string, mimeType: string)

  datatype UploadResponse = UploadResponse(
    totalFiles: nat,
    totalPages: nat,
    totalImages: nat,
    images: seq<ExtractedImage>,
    message: string)

  /** The outcomes of the endpoint's I/O, per file position `i` where it matters. */
  datatype Env = Env(
    readFails: nat -> bool,                         // whether `await file.read()` raises
    storage: S3.S3Client,
    storedAt: nat -> bool,                          // whether the PDF upload went through
    download: string -> Option<Bytes>,              // `get_s3_file_buffer`
    open: Bytes -> Option<seq<PdfExtractor.Page>>,  // the document as pdfplumber opens it; `None` when it raises
    extractor: nat -> PdfExtractor.Env)             // the extractor's own I/O while handling file i

  /** What one file contributes: its page count and images, or nothing when it was skipped. */
  datatype FileOutcome = Processed(pages: nat, images: seq<ExtractedImage>) | Skipped

  /** The first file name that does not end in ".pdf" (case-sensitive). */
  function FirstNonPdf(files: seq<UploadFile>): (r: Option<string>)
    ensures r.None? <==> forall i :: 0 <= i < |files| ==> EndsWith(files[i].filename, ".pdf")
    ensures r.Some? ==> exists i :: 0 <= i < |files| && files[i].filename == r.value
                          && !EndsWith(r.value, ".pdf")
                          && forall j :: 0 <= j < i ==> EndsWith(files[j].filename, ".pdf")
  {
    if |files| == 0 then None
    else if !EndsWith(files[0].filename, ".pdf") then
      assert files[0].filename == files[0].filename;
      Some(files[0].filename)
    else
      var r := FirstNonPdf(files[1..]);
      assert forall i :: 1 <= i < |files| ==> files[i] == files[1..][i - 1];
      if r.Some? then
        var i :| 0 <= i < |files[1..]| && files[1..][i].filename == r.value
                 && !EndsWith(r.value, ".pdf")
                 && forall j :: 0 <= j < i ==> EndsWith(files[1..][j].filename, ".pdf");
        assert files[i + 1].filename == r.value;
        r
      else r
  }

  /** The key a PDF is stored under. */
  function PdfKey(filename: string): string
  {
    "pdfs/" + filename
  }

  /** The folder a PDF's images are stored under: "extracted/" and the stem of its name. */
  function ImageFolder(filename: string): string
  {
    "extracted/" + Paths.Stem(Paths.Name(filename))
  }

  /** `f"{filename}_{img['filename']}"` and the other fields, for each extracted record. */
  function Prefixed(filename: string, records: seq<PdfExtractor.ImageRecord>): (r: seq<ExtractedImage>)
    ensures |r| == |records|
    ensures forall j :: 0 <= j < |r| ==>
      && r[j].filename == filename + "_" + records[j].filename
      && r[j].page == records[j].page && r[j].url == records[j].url
      && r[j].caption == records[j].caption && r[j].mimeType == records[j].mimeType
  {
    seq(|records|, j requires 0 <= j < |records| =>
      ExtractedImage(filename + "_" + records[j].filename, records[j].page, records[j].caption,
                     records[j].url, records[j].mimeType))
  }

  /** The body of the per-file `try`: any failure skips the file. */
  function ProcessFile(env: Env, i: nat, file: UploadFile): (r: FileOutcome)
    ensures r.Processed? ==>
      && !env.readFails(i)
      && S3.UploadFile(env.storage, PdfKey(file.filename), env.storedAt(i)) == Some(PdfKey(file.filename))
      && env.download(PdfKey(file.filename)).Some? && env.download(PdfKey(file.filename)).value != []
    ensures r.Processed? <==>
      && !env.readFails(i)
      && env.storage.initialized && env.storedAt(i)
      && env.download(PdfKey(file.filename)).Some? && env.download(PdfKey(file.filename)).value != []
      && env.open(env.download(PdfKey(file.filename)).value).Some?
    ensures r.Processed? ==>
      var doc := env.open(env.download(PdfKey(file.filename)).value).value;
      && r.pages == |doc|
      && r.images == Prefixed(file.filename,
           PdfExtractor.PagesLoop(env.extractor(i), doc, 0, ImageFolder(file.filename), PdfExtractor.CaptionOffset))
  {
    if env.readFails(i) then Skipped
    else match S3.UploadFile(env.storage, PdfKey(file.filename), env.storedAt(i))
      case None => Skipped
      case Some(key) =>
        match env.download(key)
        case None => Skipped
        case Some(bytes) =>
          if bytes == [] then Skipped
          else match PdfExtractor.ExtractFromBytes(env.extractor(i), env.open(bytes), file.filename,
                                                   ImageFolder(file.filename), PdfExtractor.CaptionOffset)
            case None => Skipped
            case Some(x) => Processed(x.totalPages, Prefixed(file.filename, x.images))
  }

  /** The per-file body as a function of position and file. */
  function Processor(env: Env): (nat, UploadFile) -> FileOutcome
  {
    (i: nat, file: UploadFile) => ProcessFile(env, i, file)
  }

  /** `total_pages`: the page counts of the processed files. */
  function PagesOf(outs: seq<FileOutcome>): nat
  {
    if |outs| == 0 then 0
    else (if outs[0].Processed? then outs[0].pages else 0) + PagesOf(outs[1..])
  }

  /** `all_images`: the images of the processed files, file by file. */
  function ImagesOf(outs: seq<FileOutcome>): seq<ExtractedImage>
  {
    if |outs| == 0 then []
    else (if outs[0].Processed? then outs[0].images else []) + ImagesOf(outs[1..])
  }

  function SuccessMessage(images: nat, files: nat): string
  {
    "Successfully extracted " + NatToString(images) + " images from " + NatToString(files) + " PDF(s)"
  }

  /**
   * `upload_pdfs`: `services` is the pair of services, or the text of the
   * exception raised while obtaining them.
   */
  function UploadPdfs(services: Result<Env, string>, files: seq<UploadFile>): (r: JsonResponse<UploadResponse>)
    ensures FirstNonPdf(files).Some? ==>
      r == Error("Only PDF files are allowed. Got: " + FirstNonPdf(files).value, 400)
    ensures r.Result? <==> FirstNonPdf(files).None? && services.Success?
    ensures FirstNonPdf(files).None? && services.Failure? ==>
      r == Error("Error processing PDFs: " + services.error, 500)
    ensures r.Result? ==>
      var outs := MapIndexed(Processor(services.value), files, 0);
      && r.status == 200
      && r.body.totalFiles == |files|
      && r.body.totalPages == PagesOf(outs)
      && r.body.images == ImagesOf(outs)
      && r.body.totalImages == |r.body.images|
      && r.body.message == SuccessMessage(|r.body.images|, |files|)
  {
    match FirstNonPdf(files)
    case Some(name) => Error("Only PDF files are allowed. Got: " + name, 400)
    case None =>
      match services
      case Failure(e) => Error("Error processing PDFs: " + e, 500)
      case Success(env) =>
        var outs := MapIndexed(Processor(env), files, 0);
        var images := ImagesOf(outs);
        Ok(UploadResponse(|files|, PagesOf(outs), |images|, images, SuccessMessage(|images|, |files|)))
  }

  /** A non-PDF name anywhere refuses the whole request, whatever the services would have done. */
  lemma GateBeforeAnyWork(a: Result<Env, string>, b: Result<Env, string>, files: seq<UploadFile>)
    requires FirstNonPdf(files).Some?
    ensures UploadPdfs(a, files) == UploadPdfs(b, files)
    ensures UploadPdfs(a, files).status == 400
  {
  }

  /** The check is case-sensitive: "X.PDF" is refused. */
  lemma UpperCaseSuffixRefused(content: Bytes)
    ensures FirstNonPdf([UploadFile("X.PDF", content)]) == Some("X.PDF")
  {
    assert !EndsWith("X.PDF", ".pdf");
  }

  lemma {:induction false} TotalsAppend(a: seq<FileOutcome>, b: seq<FileOutcome>)
    ensures PagesOf(a + b) == PagesOf(a) + PagesOf(b)
    ensures ImagesOf(a + b) == ImagesOf(a) + ImagesOf(b)
    decreases |a|
  {
    if |a| > 0 {
      assert (a + b)[1..] == a[1..] + b;
      TotalsAppend(a[1..], b);
    } else {
      assert a + b == b;
    }
  }

  /** A skipped file contributes nothing; the files around it contribute as they would alone. */
  lemma SkippedFileContributesNothing(outs: seq<FileOutcome>, k: nat)
    requires k < |outs| && outs[k].Skipped?
    ensures PagesOf(outs) == PagesOf(outs[..k]) + PagesOf(outs[k + 1..])
    ensures ImagesOf(outs) == ImagesOf(outs[..k]) + ImagesOf(outs[k + 1..])
  {
    var rest := outs[k..];
    assert outs == outs[..k] + rest;
    TotalsAppend(outs[..k], rest);
    SkippedHead(rest);
    assert rest[1..] == outs[k + 1..];
  }

  lemma SkippedHead(outs: seq<FileOutcome>)
    requires outs != [] && outs[0].Skipped?
    ensures PagesOf(outs) == PagesOf(outs[1..]) && ImagesOf(outs) == ImagesOf(outs[1..])
  {
    assert ImagesOf(outs) == [] + ImagesOf(outs[1..]);
  }

  /** One file's outcome depends on its own position and file only, not on the other files. */
  lemma OutcomesIndependent(env: Env, files: seq<UploadFile>, n: nat)
    requires n <= |files|
    ensures MapIndexed(Processor(env), files, 0)
         == MapIndexed(Processor(env), files[..n], 0) + MapIndexed(Processor(env), files[n..], n)
  {
    var f := Processor(env);
    MapIndexedSplit(f, files, 0, n);
  }

  /** A plain "x.pdf" stores its images under "extracted/x". */
  lemma FolderOfPlainPdf(x: string)
    requires x != "" && '/' !in x
    ensures ImageFolder(x + ".pdf") == "extracted/" + x
  {
    assert '/' !in x + ".pdf";
    Paths.NameOfPlainFile(x + ".pdf");
    Paths.StemDropsPdf(x);
  }
}

=== FILE: gemini_client.dfy ===
/**
 * The Gemini image-regeneration client (app/llm/gemini_client.py): how each
 * input image is loaded (url, then S3 key, then base64 data), when the model
 * is consulted, and how its reply is turned into the result dictionary.
 *
 * S3 downloads, image decoding, base64 and the model call are I/O; their
 * outcomes are the function values of an `Env`.
 */
module Gemini {
  import opened Wrappers
  import opened Strings
  import opened LlmCommon
  import S3

  /** One part of the model's reply: text, inline image data, or neither. */
  datatype Part = TextPart(text: string) | InlinePart(data: Bytes, mimeType: Option<string>) | EmptyPart

  /** The outcomes of the client's I/O. */
  datatype Env = Env(
    download: string -> Option<Bytes>,                        // `get_s3_file_buffer`; `None` on any failure
    opens: Bytes -> bool,                                     // whether `Image.open` accepts the bytes
    openFailure: string,                                      // the text of the exception it raises otherwise
    decode64: string -> Option<Bytes>,                        // `standard_b64decode`; `None` when it raises
    encode64: Bytes -> string,                                // `standard_b64encode(...).decode()`
    generate: (string, seq<Bytes>) -> Result<seq<Part>, string>, // the model call on (feedback, images)
    storage: S3.S3Client,
    uuidAt: nat -> string,                                    // the uuid drawn for the k-th upload
    storedAt: nat -> bool)                                    // whether the k-th upload went through

  /** Where an input image is taken from. */
  datatype Source = FromUrl(url: string) | FromKey(key: string) | FromData(data: string) | NoSource

  predicate IsHttp(s: string)
  {
    "http://" <= s || "https://" <= s
  }

  /**
   * The branch `regenerate_images` takes for one image: the first non-empty of
   * url, s3_key and data, where data that looks like a URL is loaded as one.
   */
  function PickSource(img: ImageInput): (s: Source)
    ensures s.NoSource? <==> !Given(img.url) && !Given(img.s3Key) && !Given(img.data)
    ensures Given(img.url) ==> s == FromUrl(img.url.value)
    ensures !Given(img.url) && Given(img.s3Key) ==> s == FromKey(img.s3Key.value)
    ensures s.FromUrl? ==> Given(img.url) || (Given(img.data) && IsHttp(img.data.value) && s.url == img.data.value)
    ensures s.FromKey? ==> !Given(img.url) && Given(img.s3Key) && s.key == img.s3Key.value
    ensures s.FromData? ==> !Given(img.url) && !Given(img.s3Key) && Given(img.data)
                            && s.data == img.data.value && !IsHttp(s.data)
  {
    if Given(img.url) then FromUrl(img.url.value)
    else if Given(img.s3Key) then FromKey(img.s3Key.value)
    else if Given(img.data) then
      if IsHttp(img.data.value) then FromUrl(img.data.value) else FromData(img.data.value)
    else NoSource
  }

  /** Whether an image was loaded, skipped, or made the whole call fail. */
  datatype Loaded = Image(bytes: Bytes) | Missing | Raised

  /** `_s3_key_to_pil_image`: empty or missing downloads are skipped; unreadable bytes raise. */
  function LoadKey(env: Env, key: string): (l: Loaded)
    ensures l.Image? ==> env.download(key) == Some(l.bytes) && l.bytes != [] && env.opens(l.bytes)
    ensures l.Raised? <==> env.download(key).Some? && env.download(key).value != [] && !env.opens(env.download(key).value)
    ensures l.Missing? <==> env.download(key).None? || env.download(key).value == []
  {
    match env.download(key)
    case None => Missing
    case Some(b) => if b == [] then Missing else if env.opens(b) then Image(b) else Raised
  }

  /** `_url_to_pil_image`: download by the extracted key, skipping URLs without a usable key. */
  function LoadUrl(env: Env, url: string): (l: Loaded)
    ensures !Given(ExtractS3Key(url)) ==> l.Missing?
    ensures Given(ExtractS3Key(url)) ==> l == LoadKey(env, ExtractS3Key(url).value)
  {
    match ExtractS3Key(url)
    case None => Missing
    case Some(key) => if key == "" then Missing else LoadKey(env, key)
  }

  /** `_base64_to_pil_image` under its `try`: every failure is a skip, never a raise. */
  function LoadBase64(env: Env, data: string): (l: Loaded)
    ensures !l.Raised?
    ensures l.Image? <==> env.decode64(DataPayload(data)).Some? && env.opens(env.decode64(DataPayload(data)).value)
  {
    match env.decode64(DataPayload(data))
    case None => Missing
    case Some(b) => if env.opens(b) then Image(b) else Missing
  }

  function Load(env: Env, img: ImageInput): Loaded
  {
    match PickSource(img)
    case FromUrl(u) => LoadUrl(env, u)
    case FromKey(k) => LoadKey(env, k)
    case FromData(d) => LoadBase64(env, d)
    case NoSource => Missing
  }

  /**
   * The loading loop: the loaded images in input order, or the exception text
   * when opening a downloaded image raised.
   */
  function LoadAll(env: Env, images: seq<ImageInput>): (r: Result<seq<Bytes>, string>)
    ensures r.Failure? ==> r.error == env.openFailure
    ensures r.Success? <==> forall i :: 0 <= i < |images| ==> !Load(env, images[i]).Raised?
    ensures r.Success? ==> |r.value| <= |images| && forall j :: 0 <= j < |r.value| ==> env.opens(r.value[j])
    ensures r.Success? ==> (r.value == [] <==> forall i :: 0 <= i < |images| ==> Load(env, images[i]).Missing?)
  {
    if |images| == 0 then Success([])
    else
      var rest := LoadAll(env, images[1..]);
      assert forall i :: 1 <= i < |images| ==> images[i] == images[1..][i - 1];
      match Load(env, images[0])
      case Raised => Failure(env.openFailure)
      case Missing => rest
      case Image(b) => if rest.Failure? then rest else Success([b] + rest.value)
  }

  /** The number of inline-image parts of a reply. */
  function InlineCount(parts: seq<Part>): nat
  {
    if |parts| == 0 then 0
    else (if parts[0].InlinePart? then 1 else 0) + InlineCount(parts[1..])
  }

  /** The concatenated text parts of a reply. */
  function TextOf(parts: seq<Part>): string
  {
    if |parts| == 0 then ""
    else (if parts[0].TextPart? then parts[0].text else "") + TextOf(parts[1..])
  }

  /** `part.inline_data.mime_type or "image/png"`. */
  function MimeOrPng(mimeType: Option<string>): (m: string)
    ensures m != ""
    ensures Given(mimeType) ==> m == mimeType.value
  {
    if Given(mimeType) then mimeType.value else "image/png"
  }

  /** One generated image, uploaded as the `k`-th upload when asked and possible, else inline. */
  function ShapeImage(env: Env, data: Bytes, mimeType: string, upload: bool, k: nat): (g: GenImage)
    ensures g.mimeType == mimeType
    ensures g.UrlImage? <==> upload && env.storage.initialized && env.storedAt(k)
    ensures g.UrlImage? ==> g.url == S3.PublicUrl(env.storage,
      S3.GenerateKey("regenerated", env.uuidAt(k), "regen", S3.ExtensionFor(mimeType)))
    ensures g.DataImage? ==> g.data == env.encode64(data)
  {
    if upload then
      match S3.UploadImage(env.storage, "regenerated", "regen", mimeType, env.uuidAt(k), env.storedAt(k))
      case Some(u) => UrlImage(u.url, mimeType)
      case None => DataImage(env.encode64(data), mimeType)
    else DataImage(env.encode64(data), mimeType)
  }

  /** The reply loop: one image per inline part, in order; `k` counts the inline parts before. */
  function ShapeImages(env: Env, parts: seq<Part>, upload: bool, k: nat): (out: seq<GenImage>)
    ensures |out| == InlineCount(parts)
    ensures !upload ==> forall j :: 0 <= j < |out| ==> out[j].DataImage?
    decreases |parts|
  {
    if |parts| == 0 then []
    else match parts[0]
      case InlinePart(data, mime) =>
        [ShapeImage(env, data, MimeOrPng(mime), upload, k)] + ShapeImages(env, parts[1..], upload, k + 1)
      case _ => ShapeImages(env, parts[1..], upload, k)
  }

  /** `GeminiClient.regenerate_images`. */
  function Regenerate(env: Env, images: seq<ImageInput>, feedback: string, upload: bool): (r: RegenResult)
    ensures LoadAll(env, images).Failure? ==> r == Failed(env.openFailure)
    ensures LoadAll(env, images) == Success([]) ==> r == NothingLoaded
    ensures LoadAll(env, images).Success? && LoadAll(env, images).value != []
            && env.generate(feedback, LoadAll(env, images).value).Failure? ==>
      r == Failed(env.generate(feedback, LoadAll(env, images).value).error)
    ensures r.error.None? <==>
      && LoadAll(env, images).Success? && LoadAll(env, images).value != []
      && env.generate(feedback, LoadAll(env, images).value).Success?
    ensures r.error.None? ==>
      var parts := env.generate(feedback, LoadAll(env, images).value).value;
      && r.inputCount == Some(|images|)
      && r.images == ShapeImages(env, parts, upload, 0)
      && |r.images| == InlineCount(parts)
      && r.description == TextOf(parts)
    ensures r.error.Some? ==> r.images == [] && r.inputCount.None?
  {
    match LoadAll(env, images)
    case Failure(e) => Failed(e)
    case Success(loaded) =>
      if loaded == [] then NothingLoaded
      else match env.generate(feedback, loaded)
        case Failure(e) => Failed(e)
        case Success(parts) => RegenResult(None, ShapeImages(env, parts, upload, 0), TextOf(parts), Some(|images|))
  }

  /** A non-empty url decides the source: the key and data fields are not looked at. */
  lemma UrlDecides(img: ImageInput, key: Option<string>, data: Option<string>)
    requires Given(img.url)
    ensures PickSource(img.(s3Key := key, data := data)) == PickSource(img) == FromUrl(img.url.value)
  {
  }

  /** A url that yields no key is not retried through the S3 key field. */
  lemma NoFallThroughFromUrl(env: Env, img: ImageInput)
    requires Given(img.url) && !Given(ExtractS3Key(img.url.value))
    ensures Load(env, img) == Missing
  {
  }

  /** An empty url counts as absent: the S3 key is used. */
  lemma EmptyUrlIsAbsent(env: Env, img: ImageInput)
    requires img.url == Some("") && Given(img.s3Key)
    ensures Load(env, img) == LoadKey(env, img.s3Key.value)
  {
  }

  /** A URL placed in the data field loads exactly as it would from the url field. */
  lemma DataUrlLoadsLikeUrl(env: Env, u: string, mimeType: string)
    requires IsHttp(u)
    ensures Load(env, ImageInput(None, None, Some(u), mimeType)) == Load(env, ImageInput(Some(u), None, None, mimeType))
  {
  }

  /** When nothing loads, neither the model's reply nor the feedback affects the result. */
  lemma ModelNotConsultedWithoutImages(env: Env, images: seq<ImageInput>, feedback: string, upload: bool,
                                       generate: (string, seq<Bytes>) -> Result<seq<Part>, string>)
    requires forall i :: 0 <= i < |images| ==> Load(env, images[i]).Missing?
    ensures Regenerate(env, images, feedback, upload) == NothingLoaded
    ensures Regenerate(env.(generate := generate), images, feedback, upload) == NothingLoaded
  {
    assert forall i :: 0 <= i < |images| ==> Load(env.(generate := generate), images[i]) == Load(env, images[i]);
  }

  /** `input_count` counts the supplied images, skipped ones included. */
  lemma {:induction false} InputCountCountsSkipped(env: Env, good: ImageInput, bad: ImageInput, feedback: string, upload: bool)
    requires Load(env, good).Image? && Load(env, bad).Missing?
    requires env.generate(feedback, [Load(env, good).bytes]).Success?
    ensures Regenerate(env, [good, bad], feedback, upload).inputCount == Some(2)
  {
    assert [good, bad][1..] == [bad];
    assert [bad][1..] == [];
    assert LoadAll(env, [bad]) == Success([]);
    assert [Load(env, good).bytes] + [] == [Load(env, good).bytes];
    assert LoadAll(env, [good, bad]) == Success([Load(env, good).bytes]);
  }

  /** The loading loop works image by image: loading a concatenation is loading each part in turn. */
  lemma {:induction false} LoadAllAppend(env: Env, a: seq<ImageInput>, b: seq<ImageInput>)
    ensures LoadAll(env, a + b) ==
      if LoadAll(env, a).Success? && LoadAll(env, b).Success?
      then Success(LoadAll(env, a).value + LoadAll(env, b).value)
      else Failure(env.openFailure)
    decreases |a|
  {
    if |a| == 0 {
      assert a + b == b;
      assert LoadAll(env, a) == Success([]);
      if LoadAll(env, b).Success? {
        assert [] + LoadAll(env, b).value == LoadAll(env, b).value;
      }
    } else {
      var ab := a + b;
      assert ab[0] == a[0];
      assert ab[1..] == a[1..] + b;
      LoadAllAppend(env, a[1..], b);
      var head := Load(env, a[0]);
      if head.Image? {
        var bytes := head.bytes;
        if LoadAll(env, a[1..]).Success? && LoadAll(env, b).Success? {
          assert [bytes] + (LoadAll(env, a[1..]).value + LoadAll(env, b).value)
              == ([bytes] + LoadAll(env, a[1..]).value) + LoadAll(env, b).value;
        }
      }
    }
  }

  /** One image: an opened image is kept, a skipped one contributes nothing, and a raise fails the call. */
  lemma LoadAllOne(env: Env, img: ImageInput)
    ensures LoadAll(env, [img]) ==
      match Load(env, img)
      case Image(b) => Success([b])
      case Missing => Success([])
      case Raised => Failure(env.openFailure)
  {
    assert [img][1..] == [];
    assert LoadAll(env, []) == Success([]);
    match Load(env, img)
    case Image(b) => assert [b] + [] == [b];
    case Missing =>
    case Raised =>
  }

  /** The reply loop works part by part; the upload numbering carries on over the inline parts before. */
  lemma {:induction false} ShapeImagesAppend(env: Env, a: seq<Part>, b: seq<Part>, upload: bool, k: nat)
    ensures ShapeImages(env, a + b, upload, k)
         == ShapeImages(env, a, upload, k) + ShapeImages(env, b, upload, k + InlineCount(a))
    decreases |a|
  {
    if |a| == 0 {
      assert a + b == b;
    } else {
      assert (a + b)[0] == a[0];
      assert (a + b)[1..] == a[1..] + b;
      if a[0].InlinePart? {
        ShapeImagesAppend(env, a[1..], b, upload, k + 1);
      } else {
        ShapeImagesAppend(env, a[1..], b, upload, k);
      }
    }
  }

  /** One part: an inline part gives its image as the `k`-th upload; any other part gives nothing. */
  lemma ShapeImagesOne(env: Env, part: Part, upload: bool, k: nat)
    ensures ShapeImages(env, [part], upload, k) ==
      if part.InlinePart? then [ShapeImage(env, part.data, MimeOrPng(part.mimeType), upload, k)] else []
  {
    assert [part][1..] == [];
  }
}

=== FILE: jwt_auth.dfy ===
/**
 * The authentication middleware (app/middleware/jwt_auth.py): requests whose
 * path starts with an excluded prefix go through untouched; every other
 * request needs an Authorization header that `verify_token` accepts.
 */
module JwtAuth {
  import opened Wrappers
  import opened Token

  /** The prefixes served without authentication. */
  const PublicPaths: seq<string> := [
    "/docs", "/redoc", "/openapi.json",
    "/auth/login", "/auth/register", "/auth/refresh", "/auth/logout"
  ]

  /** `exclude_paths or PUBLIC_PATHS`: a missing or empty list means the public paths. */
  function ExcludePaths(given: Option<seq<string>>): (paths: seq<string>)
    ensures paths != []
    ensures given.Some? && given.value != [] ==> paths == given.value
  {
    if given.Some? && given.value != [] then given.value else PublicPaths
  }

  /** `any(path.startswith(p) for p in prefixes)`. */
  function IsPublic(prefixes: seq<string>, path: string): (r: bool)
    ensures r <==> exists i :: 0 <= i < |prefixes| && prefixes[i] <= path
  {
    if |prefixes| == 0 then false
    else
      assert forall i :: 1 <= i < |prefixes| ==> prefixes[i] == prefixes[1..][i - 1];
      prefixes[0] <= path || IsPublic(prefixes[1..], path)
  }

  /** What `dispatch` does with a request: pass it on, with the verified payload if any, or answer it. */
  datatype Decision = Forward(payload: Option<Claims>) | Refuse(status: int, message: string)

  /** `dispatch`, for a middleware built with `excluded` as its exclusion list. */
  function Dispatch(excluded: Option<seq<string>>, codec: Codec, path: string, header: Option<string>)
    : (d: Decision)
    ensures IsPublic(ExcludePaths(excluded), path) ==> d == Forward(None)
    ensures !IsPublic(ExcludePaths(excluded), path) && !Given(header) ==>
      d == Refuse(401, "Authentication required")
    ensures !IsPublic(ExcludePaths(excluded), path) && Given(header) ==>
      match VerifyToken(codec, header)
      case Success(claims) => d == Forward(Some(claims))
      case Failure(e) => d == Refuse(e.status, e.detail)
  {
    if IsPublic(ExcludePaths(excluded), path) then Forward(None)
    else if !Given(header) then Refuse(401, "Authentication required")
    else match VerifyToken(codec, header)
      case Success(claims) => Forward(Some(claims))
      case Failure(e) => Refuse(e.status, e.detail)
  }

  /** Passing no list and passing an empty list build the same middleware. */
  lemma NoneAndEmptyAgree(codec: Codec, path: string, header: Option<string>)
    ensures Dispatch(None, codec, path, header) == Dispatch(Some([]), codec, path, header)
    ensures ExcludePaths(None) == ExcludePaths(Some([])) == PublicPaths
  {
  }

  /** The check is a prefix test: anything below a public prefix is public, "/docsX" included. */
  lemma BelowPublicPrefixIsPublic(suffix: string)
    ensures IsPublic(PublicPaths, "/auth/refresh" + suffix)
    ensures IsPublic(PublicPaths, "/docs" + suffix)
  {
    assert PublicPaths[5] <= "/auth/refresh" + suffix;
    assert PublicPaths[0] <= "/docs" + suffix;
  }

  /** A public request is forwarded whatever its header says, and whatever the codec would do with it. */
  lemma PublicIgnoresHeader(excluded: Option<seq<string>>, c1: Codec, c2: Codec, path: string,
                            h1: Option<string>, h2: Option<string>)
    requires IsPublic(ExcludePaths(excluded), path)
    ensures Dispatch(excluded, c1, path, h1) == Dispatch(excluded, c2, path, h2) == Forward(None)
  {
  }

  /**
   * A protected request is never refused with "Not authenticated": an empty
   * header is caught first as "Authentication required", and `verify_token`
   * only sees headers it cannot call missing.
   */
  lemma NeverNotAuthenticated(excluded: Option<seq<string>>, codec: Codec, path: string, header: Option<string>)
    ensures Dispatch(excluded, codec, path, header) != Refuse(401, "Not authenticated")
  {
  }

  /** Every refusal is a client error: 401, or 403 for a token the JWT library rejects. */
  lemma RefusalsAreAuthErrors(excluded: Option<seq<string>>, codec: Codec, path: string, header: Option<string>)
    ensures Dispatch(excluded, codec, path, header).Refuse? ==>
      Dispatch(excluded, codec, path, header).status in {401, 403}
  {
  }
}

=== FILE: llm_common.dfy ===
/**
 * What the two image-regeneration clients (app/llm/gemini_client.py and
 * app/llm/openai_client.py) share: the shape of an input image, the S3 key
 * extraction from an object URL, the data-URL comma stripping, and the shape
 * of the result they return.
 */
module LlmCommon {
  import opened Wrappers
  import opened Strings
  import S3

  type Bytes = seq<bv8>

  /** An image handed to a client: any of a URL, an S3 key or base64 data may be given. */
  datatype ImageInput = ImageInput(url: Option<string>, s3Key: Option<string>, data: Option<string>, mimeType: string)

  /** A regenerated image: an uploaded URL or inline base64 data, each with its MIME type. */
  datatype GenImage = UrlImage(url: string, mimeType: string) | DataImage(data: string, mimeType: string)

  /**
   * The dictionary `regenerate_images` returns. `error` and `inputCount` are
   * absent keys when `None`.
   */
  datatype RegenResult = RegenResult(error: Option<string>, images: seq<GenImage>, description: string, inputCount: Option<nat>)

  /** The result of a call that raised: the exception text and no images. */
  function Failed(reason: string): RegenResult
  {
    RegenResult(Some(reason), [], "Failed to generate images", None)
  }

  const NothingLoaded := RegenResult(Some("No valid images could be loaded"), [], "", None)

  const S3Marker := ".amazonaws.com/"

  /**
   * `_extract_s3_key_from_url`: the text after the first ".amazonaws.com/",
   * up to a second one, cut at the first "?"; `None` without the marker.
   */
  function ExtractS3Key(url: string): (r: Option<string>)
    ensures r.None? <==> !Contains(url, S3Marker)
    ensures r.Some? ==> '?' !in r.value
    ensures r.Some? ==>
      var after := SecondPiece(url, S3Marker);
      && r.value <= after
      && (|r.value| < |after| ==> after[|r.value|] == '?')
  {
    if Contains(url, S3Marker) then
      var key := Split(SecondPiece(url, S3Marker), '?')[0];
      SplitHead(SecondPiece(url, S3Marker), '?');
      Some(key)
    else None
  }

  /** The marker occurs right after the URL prefix and nowhere inside it. */
  lemma MarkerAfterPrefix(c: S3.S3Client, key: string)
    requires '/' !in c.bucket && '/' !in c.region
    ensures IndexOf(S3.PublicUrl(c, key), S3Marker) == Some(|S3.UrlPrefix(c)|)
  {
    var p := S3.UrlPrefix(c);
    var url := S3.PublicUrl(c, key);
    assert url == p + S3Marker + key;
    assert url[|p|..|p| + 15] == S3Marker;
    assert OccursAt(url, S3Marker, |p|);
    assert p[8..] == c.bucket + ".s3." + c.region;
    assert '/' !in p[8..];
    forall j | 0 <= j < |p|
      ensures !OccursAt(url, S3Marker, j)
    {
      if j + 14 < |p| {
        assert url[j + 14] == p[8..][j + 6];
      } else {
        assert url[j + 14] == S3Marker[j + 14 - |p|];
      }
      assert url[j + 14] != '/';
      assert j + 15 <= |url| ==> url[j..j + 15][14] != '/';
    }
  }

  /**
   * Round trip: the key of an object is recovered from its public URL, as long as
   * the bucket and region hold no "/" and the key holds no "?" and no marker.
   */
  lemma ExtractKeyOfPublicUrl(c: S3.S3Client, key: string)
    requires '/' !in c.bucket && '/' !in c.region
    requires '?' !in key && !Contains(key, S3Marker)
    ensures ExtractS3Key(S3.PublicUrl(c, key)) == Some(key)
  {
    var url := S3.PublicUrl(c, key);
    MarkerAfterPrefix(c, key);
    assert url[|S3.UrlPrefix(c)| + |S3Marker|..] == key;
    assert SecondPiece(url, S3Marker) == key;
    SplitNoSeparator(key, '?');
  }

  /** The query string of a public URL is cut off: the key comes back without it. */
  lemma QueryCut(c: S3.S3Client, key: string, query: string)
    requires '/' !in c.bucket && '/' !in c.region
    requires '?' !in key && !Contains(key + "?" + query, S3Marker)
    ensures ExtractS3Key(S3.PublicUrl(c, key) + "?" + query) == Some(key)
  {
    var rest := key + "?" + query;
    var url := S3.PublicUrl(c, rest);
    assert url == S3.PublicUrl(c, key) + "?" + query;
    MarkerAfterPrefix(c, rest);
    assert url[|S3.UrlPrefix(c)| + |S3Marker|..] == rest;
    assert SecondPiece(url, S3Marker) == rest;
    SplitAtSeparator(key, '?', query);
  }

  /** A URL without the marker yields no key. */
  lemma NoMarkerNoKey(url: string)
    requires forall j :: 0 <= j ==> !OccursAt(url, S3Marker, j)
    ensures ExtractS3Key(url) == None
  {
  }

  /** `data.split(",")[1]` when `data` holds a comma, otherwise `data` itself. */
  function DataPayload(data: string): (r: string)
    ensures ',' !in r
    ensures ',' !in data ==> r == data
  {
    if ',' in data then
      CommaGivesTwoPieces(data);
      JoinSplit(data, ',');
      Split(data, ',')[1]
    else
      data
  }

  lemma {:induction false} CommaGivesTwoPieces(data: string)
    requires ',' in data
    ensures |Split(data, ',')| >= 2
    decreases |data|
  {
    if data[0] != ',' {
      assert ',' in data[1..];
      CommaGivesTwoPieces(data[1..]);
    }
  }

  /** A data URL "header,payload" gives its payload. */
  lemma DataPayloadOfDataUrl(header: string, payload: string)
    requires ',' !in header && ',' !in payload
    ensures DataPayload(header + "," + payload) == payload
  {
    SplitNoSeparator(payload, ',');
    SplitAtSeparator(header, ',', payload);
    assert header + "," + payload == header + [','] + payload;
  }

  /** Only the segment between the first and the second comma is kept. */
  lemma DataPayloadDropsLaterSegments(a: string, b: string, rest: string)
    requires ',' !in a && ',' !in b
    ensures DataPayload(a + "," + b + "," + rest) == b
  {
    var s := a + "," + b + "," + rest;
    SplitAtSeparator(b, ',', rest);
    SplitAtSeparator(a, ',', b + [','] + rest);
    assert s == a + [','] + (b + [','] + rest);
  }
}

=== FILE: openai_client.dfy ===
/**
 * The OpenAI image-regeneration client (app/llm/openai_client.py): how the
 * bytes of each input image are resolved (url, then S3 key, then base64
 * data, falling through when a url yields no key), when the edit endpoint is
 * called, and how the returned items become the result dictionary.
 *
 * S3 downloads, base64 and the API call are I/O; their outcomes are the
 * function values of an `Env`.
 */
module OpenAI {
  import opened Wrappers
  import opened Strings
  import opened LlmCommon
  import opened Seqs
  import S3
  import Gemini

  /** One returned image object: `b64_json` and `url`, either possibly absent. */
  datatype Item = Item(b64: Option<string>, url: Option<string>)

  /** The outcomes of the client's I/O. */
  datatype Env = Env(
    download: string -> Option<Bytes>,                   // `get_s3_file_buffer`; `None` on any failure
    decode64: string -> Option<Bytes>,                   // `b64decode`; `None` when it raises
    decodeFailure: string,                               // the text of that exception
    edit: (string, seq<Bytes>) -> Result<Option<seq<Item>>, string>, // the API call; `None` without `data`
    storage: S3.S3Client,
    uuidAt: nat -> string,                               // the uuid drawn for the k-th upload
    storedAt: nat -> bool)                               // whether the k-th upload went through

  const Description := "Regenerated images based on feedback."

  /** `_get_image_bytes`. */
  function ImageBytes(env: Env, img: ImageInput): (r: Option<Bytes>)
    ensures Given(img.url) && Given(ExtractS3Key(img.url.value)) ==> r == env.download(ExtractS3Key(img.url.value).value)
    ensures !(Given(img.url) && Given(ExtractS3Key(img.url.value))) && Given(img.s3Key) ==> r == env.download(img.s3Key.value)
    ensures !(Given(img.url) && Given(ExtractS3Key(img.url.value))) && !Given(img.s3Key) ==>
      r == (if Given(img.data) then env.decode64(DataPayload(img.data.value)) else None)
  {
    var key := if Given(img.url) then ExtractS3Key(img.url.value) else None;
    if Given(key) then env.download(key.value)
    else if Given(img.s3Key) then env.download(img.s3Key.value)
    else if Given(img.data) then env.decode64(DataPayload(img.data.value))
    else None
  }

  /** The bytes of one input when they are truthy, as the loop appends them. */
  function Resolved(env: Env, img: ImageInput): (r: Option<Bytes>)
    ensures r.Some? <==> HasBytes(ImageBytes(env, img))
    ensures r.Some? ==> r.value == ImageBytes(env, img).value
  {
    var b := ImageBytes(env, img);
    if HasBytes(b) then b else None
  }

  function Resolutions(env: Env, images: seq<ImageInput>): (a: seq<Option<Bytes>>)
    ensures |a| == |images|
    ensures forall i :: 0 <= i < |a| ==> a[i] == Resolved(env, images[i])
  {
    seq(|images|, i requires 0 <= i < |images| => Resolved(env, images[i]))
  }

  /** The image files sent: the inputs whose bytes resolved to something non-empty, in order. */
  function Files(env: Env, images: seq<ImageInput>): (files: seq<Bytes>)
    ensures |files| <= |images|
    ensures forall j :: 0 <= j < |files| ==> files[j] != []
    ensures files == [] <==> forall i :: 0 <= i < |images| ==> !HasBytes(ImageBytes(env, images[i]))
    ensures (forall i :: 0 <= i < |images| ==> HasBytes(ImageBytes(env, images[i]))) ==>
      |files| == |images| && forall j :: 0 <= j < |files| ==> files[j] == ImageBytes(env, images[j]).value
  {
    var a := Resolutions(env, images);
    SomesKeep(a, (b: Bytes) => b != []);
    SomesNone(a);
    if forall i :: 0 <= i < |images| ==> HasBytes(ImageBytes(env, images[i])) then
      SomesAllPresent(a);
      Somes(a)
    else
      Somes(a)
  }

  /** Python truthiness of optional bytes. */
  predicate HasBytes(b: Option<Bytes>)
  {
    b.Some? && b.value != []
  }

  /** One returned item; `k` is its position in `response.data`, which picks the uuid and outcome of its upload. */
  function ShapeItem(env: Env, item: Item, upload: bool, k: nat): (r: Result<Option<GenImage>, string>)
    ensures Given(item.b64) ==>
      (r.Failure? <==> env.decode64(item.b64.value).None?)
    ensures Given(item.b64) && r.Success? ==>
      && r.value.Some?
      && (r.value.value.UrlImage? <==> upload && env.storage.initialized && env.storedAt(k))
      && (r.value.value.UrlImage? ==>
            r.value.value.url == S3.PublicUrl(env.storage, S3.GenerateKey("regenerated", env.uuidAt(k), "openai_regen", "png")))
      && (r.value.value.DataImage? ==> r.value.value.data == item.b64.value)
    ensures !Given(item.b64) ==>
      r == Success(if Given(item.url) then Some(UrlImage(item.url.value, "image/png")) else None)
    ensures r.Success? && r.value.Some? ==> r.value.value.mimeType == "image/png"
  {
    if Given(item.b64) then
      match env.decode64(item.b64.value)
      case None => Failure(env.decodeFailure)
      case Some(_) =>
        if upload then
          match S3.UploadImage(env.storage, "regenerated", "openai_regen", "image/png", env.uuidAt(k), env.storedAt(k))
          case Some(u) => Success(Some(UrlImage(u.url, "image/png")))
          case None => Success(Some(DataImage(item.b64.value, "image/png")))
        else Success(Some(DataImage(item.b64.value, "image/png")))
    else if Given(item.url) then Success(Some(UrlImage(item.url.value, "image/png")))
    else Success(None)
  }

  /** ShapeItem as a function of the item's position and the item, for the loop. */
  function ItemShaper(env: Env, upload: bool): (nat, Item) -> Result<Option<GenImage>, string>
  {
    (k: nat, item: Item) => ShapeItem(env, item, upload, k)
  }

  /** The loop over `response.data`: the first undecodable item aborts the call. */
  function ShapeItems(env: Env, items: seq<Item>, upload: bool, k: nat): (r: Result<seq<GenImage>, string>)
    ensures r.Failure? ==> r.error == env.decodeFailure
    ensures r.Success? ==> |r.value| <= |items|
    ensures r.Success? ==> forall j :: 0 <= j < |r.value| ==> r.value[j].mimeType == "image/png"
  {
    var f := ItemShaper(env, upload);
    CollectFailures(f, items, k, (e: string) => e == env.decodeFailure);
    CollectValues(f, items, k, (g: GenImage) => g.mimeType == "image/png");
    var r := Collect(f, items, k);
    forall j | r.Success? && 0 <= j < |r.value|
      ensures r.value[j].mimeType == "image/png"
    {
      assert r.value[j] in r.value;
    }
    r
  }

  /** `OpenAIClient.regenerate_images`. */
  function Regenerate(env: Env, images: seq<ImageInput>, feedback: string, upload: bool): (r: RegenResult)
    ensures Files(env, images) == [] ==> r == NothingLoaded
    ensures Files(env, images) != [] && env.edit(feedback, Files(env, images)).Failure? ==>
      r == Failed(env.edit(feedback, Files(env, images)).error)
    ensures Files(env, images) != [] && env.edit(feedback, Files(env, images)).Success?
            && env.edit(feedback, Files(env, images)).value.Some?
            && ShapeItems(env, env.edit(feedback, Files(env, images)).value.value, upload, 0).Failure? ==>
      r == Failed(env.decodeFailure)
    ensures r.error.None? <==>
      && Files(env, images) != []
      && env.edit(feedback, Files(env, images)).Success?
      && (env.edit(feedback, Files(env, images)).value.Some? ==>
            ShapeItems(env, env.edit(feedback, Files(env, images)).value.value, upload, 0).Success?)
    ensures r.error.None? ==> r.inputCount == Some(|images|) && r.description == Description
    ensures r.error.None? && env.edit(feedback, Files(env, images)).value.None? ==> r.images == []
    ensures r.error.None? && env.edit(feedback, Files(env, images)).value.Some? ==>
      r.images == ShapeItems(env, env.edit(feedback, Files(env, images)).value.value, upload, 0).value
    ensures r.error.Some? ==> r.images == [] && r.inputCount.None?
  {
    var files := Files(env, images);
    if files == [] then NothingLoaded
    else match env.edit(feedback, files)
      case Failure(e) => Failed(e)
      case Success(None) => RegenResult(None, [], Description, Some(|images|))
      case Success(Some(items)) =>
        match ShapeItems(env, items, upload, 0)
        case Failure(e) => Failed(e)
        case Success(out) => RegenResult(None, out, Description, Some(|images|))
  }

  /** A url with a usable key returns the download as is, even `None`: no fall-through then. */
  lemma UrlKeyIsFinal(env: Env, img: ImageInput, key: Option<string>, data: Option<string>)
    requires Given(img.url) && Given(ExtractS3Key(img.url.value))
    ensures ImageBytes(env, img.(s3Key := key, data := data)) == ImageBytes(env, img)
  {
  }

  /** A url without the marker is as good as no url at all. */
  lemma UrlWithoutMarkerFallsThrough(env: Env, img: ImageInput)
    requires img.url.Some? && !Contains(img.url.value, S3Marker)
    ensures ImageBytes(env, img) == ImageBytes(env, img.(url := None))
  {
  }

  /** Data with a comma is decoded from the segment after the first comma only. */
  lemma DataSegmentDecoded(env: Env, header: string, payload: string, mimeType: string)
    requires ',' !in header && ',' !in payload
    ensures ImageBytes(env, ImageInput(None, None, Some(header + "," + payload), mimeType)) == env.decode64(payload)
  {
    DataPayloadOfDataUrl(header, payload);
  }

  /** With no images to send, the endpoint's reply cannot affect the result. */
  lemma NoCallWithoutFiles(env: Env, images: seq<ImageInput>, feedback: string, upload: bool,
                           edit: (string, seq<Bytes>) -> Result<Option<seq<Item>>, string>)
    requires forall i :: 0 <= i < |images| ==> !HasBytes(ImageBytes(env, images[i]))
    ensures Regenerate(env, images, feedback, upload) == NothingLoaded
    ensures Regenerate(env.(edit := edit), images, feedback, upload) == NothingLoaded
  {
    assert forall i :: 0 <= i < |images| ==> ImageBytes(env.(edit := edit), images[i]) == ImageBytes(env, images[i]);
  }

  /**
   * The two clients disagree on a url without the marker next to an S3 key:
   * Gemini skips the image, OpenAI downloads the key.
   */
  lemma ClientsDisagreeOnFallThrough(genv: Gemini.Env, oenv: Env, url: string, key: string, mimeType: string)
    requires url != "" && !Contains(url, S3Marker) && key != ""
    ensures Gemini.Load(genv, ImageInput(Some(url), Some(key), None, mimeType)) == Gemini.Missing
    ensures ImageBytes(oenv, ImageInput(Some(url), Some(key), None, mimeType)) == oenv.download(key)
  {
  }

  /** The file loop works image by image: the files of a concatenation are the files of each part, in order. */
  lemma FilesAppend(env: Env, a: seq<ImageInput>, b: seq<ImageInput>)
    ensures Files(env, a + b) == Files(env, a) + Files(env, b)
  {
    var ra := Resolutions(env, a);
    var rb := Resolutions(env, b);
    assert Resolutions(env, a + b) == ra + rb;
    SomesAppend(ra, rb);
  }

  /** One image contributes its bytes when they are non-empty, and nothing otherwise. */
  lemma FilesOne(env: Env, img: ImageInput)
    ensures Files(env, [img]) == if HasBytes(ImageBytes(env, img)) then [ImageBytes(env, img).value] else []
  {
    var r := Resolutions(env, [img]);
    assert r[1..] == [];
    assert Somes(r[1..]) == [];
  }

  /**
   * The item loop works item by item, positions carried on: it succeeds on a
   * concatenation iff it succeeds on both parts, with the images of each in order.
   */
  lemma ShapeItemsAppend(env: Env, a: seq<Item>, b: seq<Item>, upload: bool, k: nat)
    ensures ShapeItems(env, a + b, upload, k) ==
      if ShapeItems(env, a, upload, k).Success? && ShapeItems(env, b, upload, k + |a|).Success?
      then Success(ShapeItems(env, a, upload, k).value + ShapeItems(env, b, upload, k + |a|).value)
      else Failure(env.decodeFailure)
  {
    CollectAppend(ItemShaper(env, upload), a, b, k);
  }

  /** One item: its image if it has one, nothing if it has neither field, a failure if it does not decode. */
  lemma ShapeItemsOne(env: Env, item: Item, upload: bool, k: nat)
    ensures ShapeItems(env, [item], upload, k) ==
      match ShapeItem(env, item, upload, k)
      case Failure(e) => Failure(e)
      case Success(g) => Success(if g.Some? then [g.value] else [])
  {
    assert [item][1..] == [];
    assert ShapeItems(env, [], upload, k + 1) == Success([]);
    match ShapeItem(env, item, upload, k)
    case Failure(e) =>
    case Success(g) =>
      if g.Some? {
        assert [g.value] + [] == [g.value];
      }
  }
}

=== FILE: paths.dfy ===
/**
 * The two `pathlib.PurePosixPath` accessors the services use: `.name` (the
 * last component) and `.stem` (the name without its final suffix).
 */
module Paths {
  import opened Wrappers
  import opened Strings

  /** The position of the last `c` in `s`. */
  function LastIndexOf(s: string, c: char): (r: Option<nat>)
    ensures r.Some? ==> r.value < |s| && s[r.value] == c && c !in s[r.value + 1..]
    ensures r.None? <==> c !in s
    decreases |s|
  {
    if |s| == 0 then None
    else if s[|s| - 1] == c then Some(|s| - 1)
    else
      var r := LastIndexOf(s[..|s| - 1], c);
      assert s == s[..|s| - 1] + [s[|s| - 1]];
      r
  }

  /** `Path(path).name`: the text after the last "/", once trailing slashes are dropped. */
  function Name(path: string): (name: string)
    ensures '/' !in name
  {
    var t := path[..SkipWhileBack(path, IsSlash)];
    match LastIndexOf(t, '/')
    case None => t
    case Some(i) => t[i + 1..]
  }

  predicate IsSlash(c: char) { c == '/' }

  /** `Path(name).stem`: the name without the suffix that starts at its last dot, if any. */
  function Stem(name: string): (stem: string)
    ensures stem <= name
    ensures stem != name ==> |stem| > 0 && name[|stem|] == '.' && '.' !in name[|stem| + 1..]
  {
    match LastIndexOf(name, '.')
    case Some(i) => if 0 < i < |name| - 1 then name[..i] else name
    case None => name
  }

  /** A file name without slashes is its own `.name`. */
  lemma NameOfPlainFile(name: string)
    requires '/' !in name
    ensures Name(name) == name
  {
    assert SkipWhileBack(name, IsSlash) == |name| by {
      if |name| > 0 {
        assert name[|name| - 1] in name;
      }
    }
    assert name[..|name|] == name;
  }

  /** The last component of "dir/file" is "file", whatever "dir" is. */
  lemma NameOfPath(dir: string, file: string)
    requires file != "" && '/' !in file
    ensures Name(dir + "/" + file) == file
  {
    var path := dir + "/" + file;
    var n := |path|;
    assert path[n - 1] == file[|file| - 1];
    assert file[|file| - 1] in file;
    assert SkipWhileBack(path, IsSlash) == n;
    assert path[..n] == path;
    assert path[|dir|] == '/';
    var r := LastIndexOf(path, '/');
    assert r.Some?;
    forall m | |dir| < m < n
      ensures path[m] != '/'
    {
      assert path[m] == file[m - |dir| - 1];
      assert file[m - |dir| - 1] in file;
    }
    forall m | r.value < m < n
      ensures path[m] != '/'
    {
      assert path[m] == path[r.value + 1..][m - r.value - 1];
    }
    assert r.value == |dir|;
    assert path[|dir| + 1..] == file;
  }

  /** The stem of "x.pdf" is "x", whatever dots "x" holds. */
  lemma StemDropsPdf(x: string)
    requires x != ""
    ensures Stem(x + ".pdf") == x
  {
    var name := x + ".pdf";
    assert name[..|x| + 3] == x + ".pd";
    assert (x + ".pd")[..|x| + 2] == x + ".p";
    assert (x + ".p")[..|x| + 1] == x + ".";
    assert LastIndexOf(x + ".", '.') == Some(|x|);
    assert LastIndexOf(name, '.') == Some(|x|);
    assert name[..|x|] == x;
  }
}

=== FILE: pdf_extractor.dfy ===
/**
 * Image extraction from PDF documents (app/services/pdf_extractor.py): which
 * embedded images are kept, the order they are processed in, the caption
 * region below each, the names they are uploaded under, and the page loop
 * that skips an image whose extraction fails.
 *
 * pdfplumber (opening, cropping, text extraction, rendering) and the upload
 * outcome are I/O; their results are the function values of an `Env`.
 */
module PdfExtractor {
  import opened Wrappers
  import opened Strings
  import opened Seqs
  import S3
  import Paths

  type Bytes = seq<bv8>

  /** An image's bounding box in page coordinates (`top` grows downwards). */
  datatype Box = Box(x0: real, top: real, x1: real, bottom: real)

  datatype Page = Page(width: real, height: real, images: seq<Box>)

  /** One entry of the `images` list of the result. */
  datatype ImageRecord = ImageRecord(filename: string, page: nat, caption: string, url: string, mimeType: string)

  datatype Extraction = Extraction(pdfFilename: string, totalPages: nat, images: seq<ImageRecord>)

  /** The outcomes of the extractor's I/O, per page index `p` and rank `k` where it matters. */
  datatype Env = Env(
    captionText: (nat, Box) -> Option<string>,  // `extract_text()` of the crop; `None` when it is `None` or raises
    render: (nat, Box) -> Option<Bytes>,        // the rendered PNG of the crop; `None` when rendering raises
    crashes: (nat, nat) -> bool,                // whether anything else in `_extract_and_upload_image` raises
    storage: S3.S3Client,
    uuidAt: (nat, nat) -> string,               // the uuid drawn for the upload of image k on page p
    storedAt: (nat, nat) -> bool)               // whether that upload went through

  const MinWidth: real := 150.0
  const MinHeight: real := 100.0
  const MinArea: real := 15000.0
  const CaptionOffset: real := 30.0

  function Width(b: Box): real { b.x1 - b.x0 }

  function Height(b: Box): real { b.bottom - b.top }

  /** The size filter: images smaller than 150 by 100 (logos, icons) are skipped. */
  predicate Keep(b: Box)
  {
    Width(b) >= MinWidth && Height(b) >= MinHeight && Width(b) * Height(b) >= MinArea
  }

  /** The area threshold adds nothing: it follows from the width and height thresholds. */
  lemma AreaTestImplied(b: Box)
    ensures Keep(b) <==> Width(b) >= MinWidth && Height(b) >= MinHeight
  {
    if Width(b) >= MinWidth && Height(b) >= MinHeight {
      calc {
        Width(b) * Height(b);
      >= { MulMono(Width(b), MinWidth, Height(b)); }
        MinWidth * Height(b);
      >= { MulMono(Height(b), MinHeight, MinWidth); }
        MinWidth * MinHeight;
      }
    }
  }

  lemma MulMono(a: real, b: real, c: real)
    requires a >= b && c >= 0.0
    ensures a * c >= b * c
  {
  }

  /** The key `(top, x0)` compared as Python compares tuples. */
  predicate KeyLe(a: Box, b: Box)
  {
    a.top < b.top || (a.top == b.top && a.x0 <= b.x0)
  }

  predicate Sorted(s: seq<Box>)
  {
    forall i, j :: 0 <= i < j < |s| ==> KeyLe(s[i], s[j])
  }

  /** Insert `b` in front of the first element whose key is not below its own. */
  function Insert(b: Box, s: seq<Box>): (r: seq<Box>)
    requires Sorted(s)
    ensures Sorted(r)
    ensures multiset(r) == multiset(s) + multiset{b}
    decreases |s|
  {
    if |s| == 0 then [b]
    else if KeyLe(b, s[0]) then [b] + s
    else
      var rest := Insert(b, s[1..]);
      assert s == [s[0]] + s[1..];
      forall j | 0 <= j < |rest|
        ensures KeyLe(s[0], rest[j])
      {
        assert rest[j] in multiset(rest);
        assert rest[j] == b || rest[j] in multiset(s[1..]);
        if rest[j] != b {
          var m :| 0 <= m < |s[1..]| && s[1..][m] == rest[j];
          assert s[1 + m] == rest[j];
        }
      }
      [s[0]] + rest
  }

  /** `sorted(images, key=lambda x: (x['top'], x['x0']))`. */
  function SortImages(s: seq<Box>): (r: seq<Box>)
    ensures Sorted(r)
    ensures multiset(r) == multiset(s)
    decreases |s|
  {
    if |s| == 0 then []
    else
      assert s == [s[0]] + s[1..];
      Insert(s[0], SortImages(s[1..]))
  }

  /**
   * The region searched for a caption: below the image, cut to the page.
   * Each clamped side is the bound it is clamped to or the image's own
   * coordinate, whichever is tighter: the max and min of the source.
   */
  function CaptionBox(page: Page, b: Box, offset: real): (c: Box)
    ensures c.x0 >= 0.0 && c.x0 >= b.x0
    ensures c.x1 <= page.width && c.x1 <= b.x1
    ensures c.bottom <= page.height && c.bottom <= b.bottom + offset
    ensures c.top == b.bottom
    ensures c.x0 == 0.0 || c.x0 == b.x0
    ensures c.x1 == page.width || c.x1 == b.x1
    ensures c.bottom == page.height || c.bottom == b.bottom + offset
  {
    Box(if b.x0 > 0.0 then b.x0 else 0.0,
        b.bottom,
        if page.width < b.x1 then page.width else b.x1,
        if page.height < b.bottom + offset then page.height else b.bottom + offset)
  }

  /** A caption box never moves inward of a box that already lies within the page. */
  lemma CaptionBoxWithinPage(page: Page, b: Box, offset: real)
    requires 0.0 <= b.x0 && b.x1 <= page.width && b.bottom + offset <= page.height
    ensures CaptionBox(page, b, offset) == Box(b.x0, b.bottom, b.x1, b.bottom + offset)
  {
  }

  /** `f"page{page_num + 1}_img{img_num + 1}"`. */
  function ImageName(p: nat, k: nat): string
  {
    "page" + NatToString(p + 1) + "_img" + NatToString(k + 1)
  }

  /** `_extract_and_upload_image` for the image of rank `k` on page index `p`; `None` when it is dropped. */
  function ExtractImage(env: Env, page: Page, p: nat, k: nat, b: Box, folder: string, offset: real): (r: Option<ImageRecord>)
    ensures r.Some? <==>
      && !env.crashes(p, k) && Keep(b) && env.render(p, b).Some?
      && env.storage.initialized && env.storedAt(p, k)
    ensures r.Some? ==>
      && r.value.filename == ImageName(p, k) + ".png"
      && r.value.page == p + 1
      && r.value.mimeType == "image/png"
  {
    if env.crashes(p, k) || !Keep(b) then None
    else
      var caption := Strip(env.captionText(p, CaptionBox(page, b, offset)).GetOr(""));
      match env.render(p, b)
      case None => None
      case Some(_) =>
        var name := ImageName(p, k);
        match S3.UploadImage(env.storage, folder, name, "image/png", env.uuidAt(p, k), env.storedAt(p, k))
        case Some(u) => Some(ImageRecord(name + ".png", p + 1, caption, u.url, "image/png"))
        case None => None
  }

  lemma ExtractedOnPage(env: Env, page: Page, p: nat, k: nat, b: Box, folder: string, offset: real)
    ensures ExtractImage(env, page, p, k, b, folder, offset).Some? ==> OnPage(ExtractImage(env, page, p, k, b, folder, offset).value, p)
  {
  }

  /** A kept image carries the stripped caption text and the public URL of its generated key. */
  lemma ExtractedRecord(env: Env, page: Page, p: nat, k: nat, b: Box, folder: string, offset: real)
    requires ExtractImage(env, page, p, k, b, folder, offset).Some?
    ensures var r := ExtractImage(env, page, p, k, b, folder, offset).value;
      && r.caption == Strip(env.captionText(p, CaptionBox(page, b, offset)).GetOr(""))
      && r.url == S3.PublicUrl(env.storage, S3.GenerateKey(folder, env.uuidAt(p, k), ImageName(p, k), "png"))
  {
  }

  /** `_extract_and_upload_image` on page index `p`, as a function of rank and box. */
  function Extractor(env: Env, page: Page, p: nat, folder: string, offset: real): (nat, Box) -> Option<ImageRecord>
  {
    (k: nat, b: Box) => ExtractImage(env, page, p, k, b, folder, offset)
  }

  predicate OnPage(r: ImageRecord, p: nat)
  {
    r.page == p + 1 && r.mimeType == "image/png"
  }

  /** The inner loop over the sorted images of a page, `k` being the rank of the first. */
  function PageLoop(env: Env, page: Page, p: nat, sorted: seq<Box>, k: nat, folder: string, offset: real)
    : (out: seq<ImageRecord>)
    ensures |out| <= |sorted|
    ensures forall j :: 0 <= j < |out| ==> OnPage(out[j], p)
  {
    var a := MapIndexed(Extractor(env, page, p, folder, offset), sorted, k);
    forall i | 0 <= i < |a| && a[i].Some?
      ensures OnPage(a[i].value, p)
    {
      ExtractedOnPage(env, page, p, k + i, sorted[i], folder, offset);
    }
    SomesKeep(a, (r: ImageRecord) => OnPage(r, p));
    Somes(a)
  }

  /** The images a page contributes, processed in (top, x0) order. */
  function ExtractPage(env: Env, page: Page, p: nat, folder: string, offset: real): seq<ImageRecord>
  {
    PageLoop(env, page, p, SortImages(page.images), 0, folder, offset)
  }

  /** ExtractPage as a function of the page index and the page, for the pages loop. */
  function PageExtractor(env: Env, folder: string, offset: real): (nat, Page) -> seq<ImageRecord>
  {
    (q: nat, page: Page) => ExtractPage(env, page, q, folder, offset)
  }

  /** The outer loop: the images of every page, in page order, `p` being the index of the first page. */
  function PagesLoop(env: Env, pages: seq<Page>, p: nat, folder: string, offset: real): (out: seq<ImageRecord>)
    ensures forall j :: 0 <= j < |out| ==> p + 1 <= out[j].page <= p + |pages|
  {
    var f := PageExtractor(env, folder, offset);
    var inRange := (r: ImageRecord) => p + 1 <= r.page <= p + |pages|;
    forall i, x | 0 <= i < |pages| && x in f(p + i, pages[i])
      ensures inRange(x)
    {
      ExtractPageOn(env, pages[i], p + i, folder, offset);
    }
    ConcatIndexedAll(f, pages, p, inRange);
    var out := ConcatIndexed(f, pages, p);
    forall j | 0 <= j < |out|
      ensures inRange(out[j])
    {
      assert out[j] in out;
    }
    out
  }

  /** Every record ExtractPage makes carries the page's 1-based number. */
  lemma ExtractPageOn(env: Env, page: Page, q: nat, folder: string, offset: real)
    ensures forall x :: x in ExtractPage(env, page, q, folder, offset) ==> x.page == q + 1
  {
    var out := ExtractPage(env, page, q, folder, offset);
    forall x | x in out
      ensures x.page == q + 1
    {
      var j :| 0 <= j < |out| && out[j] == x;
      assert OnPage(out[j], q);
    }
  }

  /** The pages loop works page by page, the page index carried on. */
  lemma PagesLoopAppend(env: Env, a: seq<Page>, b: seq<Page>, p: nat, folder: string, offset: real)
    ensures PagesLoop(env, a + b, p, folder, offset)
         == PagesLoop(env, a, p, folder, offset) + PagesLoop(env, b, p + |a|, folder, offset)
  {
    ConcatIndexedAppend(PageExtractor(env, folder, offset), a, b, p);
  }

  /** A single page contributes exactly the images extracted from it. */
  lemma PagesLoopOne(env: Env, page: Page, p: nat, folder: string, offset: real)
    ensures PagesLoop(env, [page], p, folder, offset) == ExtractPage(env, page, p, folder, offset)
  {
    assert [page][1..] == [];
  }

  /**
   * `extract_images_from_bytes`: `pages` is the document as pdfplumber opens it,
   * `None` when opening raises, which the method re-raises.
   */
  function ExtractFromBytes(env: Env, pages: Option<seq<Page>>, pdfFilename: string, folder: string, offset: real)
    : (r: Option<Extraction>)
    ensures r.Some? <==> pages.Some?
    ensures r.Some? ==>
      && r.value.pdfFilename == pdfFilename
      && r.value.totalPages == |pages.value|
      && forall j :: 0 <= j < |r.value.images| ==> 1 <= r.value.images[j].page <= r.value.totalPages
    ensures r.Some? ==> r.value.images == PagesLoop(env, pages.value, 0, folder, offset)
  {
    match pages
    case None => None
    case Some(ps) => Some(Extraction(pdfFilename, |ps|, PagesLoop(env, ps, 0, folder, offset)))
  }

  /** `extract_images_with_urls`: the same loops, the file name taken from the path. */
  function ExtractWithUrls(env: Env, pages: Option<seq<Page>>, path: string, folder: string, offset: real)
    : (r: Option<Extraction>)
    ensures r.Some? <==> pages.Some?
    ensures r.Some? ==> r.value.pdfFilename == Paths.Name(path) && '/' !in r.value.pdfFilename
    ensures r.Some? ==> r == ExtractFromBytes(env, pages, Paths.Name(path), folder, offset)
  {
    ExtractFromBytes(env, pages, Paths.Name(path), folder, offset)
  }

  /** An image that is dropped takes nothing else with it: the loop carries on with the next rank. */
  lemma FailureDropsOnlyItself(env: Env, page: Page, p: nat, s: seq<Box>, n: nat, folder: string, offset: real)
    requires n < |s| && ExtractImage(env, page, p, n, s[n], folder, offset).None?
    ensures PageLoop(env, page, p, s, 0, folder, offset)
         == PageLoop(env, page, p, s[..n], 0, folder, offset) + PageLoop(env, page, p, s[n + 1..], n + 1, folder, offset)
  {
    SkipOne(Extractor(env, page, p, folder, offset), s, n);
  }

  lemma SkipOne(f: (nat, Box) -> Option<ImageRecord>, s: seq<Box>, n: nat)
    requires n < |s| && f(n, s[n]).None?
    ensures Somes(MapIndexed(f, s, 0)) == Somes(MapIndexed(f, s[..n], 0)) + Somes(MapIndexed(f, s[n + 1..], n + 1))
  {
    var before := MapIndexed(f, s[..n], 0);
    var rest := MapIndexed(f, s[n..], n);
    var after := MapIndexed(f, s[n + 1..], n + 1);
    MapIndexedSplit(f, s, 0, n);
    MapIndexedSplit(f, s[n..], n, 1);
    assert s[n..][1..] == s[n + 1..];
    assert s[n..][..1] == [s[n]];
    assert MapIndexed(f, [s[n]], n) == [None];
    SomesAppend(before, rest);
    SomesAppend([None], after);
    assert Somes<ImageRecord>([None]) == [];
  }


  /** When every image goes through, the j-th record is named after rank k + j. */
  lemma RanksName(env: Env, page: Page, p: nat, s: seq<Box>, k: nat, folder: string, offset: real)
    requires forall j :: 0 <= j < |s| ==> ExtractImage(env, page, p, k + j, s[j], folder, offset).Some?
    ensures |PageLoop(env, page, p, s, k, folder, offset)| == |s|
    ensures forall j :: 0 <= j < |s| ==>
      PageLoop(env, page, p, s, k, folder, offset)[j].filename == ImageName(p, k + j) + ".png"
  {
    var name := (r: nat) => ImageName(p, r) + ".png";
    AllNamed(env, page, p, s, k, folder, offset, name);
    NamedInOrder(Extractor(env, page, p, folder, offset), s, k, name);
    PageLoopCollects(env, page, p, s, k, folder, offset);
  }

  lemma AllNamed(env: Env, page: Page, p: nat, s: seq<Box>, k: nat, folder: string, offset: real,
                 name: nat -> string)
    requires forall j :: 0 <= j < |s| ==> ExtractImage(env, page, p, k + j, s[j], folder, offset).Some?
    requires forall r :: name(r) == ImageName(p, r) + ".png"
    ensures forall j :: 0 <= j < |s| ==>
      && Extractor(env, page, p, folder, offset)(k + j, s[j]).Some?
      && Extractor(env, page, p, folder, offset)(k + j, s[j]).value.filename == name(k + j)
  {
    forall j | 0 <= j < |s|
      ensures Extractor(env, page, p, folder, offset)(k + j, s[j]).Some?
      ensures Extractor(env, page, p, folder, offset)(k + j, s[j]).value.filename == name(k + j)
    {
      ExtractorApplies(env, page, p, k + j, s[j], folder, offset);
    }
  }

  lemma ExtractorApplies(env: Env, page: Page, p: nat, k: nat, b: Box, folder: string, offset: real)
    requires ExtractImage(env, page, p, k, b, folder, offset).Some?
    ensures Extractor(env, page, p, folder, offset)(k, b).Some?
    ensures Extractor(env, page, p, folder, offset)(k, b).value.filename == ImageName(p, k) + ".png"
  {
  }

  lemma PageLoopCollects(env: Env, page: Page, p: nat, s: seq<Box>, k: nat, folder: string, offset: real)
    ensures PageLoop(env, page, p, s, k, folder, offset) == Somes(MapIndexed(Extractor(env, page, p, folder, offset), s, k))
  {
  }

  /** When `f` yields a record for every image, the j-th record collected is the j-th one yielded. */
  lemma NamedInOrder(f: (nat, Box) -> Option<ImageRecord>, s: seq<Box>, k: nat, name: nat -> string)
    requires forall j :: 0 <= j < |s| ==> f(k + j, s[j]).Some? && f(k + j, s[j]).value.filename == name(k + j)
    ensures |Somes(MapIndexed(f, s, k))| == |s|
    ensures forall j :: 0 <= j < |s| ==> Somes(MapIndexed(f, s, k))[j].filename == name(k + j)
  {
    var a := MapIndexed(f, s, k);
    SomesAllPresent(a);
  }

  /** The page count is reported even when no image is kept. */
  lemma PagesCountedWithoutImages(env: Env, pages: seq<Page>, name: string, folder: string, offset: real)
    requires forall i :: 0 <= i < |pages| ==> pages[i].images == []
    ensures ExtractFromBytes(env, Some(pages), name, folder, offset) == Some(Extraction(name, |pages|, []))
  {
    NoImagesNoRecords(env, pages, 0, folder, offset);
  }

  lemma {:induction false} NoImagesNoRecords(env: Env, pages: seq<Page>, p: nat, folder: string, offset: real)
    requires forall i :: 0 <= i < |pages| ==> pages[i].images == []
    ensures PagesLoop(env, pages, p, folder, offset) == []
    decreases |pages|
  {
    if |pages| > 0 {
      assert pages[0].images == [];
      NoImagesNoRecords(env, pages[1..], p + 1, folder, offset);
    }
  }

  /** The first image of the first page is named "page1_img1.png". */
  lemma FirstImageName()
    ensures ImageName(0, 0) + ".png" == "page1_img1.png"
  {
  }
}

=== FILE: responses.dfy ===
/** The JSON envelope every endpoint answers with (app/utils/response.py). */
module Responses {

  /** `{"result": data}` with a status code, or `{"error": message}` with a status code. */
  datatype JsonResponse<+T> = Result(body: T, status: int) | Error(message: string, status: int)

  /** `success_response(data)` with its default status. */
  function Ok<T>(data: T): JsonResponse<T>
  {
    Result(data, 200)
  }
}

=== FILE: routes.dfy ===
/**
 * The application-wide exception handlers (app/route/__init__.py): the
 * message a request-validation failure is reported with, and the fixed
 * answers for an unknown path and an unsupported method.
 */
module Routes {
  import opened Strings
  import opened Responses

  /** An element of a validation error's `loc`: a field name or a list position. */
  datatype LocItem = Field(name: string) | Position(index: nat)

  /** One entry of `exc.errors()`: where the error is and what it says. */
  datatype ValidationError = ValidationError(loc: seq<LocItem>, msg: string)

  /** How a `loc` element prints inside an f-string. */
  function LocText(item: LocItem): string
  {
    match item
    case Field(name) => name
    case Position(index) => NatToString(index)
  }

  /** The field an error is reported against: the last `loc` element, or "unknown field". */
  function FieldOf(loc: seq<LocItem>): (field: string)
    ensures loc != [] ==> field == LocText(loc[|loc| - 1])
    ensures loc == [] ==> field == "unknown field"
  {
    if loc == [] then "unknown field" else LocText(loc[|loc| - 1])
  }

  /** `validation_exception_handler`'s message for the list of errors. */
  function ValidationMessage(errors: seq<ValidationError>): (message: string)
    ensures errors != [] ==> NoUpper(message)
    ensures errors == [] ==> message == "Validation error"
    ensures errors != [] ==> |message| == |FieldOf(errors[0].loc)| + 1 + |errors[0].msg|
    ensures errors != [] ==> forall i :: 0 <= i < |message| ==>
      message[i] == LowerChar((FieldOf(errors[0].loc) + " " + errors[0].msg)[i])
  {
    if errors == [] then "Validation error"
    else
      var e := errors[0];
      var text := FieldOf(e.loc) + " " + e.msg;
      LowerHasNoUpper(text);
      LowerPointwise(text);
      Lower(text)
  }

  /** `validation_exception_handler`: always 422. */
  function ValidationFailed(errors: seq<ValidationError>): (r: JsonResponse<()>)
    ensures r.Error? && r.status == 422
    ensures r.message == ValidationMessage(errors)
  {
    Error(ValidationMessage(errors), 422)
  }

  /** `not_found_handler`. */
  function NotFound(): (r: JsonResponse<()>)
    ensures r == Error("The requested resource was not found", 404)
  {
    Error("The requested resource was not found", 404)
  }

  /** `method_not_allowed_handler`: the message names the request method. */
  function MethodNotAllowed(verb: string): (r: JsonResponse<()>)
    ensures r.Error? && r.status == 405 && |r.message| == |verb| + 37
    ensures r.message[..7] == "Method " && r.message[7..7 + |verb|] == verb
    ensures r.message[7 + |verb|..] == " not allowed for this endpoint"
  {
    Error("Method " + verb + " not allowed for this endpoint", 405)
  }

  /** Only the first error is reported: the others do not change the message. */
  lemma OnlyFirstErrorCounts(first: ValidationError, rest: seq<ValidationError>)
    ensures ValidationMessage([first] + rest) == ValidationMessage([first])
  {
    assert ([first] + rest)[0] == first;
  }

  /** A field and a message already in lower case are reported verbatim, joined by a space. */
  lemma LowerCaseErrorVerbatim(loc: seq<LocItem>, msg: string)
    requires NoUpper(FieldOf(loc)) && NoUpper(msg)
    ensures ValidationMessage([ValidationError(loc, msg)]) == FieldOf(loc) + " " + msg
  {
    var text := FieldOf(loc) + " " + msg;
    assert NoUpper(text) by {
      forall i | 0 <= i < |text|
        ensures !('A' <= text[i] <= 'Z')
      {
        if i < |FieldOf(loc)| {
          assert text[i] == FieldOf(loc)[i];
        } else if i > |FieldOf(loc)| {
          assert text[i] == msg[i - |FieldOf(loc)| - 1];
        }
      }
    }
    LowerOfLower(text);
  }

  /** An error without a location is reported against "unknown field". */
  lemma EmptyLocIsUnknownField(msg: string)
    requires NoUpper(msg)
    ensures ValidationMessage([ValidationError([], msg)]) == "unknown field " + msg
  {
    var u := "unknown field";
    assert NoUpper(u) by {
      forall i | 0 <= i < |u|
        ensures !('A' <= u[i] <= 'Z')
      {
      }
    }
    LowerCaseErrorVerbatim([], msg);
  }

  /** The capitals of a field name do not survive: "Email" is reported as "email". */
  lemma CapitalsLowered(msg: string)
    requires NoUpper(msg)
    ensures ValidationMessage([ValidationError([Field("Email")], msg)]) == "email " + msg
  {
    var text := "Email" + " " + msg;
    LowerPointwise(text);
    var r := ValidationMessage([ValidationError([Field("Email")], msg)]);
    assert r == Lower(text);
    forall i | 0 <= i < |r|
      ensures r[i] == ("email " + msg)[i]
    {
      if i >= 6 {
        assert text[i] == msg[i - 6];
      }
    }
  }

  /** Different methods give different 405 messages: the method can be read back. */
  lemma MethodRecoverable(m1: string, m2: string)
    requires MethodNotAllowed(m1) == MethodNotAllowed(m2)
    ensures m1 == m2
  {
    var t := MethodNotAllowed(m1).message;
    assert |t| == 7 + |m1| + 30 == 7 + |m2| + 30;
    assert m1 == t[7..7 + |m1|] == m2;
  }
}

=== FILE: s3_service.dfy ===
/**
 * Object storage (app/services/s3_service.py): client construction, object
 * key generation, public URLs and the two upload entry points. The boto3
 * calls themselves are I/O; whether an upload call raised is a parameter.
 */
module S3 {
  import opened Wrappers
  import opened Strings
  import Config

  /** The service's client handle: absent (`client = None`) or bound to a bucket and region. */
  datatype S3Client = S3Client(initialized: bool, bucket: string, region: string)

  /** What `upload_image` returns on success. */
  datatype Uploaded = Uploaded(key: string, url: string, bucket: string)

  /** `S3Service.__init__`: a client exists only with both credentials and a bucket name. */
  function NewClient(settings: Config.Settings): (c: S3Client)
    ensures c.initialized <==>
      settings.awsAccessKeyId != "" && settings.awsSecretAccessKey != "" && settings.awsBucketName != ""
    ensures c.initialized ==> c.bucket == settings.awsBucketName && c.region == settings.awsRegion
  {
    if settings.awsAccessKeyId == "" || settings.awsSecretAccessKey == "" then S3Client(false, "", "")
    else if settings.awsBucketName == "" then S3Client(false, "", "")
    else S3Client(true, settings.awsBucketName, settings.awsRegion)
  }

  predicate IsSlash(c: char) { c == '/' }

  /** Python's `s[:n]`. */
  function Take(s: string, n: nat): (r: string)
    ensures |r| <= n && r <= s
    ensures |s| >= n ==> |r| == n
  {
    if |s| <= n then s else s[..n]
  }

  /** `_generate_key`: `{folder.strip('/')}/{uuid[:8]}_{filename}.{extension}`. */
  function GenerateKey(folder: string, uuid: string, filename: string, extension: string): (key: string)
    ensures StripBy(folder, IsSlash) + "/" <= key
    ensures EndsWith(key, "_" + filename + "." + extension)
    ensures var start := |StripBy(folder, IsSlash)| + 1;
      start + |Take(uuid, 8)| <= |key| && key[start..start + |Take(uuid, 8)|] == Take(uuid, 8)
    ensures |key| == |StripBy(folder, IsSlash)| + |Take(uuid, 8)| + |filename| + |extension| + 3
  {
    var dir := StripBy(folder, IsSlash);
    var key := dir + "/" + Take(uuid, 8) + "_" + filename + "." + extension;
    assert key == (dir + "/") + Take(uuid, 8) + ("_" + filename + "." + extension);
    key
  }

  /** The prefix of every public URL of the bucket. */
  function UrlPrefix(c: S3Client): string
  {
    "https://" + c.bucket + ".s3." + c.region
  }

  /** `get_public_url`. */
  function PublicUrl(c: S3Client, key: string): (url: string)
    ensures UrlPrefix(c) + ".amazonaws.com/" <= url
    ensures url[|UrlPrefix(c)| + 15..] == key
  {
    UrlPrefix(c) + ".amazonaws.com/" + key
  }

  /** The MIME type to extension map of `upload_image`, with "png" for anything unknown. */
  function ExtensionFor(mimeType: string): (ext: string)
    ensures ext == "jpg" <==> mimeType == "image/jpeg"
    ensures ext == "gif" <==> mimeType == "image/gif"
    ensures ext == "webp" <==> mimeType == "image/webp"
    ensures ext == "png" <==> mimeType !in {"image/jpeg", "image/gif", "image/webp"}
  {
    if mimeType == "image/png" then "png"
    else if mimeType == "image/jpeg" then "jpg"
    else if mimeType == "image/gif" then "gif"
    else if mimeType == "image/webp" then "webp"
    else "png"
  }

  /**
   * `upload_file_to_s3`: the key back when the upload went through, `None`
   * without a client or when the boto3 call raised (`succeeded` false).
   */
  function UploadFile(c: S3Client, key: string, succeeded: bool): (r: Option<string>)
    ensures r.Some? <==> c.initialized && succeeded
    ensures r.Some? ==> r.value == key
  {
    if !c.initialized then None
    else if succeeded then Some(key)
    else None
  }

  /** `upload_image`: upload under a generated key and describe the stored object. */
  function UploadImage(c: S3Client, folder: string, filename: string, mimeType: string, uuid: string, succeeded: bool)
    : (r: Option<Uploaded>)
    ensures r.Some? <==> c.initialized && succeeded
    ensures r.Some? ==>
      && r.value.key == GenerateKey(folder, uuid, filename, ExtensionFor(mimeType))
      && r.value.url == PublicUrl(c, r.value.key)
      && r.value.bucket == c.bucket
  {
    var key := GenerateKey(folder, uuid, filename, ExtensionFor(mimeType));
    match UploadFile(c, key, succeeded)
    case None => None
    // `if result_key:` never fails on a stored key: a generated key holds at least the "/" after the folder.
    case Some(stored) => Some(Uploaded(stored, PublicUrl(c, stored), c.bucket))
  }
}

=== FILE: seqs.dfy ===
/**
 * Sequence helpers shared by the loops of the model: a loop body applied to
 * each element together with its position, and the collection of the results
 * that are present.
 */
module Seqs {
  import opened Wrappers

  /** `f` applied to each element of `s` with its position, counting from `k`. */
  function MapIndexed<A, B>(f: (nat, A) -> B, s: seq<A>, k: nat): (r: seq<B>)
    ensures |r| == |s|
    ensures forall j :: 0 <= j < |r| ==> r[j] == f(k + j, s[j])
  {
    seq(|s|, j requires 0 <= j < |s| => f(k + j, s[j]))
  }

  /** Splitting the input at any position splits the results there, positions carried on. */
  lemma MapIndexedSplit<A, B>(f: (nat, A) -> B, s: seq<A>, k: nat, n: nat)
    requires n <= |s|
    ensures MapIndexed(f, s, k) == MapIndexed(f, s[..n], k) + MapIndexed(f, s[n..], k + n)
  {
    var a := MapIndexed(f, s, k);
    var x := MapIndexed(f, s[..n], k);
    var y := MapIndexed(f, s[n..], k + n);
    forall i | 0 <= i < |a|
      ensures a[i] == (x + y)[i]
    {
      if i < n {
        assert s[..n][i] == s[i];
      } else {
        assert s[n..][i - n] == s[i];
        assert k + n + (i - n) == k + i;
      }
    }
  }

  /** The concatenation of f's results over s, positions counted from k. */
  function ConcatIndexed<A, B>(f: (nat, A) -> seq<B>, s: seq<A>, k: nat): (r: seq<B>)
    ensures s == [] ==> r == []
    decreases |s|
  {
    if |s| == 0 then [] else f(k, s[0]) + ConcatIndexed(f, s[1..], k + 1)
  }

  /** Concatenating over a + b concatenates the two halves, positions carried on. */
  lemma {:induction false} ConcatIndexedAppend<A, B>(f: (nat, A) -> seq<B>, a: seq<A>, b: seq<A>, k: nat)
    ensures ConcatIndexed(f, a + b, k) == ConcatIndexed(f, a, k) + ConcatIndexed(f, b, k + |a|)
    decreases |a|
  {
    if |a| == 0 {
      assert a + b == b;
    } else {
      assert (a + b)[0] == a[0];
      assert (a + b)[1..] == a[1..] + b;
      ConcatIndexedAppend(f, a[1..], b, k + 1);
    }
  }

  /** A property every piece's elements have, the concatenation's elements have. */
  lemma {:induction false} ConcatIndexedAll<A, B>(f: (nat, A) -> seq<B>, s: seq<A>, k: nat, P: B -> bool)
    requires forall i, x :: 0 <= i < |s| && x in f(k + i, s[i]) ==> P(x)
    ensures forall x :: x in ConcatIndexed(f, s, k) ==> P(x)
    decreases |s|
  {
    if |s| > 0 {
      forall i, x | 0 <= i < |s[1..]| && x in f(k + 1 + i, s[1..][i])
        ensures P(x)
      {
        assert s[1..][i] == s[i + 1];
        assert k + 1 + i == k + (i + 1);
      }
      ConcatIndexedAll(f, s[1..], k + 1, P);
      assert k + 0 == k;
    }
  }

  /**
   * The values f produces over s, positions counted from k, the absent ones
   * skipped: a loop that appends what each step yields and stops at the
   * first step that fails, with that step's error.
   */
  function Collect<A, B, E>(f: (nat, A) -> Result<Option<B>, E>, s: seq<A>, k: nat): (r: Result<seq<B>, E>)
    ensures r.Success? ==> |r.value| <= |s|
    decreases |s|
  {
    if |s| == 0 then Success([])
    else
      match f(k, s[0])
      case Failure(e) => Failure(e)
      case Success(g) =>
        var rest := Collect(f, s[1..], k + 1);
        if rest.Failure? then rest
        else Success((if g.Some? then [g.value] else []) + rest.value)
  }

  /** Collecting over a + b: the first half's failure, else the second's, else both values in order. */
  lemma {:induction false} CollectAppend<A, B, E>(f: (nat, A) -> Result<Option<B>, E>, a: seq<A>, b: seq<A>, k: nat)
    ensures Collect(f, a + b, k) ==
      if Collect(f, a, k).Failure? then Collect(f, a, k)
      else if Collect(f, b, k + |a|).Failure? then Collect(f, b, k + |a|)
      else Success(Collect(f, a, k).value + Collect(f, b, k + |a|).value)
    decreases |a|
  {
    if |a| == 0 {
      assert a + b == b;
      if Collect(f, b, k).Success? {
        assert [] + Collect(f, b, k).value == Collect(f, b, k).value;
      }
    } else {
      assert (a + b)[0] == a[0];
      assert (a + b)[1..] == a[1..] + b;
      CollectAppend(f, a[1..], b, k + 1);
      var ra1 := Collect(f, a[1..], k + 1);
      var rb := Collect(f, b, k + |a|);
      match f(k, a[0])
      case Failure(_) =>
      case Success(g) =>
        var h := if g.Some? then [g.value] else [];
        if ra1.Success? && rb.Success? {
          assert h + (ra1.value + rb.value) == (h + ra1.value) + rb.value;
        }
    }
  }

  /** Every error Collect reports is one of the steps' errors. */
  lemma {:induction false} CollectFailures<A, B, E>(f: (nat, A) -> Result<Option<B>, E>, s: seq<A>, k: nat, P: E -> bool)
    requires forall i :: 0 <= i < |s| && f(k + i, s[i]).Failure? ==> P(f(k + i, s[i]).error)
    ensures Collect(f, s, k).Failure? ==> P(Collect(f, s, k).error)
    decreases |s|
  {
    if |s| > 0 {
      assert k + 0 == k;
      forall i | 0 <= i < |s[1..]| && f(k + 1 + i, s[1..][i]).Failure?
        ensures P(f(k + 1 + i, s[1..][i]).error)
      {
        assert s[1..][i] == s[i + 1];
        assert k + 1 + i == k + (i + 1);
      }
      CollectFailures(f, s[1..], k + 1, P);
    }
  }

  /** Every value Collect keeps is a value some step produced. */
  lemma {:induction false} CollectValues<A, B, E>(f: (nat, A) -> Result<Option<B>, E>, s: seq<A>, k: nat, P: B -> bool)
    requires forall i :: 0 <= i < |s| && f(k + i, s[i]).Success? && f(k + i, s[i]).value.Some? ==>
      P(f(k + i, s[i]).value.value)
    ensures Collect(f, s, k).Success? ==> forall x :: x in Collect(f, s, k).value ==> P(x)
    decreases |s|
  {
    if |s| > 0 {
      assert k + 0 == k;
      forall i | 0 <= i < |s[1..]| && f(k + 1 + i, s[1..][i]).Success? && f(k + 1 + i, s[1..][i]).value.Some?
        ensures P(f(k + 1 + i, s[1..][i]).value.value)
      {
        assert s[1..][i] == s[i + 1];
        assert k + 1 + i == k + (i + 1);
      }
      CollectValues(f, s[1..], k + 1, P);
    }
  }

  /** The present values, in order: a loop that appends only the results that are there. */
  function Somes<T>(a: seq<Option<T>>): (out: seq<T>)
    ensures |out| <= |a|
  {
    if |a| == 0 then []
    else (if a[0].Some? then [a[0].value] else []) + Somes(a[1..])
  }

  /** A property every present value has, every collected value has. */
  lemma {:induction false} SomesKeep<T>(a: seq<Option<T>>, P: T -> bool)
    requires forall i :: 0 <= i < |a| && a[i].Some? ==> P(a[i].value)
    ensures forall j :: 0 <= j < |Somes(a)| ==> P(Somes(a)[j])
    decreases |a|
  {
    if |a| > 0 {
      SomesKeep(a[1..], P);
    }
  }

  lemma {:induction false} SomesAppend<T>(a: seq<Option<T>>, b: seq<Option<T>>)
    ensures Somes(a + b) == Somes(a) + Somes(b)
    decreases |a|
  {
    if |a| > 0 {
      assert (a + b)[1..] == a[1..] + b;
      SomesAppend(a[1..], b);
    } else {
      assert a + b == b;
    }
  }

  lemma {:induction false} SomesAllPresent<T>(a: seq<Option<T>>)
    requires forall j :: 0 <= j < |a| ==> a[j].Some?
    ensures |Somes(a)| == |a|
    ensures forall j :: 0 <= j < |a| ==> Somes(a)[j] == a[j].value
    decreases |a|
  {
    if |a| > 0 {
      SomesAllPresent(a[1..]);
    }
  }

  /** Nothing is collected exactly when nothing is present. */
  lemma {:induction false} SomesNone<T>(a: seq<Option<T>>)
    ensures Somes(a) == [] <==> forall i :: 0 <= i < |a| ==> a[i].None?
    decreases |a|
  {
    if |a| > 0 {
      SomesNone(a[1..]);
      assert forall i :: 1 <= i < |a| ==> a[i] == a[1..][i - 1];
    }
  }
}

=== FILE: strings.dfy ===
/**
 * The handful of Python `str` operations the backend relies on, given a
 * definition each: `startswith`/`endswith`, `in`, `split(sep)` and `split()`,
 * `strip`, `lower` and decimal formatting of integers.
 */
module Strings {
  import opened Wrappers

  /** Python's `str.isspace` for a single code point. */
  predicate IsSpace(c: char)
  {
    var n := c as int;
    || n == 0x20 || 0x09 <= n <= 0x0D || 0x1C <= n <= 0x1F || n == 0x85 || n == 0xA0
    || n == 0x1680 || 0x2000 <= n <= 0x200A || n == 0x2028 || n == 0x2029
    || n == 0x202F || n == 0x205F || n == 0x3000
  }

  predicate NotSpace(c: char)
  {
    !IsSpace(c)
  }

  /** Lower-casing of one character; only the ASCII letters are mapped. */
  function LowerChar(c: char): char
  {
    if 'A' <= c <= 'Z' then (c as int + 32) as char else c
  }

  /** `s.lower()`, restricted to ASCII letters. */
  function Lower(s: string): (r: string)
    ensures |r| == |s|
  {
    if |s| == 0 then "" else [LowerChar(s[0])] + Lower(s[1..])
  }

  /** Lower-casing works character by character. */
  lemma {:induction false} LowerPointwise(s: string)
    ensures forall i :: 0 <= i < |s| ==> Lower(s)[i] == LowerChar(s[i])
  {
    if |s| > 0 {
      LowerPointwise(s[1..]);
    }
  }

  /** No ASCII capital in `s`. */
  predicate NoUpper(s: string)
  {
    forall i :: 0 <= i < |s| ==> !('A' <= s[i] <= 'Z')
  }

  /** What `lower` returns has no capitals left. */
  lemma LowerHasNoUpper(s: string)
    ensures NoUpper(Lower(s))
  {
    LowerPointwise(s);
  }

  /** Text without capitals is its own lower-casing. */
  lemma {:induction false} LowerOfLower(s: string)
    requires NoUpper(s)
    ensures Lower(s) == s
  {
    if |s| > 0 {
      LowerOfLower(s[1..]);
      assert [s[0]] + s[1..] == s;
    }
  }

  /** `s.endswith(suffix)`; `startswith` is Dafny's prefix relation `p <= s`. */
  predicate EndsWith(s: string, suffix: string)
  {
    |suffix| <= |s| && s[|s| - |suffix|..] == suffix
  }

  ghost predicate OccursAt(s: string, pat: string, i: int)
  {
    0 <= i && i + |pat| <= |s| && s[i..i + |pat|] == pat
  }

  /** The first occurrence of `pat` in `s` at or after position `k`. */
  function IndexFrom(s: string, pat: string, k: nat): (r: Option<nat>)
    requires k <= |s|
    ensures r.Some? ==> k <= r.value && OccursAt(s, pat, r.value)
    ensures forall j :: k <= j && (r.None? || j < r.value) ==> !OccursAt(s, pat, j)
    decreases |s| - k
  {
    if k + |pat| > |s| then None
    else if s[k..k + |pat|] == pat then Some(k)
    else IndexFrom(s, pat, k + 1)
  }

  /** `s.find(pat)`, with `None` for -1. */
  function IndexOf(s: string, pat: string): (r: Option<nat>)
    ensures r.Some? ==> OccursAt(s, pat, r.value)
    ensures forall j :: 0 <= j && (r.None? || j < r.value) ==> !OccursAt(s, pat, j)
  {
    IndexFrom(s, pat, 0)
  }

  /** `pat in s`. */
  predicate Contains(s: string, pat: string)
  {
    IndexOf(s, pat).Some?
  }

  /** `s.split(pat)[0]`: the text before the first occurrence of `pat`. */
  function FirstPiece(s: string, pat: string): (r: string)
    ensures r <= s
    ensures forall j :: 0 <= j < |r| ==> !OccursAt(s, pat, j)
    ensures Contains(s, pat) ==> OccursAt(s, pat, |r|)
    ensures !Contains(s, pat) ==> r == s
  {
    match IndexOf(s, pat)
    case None => s
    case Some(i) => s[..i]
  }

  /** `s.split(pat)[1]`: the text between the first and the second occurrence of `pat`. */
  function SecondPiece(s: string, pat: string): (r: string)
    requires Contains(s, pat)
  {
    var i := IndexOf(s, pat).value;
    FirstPiece(s[i + |pat|..], pat)
  }

  /** `s.split(sep)` for a one-character separator. */
  function Split(s: string, sep: char): (parts: seq<string>)
    ensures |parts| >= 1
    decreases |s|
  {
    if |s| == 0 then [""]
    else
      var rest := Split(s[1..], sep);
      if s[0] == sep then [""] + rest else [[s[0]] + rest[0]] + rest[1..]
  }

  /** `s.split(sep)[0]` is the text before the first separator, or all of `s` without one. */
  lemma {:induction false} SplitHead(s: string, sep: char)
    ensures Split(s, sep)[0] <= s && sep !in Split(s, sep)[0]
    ensures |Split(s, sep)[0]| < |s| ==> s[|Split(s, sep)[0]|] == sep
    decreases |s|
  {
    if |s| > 0 && s[0] != sep {
      SplitHead(s[1..], sep);
      assert s == [s[0]] + s[1..];
    }
  }

  /** `sep.join(parts)`. */
  function Join(parts: seq<string>, sep: char): string
  {
    if |parts| == 0 then ""
    else if |parts| == 1 then parts[0]
    else parts[0] + [sep] + Join(parts[1..], sep)
  }

  lemma {:induction false} SplitNoSeparator(a: string, sep: char)
    requires sep !in a
    ensures Split(a, sep) == [a]
    decreases |a|
  {
    if |a| > 0 {
      SplitNoSeparator(a[1..], sep);
      assert [a[0]] + a[1..] == a;
    }
  }

  lemma {:induction false} SplitAtSeparator(a: string, sep: char, b: string)
    requires sep !in a
    ensures Split(a + [sep] + b, sep) == [a] + Split(b, sep)
    decreases |a|
  {
    var s := a + [sep] + b;
    if |a| == 0 {
      assert s[1..] == b;
    } else {
      assert s[1..] == a[1..] + [sep] + b;
      SplitAtSeparator(a[1..], sep, b);
      assert [a[0]] + a[1..] == a;
    }
  }

  /** Splitting a join of separator-free pieces gives the pieces back. */
  lemma {:induction false} SplitJoin(parts: seq<string>, sep: char)
    requires |parts| >= 1
    requires forall i :: 0 <= i < |parts| ==> sep !in parts[i]
    ensures Split(Join(parts, sep), sep) == parts
    decreases |parts|
  {
    if |parts| == 1 {
      SplitNoSeparator(parts[0], sep);
    } else {
      SplitJoin(parts[1..], sep);
      SplitAtSeparator(parts[0], sep, Join(parts[1..], sep));
      assert [parts[0]] + parts[1..] == parts;
    }
  }

  /** Joining the pieces of a split gives the original text back. */
  lemma {:induction false} JoinSplit(s: string, sep: char)
    ensures Join(Split(s, sep), sep) == s
    ensures forall i :: 0 <= i < |Split(s, sep)| ==> sep !in Split(s, sep)[i]
    decreases |s|
  {
    if |s| > 0 {
      JoinSplit(s[1..], sep);
      var rest := Split(s[1..], sep);
      if s[0] == sep {
        assert Split(s, sep) == [""] + rest;
        assert ([""] + rest)[1..] == rest;
      } else {
        var parts := [[s[0]] + rest[0]] + rest[1..];
        assert Split(s, sep) == parts;
        assert parts[1..] == rest[1..];
        if |rest| == 1 {
          assert Join(parts, sep) == [s[0]] + rest[0];
        } else {
          assert Join(rest, sep) == rest[0] + [sep] + Join(rest[1..], sep);
        }
        assert s == [s[0]] + s[1..];
      }
    }
  }

  /** The length of the longest prefix of `s` whose characters all satisfy `drop`. */
  function SkipWhile(s: string, drop: char -> bool): (k: nat)
    ensures k <= |s|
    ensures forall m :: 0 <= m < k ==> drop(s[m])
    ensures k < |s| ==> !drop(s[k])
    decreases |s|
  {
    if |s| > 0 && drop(s[0]) then 1 + SkipWhile(s[1..], drop) else 0
  }

  /** The start of the longest suffix of `s` whose characters all satisfy `drop`. */
  function SkipWhileBack(s: string, drop: char -> bool): (k: nat)
    ensures k <= |s|
    ensures forall m :: k <= m < |s| ==> drop(s[m])
    ensures k > 0 ==> !drop(s[k - 1])
    decreases |s|
  {
    if |s| > 0 && drop(s[|s| - 1]) then SkipWhileBack(s[..|s| - 1], drop) else |s|
  }

  /** `s.strip(chars)`, the set of characters given as the predicate `drop`. */
  function StripBy(s: string, drop: char -> bool): (r: string)
    ensures SkipWhile(s, drop) + |r| <= |s|
    ensures r == s[SkipWhile(s, drop)..SkipWhile(s, drop) + |r|]
    ensures forall m :: SkipWhile(s, drop) + |r| <= m < |s| ==> drop(s[m])
    ensures |r| > 0 ==> !drop(r[0]) && !drop(r[|r| - 1])
  {
    var a := SkipWhile(s, drop);
    var t := s[a..];
    t[..SkipWhileBack(t, drop)]
  }

  /** Stripping leaves a string alone when none of its characters is to be dropped. */
  lemma StripByNothing(s: string, drop: char -> bool)
    requires forall m :: 0 <= m < |s| ==> !drop(s[m])
    ensures StripBy(s, drop) == s
  {
  }

  /** A character that is neither the separator nor in any piece is not in the join. */
  lemma {:induction false} JoinAvoids(parts: seq<string>, sep: char, c: char)
    requires c != sep
    requires forall i :: 0 <= i < |parts| ==> c !in parts[i]
    ensures c !in Join(parts, sep)
    decreases |parts|
  {
    if |parts| > 1 {
      JoinAvoids(parts[1..], sep, c);
    }
  }

  /** `s.strip()`. */
  function Strip(s: string): string
  {
    StripBy(s, IsSpace)
  }

  predicate Unpadded(s: string)
  {
    |s| > 0 ==> !IsSpace(s[0]) && !IsSpace(s[|s| - 1])
  }

  /** `s.split()`: the maximal runs of non-whitespace characters, in order. */
  function SplitWs(s: string): (words: seq<string>)
    ensures forall i :: 0 <= i < |words| ==> words[i] != ""
    ensures forall i, m :: 0 <= i < |words| && 0 <= m < |words[i]| ==> !IsSpace(words[i][m])
    decreases |s|
  {
    var a := SkipWhile(s, IsSpace);
    if a == |s| then []
    else
      var t := s[a..];
      var w := SkipWhile(t, NotSpace);
      [t[..w]] + SplitWs(t[w..])
  }

  lemma {:induction false} SkipWhileConcat(x: string, y: string, drop: char -> bool)
    requires forall m :: 0 <= m < |x| ==> drop(x[m])
    requires |y| > 0 ==> !drop(y[0])
    ensures SkipWhile(x + y, drop) == |x|
    decreases |x|
  {
    if |x| > 0 {
      assert (x + y)[1..] == x[1..] + y;
      SkipWhileConcat(x[1..], y, drop);
    } else {
      assert x + y == y;
    }
  }

  lemma {:induction false} SkipWhileBackConcat(x: string, y: string, drop: char -> bool)
    requires forall m :: 0 <= m < |y| ==> drop(y[m])
    requires |x| > 0 ==> !drop(x[|x| - 1])
    ensures SkipWhileBack(x + y, drop) == |x|
    decreases |y|
  {
    if |y| > 0 {
      assert (x + y)[..|x + y| - 1] == x + y[..|y| - 1];
      SkipWhileBackConcat(x, y[..|y| - 1], drop);
    } else {
      assert x + y == x;
    }
  }

  /** Stripping one droppable character from each end of a text that starts and ends undroppable. */
  lemma StripEnds(c: char, m: string, d: char, drop: char -> bool)
    requires drop(c) && drop(d)
    requires m != "" && !drop(m[0]) && !drop(m[|m| - 1])
    ensures StripBy([c] + m + [d], drop) == m
  {
    var s := [c] + m + [d];
    SkipWhileConcat([c], m + [d], drop);
    assert [c] + (m + [d]) == s;
    assert s[1..] == m + [d];
    SkipWhileBackConcat(m, [d], drop);
    assert (m + [d])[..|m|] == m;
  }

  /** Stripping removes any run of droppable characters from both ends of a text whose ends are kept. */
  lemma StripPadded(x: string, m: string, y: string, drop: char -> bool)
    requires forall k :: 0 <= k < |x| ==> drop(x[k])
    requires forall k :: 0 <= k < |y| ==> drop(y[k])
    requires m != "" && !drop(m[0]) && !drop(m[|m| - 1])
    ensures StripBy(x + m + y, drop) == m
  {
    var s := x + m + y;
    SkipWhileConcat(x, m + y, drop);
    assert x + (m + y) == s;
    assert s[|x|..] == m + y;
    SkipWhileBackConcat(m, y, drop);
    assert (m + y)[..|m|] == m;
  }

  /** `"a b".split()` is `["a", "b"]` for whitespace-free non-empty words. */
  lemma SplitWsTwoWords(a: string, b: string)
    requires a != "" && b != ""
    requires forall m :: 0 <= m < |a| ==> !IsSpace(a[m])
    requires forall m :: 0 <= m < |b| ==> !IsSpace(b[m])
    ensures SplitWs(a + " " + b) == [a, b]
  {
    assert a + " " + b == a + (" " + b);
    SplitWsWordFirst(a, " " + b);
    SplitWsSpacesFirst(" ", b);
    assert b + [] == b;
    SplitWsWordFirst(b, []);
    SkipWhileConcat([], [], IsSpace);
  }

  /** A word followed by nothing or by whitespace is the first word of the split. */
  lemma SplitWsWordFirst(w: string, rest: string)
    requires w != ""
    requires forall m :: 0 <= m < |w| ==> !IsSpace(w[m])
    requires |rest| > 0 ==> IsSpace(rest[0])
    ensures SplitWs(w + rest) == [w] + SplitWs(rest)
  {
    var s := w + rest;
    SkipWhileConcat([], s, IsSpace);
    assert [] + s == s;
    assert s[0..] == s;
    SkipWhileConcat(w, rest, NotSpace);
    assert s[..|w|] == w;
    assert s[|w|..] == rest;
  }

  /** Leading whitespace does not change the split. */
  lemma SplitWsSpacesFirst(sp: string, rest: string)
    requires forall m :: 0 <= m < |sp| ==> IsSpace(sp[m])
    requires |rest| > 0 ==> !IsSpace(rest[0])
    ensures SplitWs(sp + rest) == SplitWs(rest)
  {
    var s := sp + rest;
    SkipWhileConcat(sp, rest, IsSpace);
    SkipWhileConcat([], rest, IsSpace);
    assert [] + rest == rest;
    assert s[|sp|..] == rest;
    assert rest[0..] == rest;
  }


  function DigitChar(d: nat): char
    requires d < 10
  {
    "0123456789"[d]
  }

  /** `str(n)` for a non-negative integer. */
  function NatToString(n: nat): string
    decreases n
  {
    if n < 10 then [DigitChar(n)] else NatToString(n / 10) + [DigitChar(n % 10)]
  }
}

=== FILE: token.dfy ===
/**
 * Access tokens (app/services/token.py): the claims `create_token` signs,
 * and the checks `verify_token` applies to an Authorization header before
 * handing the token to the JWT library, with the error each failure maps to.
 *
 * Signing and decoding are the JWT library's; they are the function values
 * of a `Codec`. Instants are whole seconds.
 */
module Token {
  import opened Wrappers
  import opened Strings

  /** A claim value: text, or an instant (the `exp` claim). */
  datatype ClaimValue = Text(text: string) | Instant(seconds: int)

  type Claims = map<string, ClaimValue>

  /** What `jwt.decode` does with a token: a payload, a `JWTError`, or any other exception. */
  datatype Decoded = Payload(claims: Claims) | JwtError | OtherFailure

  datatype Codec = Codec(encode: Claims -> string, decode: string -> Decoded)

  /** `HTTPException(status_code, detail)`. */
  datatype HttpError = HttpError(status: int, detail: string)

  /**
   * The claims `create_token` encodes: a copy of `data` with `exp` set.
   * `delta` is `expires_delta` in seconds; `None` and zero are both falsy.
   */
  function CreateClaims(data: Claims, now: int, delta: Option<int>, expireMinutes: int): (claims: Claims)
    ensures claims.Keys == data.Keys + {"exp"}
    ensures forall k :: k in data && k != "exp" ==> claims[k] == data[k]
    ensures delta.Some? && delta.value != 0 ==> claims["exp"] == Instant(now + delta.value)
    ensures delta.None? || delta.value == 0 ==> claims["exp"] == Instant(now + expireMinutes * 60)
  {
    var expire := if delta.Some? && delta.value != 0 then now + delta.value else now + expireMinutes * 60;
    data["exp" := Instant(expire)]
  }

  /** `create_token`: the encoding of those claims. */
  function CreateToken(codec: Codec, data: Claims, now: int, delta: Option<int>, expireMinutes: int): string
  {
    codec.encode(CreateClaims(data, now, delta, expireMinutes))
  }

  /** `decrypt_token`: a `JWTError` becomes 403; any other exception escapes it. */
  function DecryptToken(codec: Codec, token: string): (r: Result<Claims, Option<HttpError>>)
    ensures r.Success? <==> codec.decode(token).Payload?
    ensures codec.decode(token).JwtError? ==> r == Failure(Some(HttpError(403, "Invalid token or expired token")))
    ensures codec.decode(token).OtherFailure? ==> r == Failure(None)
  {
    match codec.decode(token)
    case Payload(c) => Success(c)
    case JwtError => Failure(Some(HttpError(403, "Invalid token or expired token")))
    case OtherFailure => Failure(None)
  }

  /** `verify_token`: the payload of a well-formed bearer header, or the HTTP error raised. */
  function VerifyToken(codec: Codec, header: Option<string>): (r: Result<Claims, HttpError>)
    ensures !Given(header) ==> r == Failure(HttpError(401, "Not authenticated"))
    ensures Given(header) && |SplitWs(header.value)| != 2 ==>
      r == Failure(HttpError(401, "Invalid authorization header format"))
    ensures Given(header) && |SplitWs(header.value)| == 2 && Lower(SplitWs(header.value)[0]) != "bearer" ==>
      r == Failure(HttpError(401, "Invalid authentication scheme"))
    ensures r.Success? <==>
      && Given(header) && |SplitWs(header.value)| == 2 && Lower(SplitWs(header.value)[0]) == "bearer"
      && codec.decode(SplitWs(header.value)[1]).Payload?
    ensures r.Success? ==> r.value == codec.decode(SplitWs(header.value)[1]).claims
    ensures r.Failure? ==> r.error.status in {401, 403}
  {
    if !Given(header) then Failure(HttpError(401, "Not authenticated"))
    else
      var parts := SplitWs(header.value);
      if |parts| != 2 then Failure(HttpError(401, "Invalid authorization header format"))
      else if Lower(parts[0]) != "bearer" then Failure(HttpError(401, "Invalid authentication scheme"))
      else match DecryptToken(codec, parts[1])
        case Success(c) => Success(c)
        case Failure(Some(e)) => Failure(e)
        case Failure(None) => Failure(HttpError(401, "Invalid token"))
  }

  /** The claims carry `exp` and otherwise exactly the caller's entries: the caller's map is not changed. */
  lemma CreateClaimsKeepsData(data: Claims, now: int, delta: Option<int>, expireMinutes: int)
    requires "exp" !in data
    ensures CreateClaims(data, now, delta, expireMinutes) - {"exp"} == data
  {
    var c := CreateClaims(data, now, delta, expireMinutes);
    assert (c - {"exp"}).Keys == data.Keys;
  }

  /** A zero delta is as good as none. */
  lemma ZeroDeltaIsDefault(data: Claims, now: int, expireMinutes: int)
    ensures CreateClaims(data, now, Some(0), expireMinutes) == CreateClaims(data, now, None, expireMinutes)
  {
  }

  /** A well-formed bearer header yields what decoding the token yields. */
  lemma BearerHeader(codec: Codec, scheme: string, token: string)
    requires Lower(scheme) == "bearer"
    requires scheme != "" && token != ""
    requires forall m :: 0 <= m < |scheme| ==> !IsSpace(scheme[m])
    requires forall m :: 0 <= m < |token| ==> !IsSpace(token[m])
    ensures codec.decode(token).JwtError? ==>
      VerifyToken(codec, Some(scheme + " " + token)) == Failure(HttpError(403, "Invalid token or expired token"))
    ensures codec.decode(token).OtherFailure? ==>
      VerifyToken(codec, Some(scheme + " " + token)) == Failure(HttpError(401, "Invalid token"))
    ensures codec.decode(token).Payload? ==>
      VerifyToken(codec, Some(scheme + " " + token)) == Success(codec.decode(token).claims)
  {
    var h := scheme + " " + token;
    SplitWsTwoWords(scheme, token);
    var parts := SplitWs(h);
    assert parts[0] == scheme && parts[1] == token;
    assert Given(Some(h));
  }

  /** Both spellings of the scheme are single words that lower-case to "bearer". */
  lemma BearerSpellings()
    ensures Lower("BEARER") == "bearer" && Lower("bearer") == "bearer"
    ensures forall m :: 0 <= m < 6 ==> !IsSpace("BEARER"[m]) && !IsSpace("bearer"[m])
  {
    LowerPointwise("BEARER");
    LowerPointwise("bearer");
  }

  /** The scheme is compared without regard to case: "BEARER t" is as good as "bearer t". */
  lemma SchemeIgnoresCase(codec: Codec, token: string)
    requires token != "" && forall m :: 0 <= m < |token| ==> !IsSpace(token[m])
    ensures VerifyToken(codec, Some("BEARER " + token)) == VerifyToken(codec, Some("bearer " + token))
  {
    BearerSpellings();
    assert "BEARER" + " " + token == "BEARER " + token;
    assert "bearer" + " " + token == "bearer " + token;
    BearerHeader(codec, "BEARER", token);
    BearerHeader(codec, "bearer", token);
    match codec.decode(token)
    case Payload(_) =>
    case JwtError =>
    case OtherFailure =>
  }

  /** A bare token without a scheme is a format error, not a scheme error. */
  lemma BareTokenIsFormatError(codec: Codec, token: string)
    requires token != "" && forall m :: 0 <= m < |token| ==> !IsSpace(token[m])
    ensures VerifyToken(codec, Some(token)) == Failure(HttpError(401, "Invalid authorization header format"))
  {
    SplitWsOneWord(token);
  }

  lemma SplitWsOneWord(a: string)
    requires a != "" && forall m :: 0 <= m < |a| ==> !IsSpace(a[m])
    ensures SplitWs(a) == [a]
  {
    SkipWhileConcat([], a, IsSpace);
    assert [] + a == a;
    SkipWhileConcat(a, [], NotSpace);
    assert a + [] == a;
    assert a[..|a|] == a;
    assert a[|a|..] == [];
    assert SplitWs([]) == [];
  }
}

=== FILE: wrappers.dfy ===
/** Failure-compatible wrappers shared by every module of the model. */
module Wrappers {

  /** A value that may be absent: Python's `None` versus a present value. */
  datatype Option<+T> = None | Some(value: T)
  {
    function GetOr(default: T): T
    {
      match this
      case Some(v) => v
      case None => default
    }
  }

  /** The outcome of an operation that raises on failure in the source. */
  datatype Result<+T, +E> = Success(value: T) | Failure(error: E)

  /** Python truthiness of an optional string: `None` and `""` are both false. */
  predicate Given(o: Option<string>)
  {
    o.Some? && o.value != ""
  }
}
